=== FILE: README.md ===
# pyccapt core in Dafny

A model of the core of pyccapt, the control and calibration software of the
OXCART atom-probe instrument:

- **the experiment driver** (`oxcart.py`): the rate controller tick
  (`main_ex_loop`), the three queue-drain threads, the control loop of `main`
  with its stop criteria and tick budget, the post-run total and length check,
  and the variable reset of `clear_up`;
- **the HDF5 reader** (`read_hdf5`): datasets by `group/item` path, with the
  surface-concept time-sum and position conversions;
- **loading and cropping** (`data_loadcrop.py`): the detector and
  time-of-flight mask, the six-column frame, the row-range crop and the circular
  region-of-interest crop;
- **LEAP export and import** (`ccapt_tools.py`): the POS and EPOS byte layouts
  and the calibration-frame column mapping;
- **the simple time-of-flight to mass-to-charge conversion** (`tof2mc_simple.py`);
- **the ion-selection widget callbacks** (`widgets.py`);
- **the interactive marker lines** of the mass-spectrum plot (`plot_vline_draw.py`).

Every global of the `variables` module becomes a field of an immutable
record. Every callback and every loop body becomes a pure function from
record to record. A Python exception that escapes becomes an explicit error
outcome, which keeps every assignment made before the raise. Floats are
exact reals. numpy's casts to IEEE single and to `uint32` are
function-valued parameters.

Modules, in dependency order:

| module | concern |
|---|---|
| `Options`, `Seqs`, `Sorting`, `PyMath` | optional values, `list.remove`, `np.tile`, `s[-k:]`, `list.sort()`, `abs`, `int()`, `round(x, 2)` |
| `ExperimentState` | run configuration, run record, event accumulators, tag invariants |
| `Drain` | `reader_queue_dld` / `_tdc` / `_drs` |
| `Controller` | `main_ex_loop` |
| `Lifecycle` | the `while steps < total_steps` loop of `main` |
| `PostRun`, `Cleanup` | what follows the loop; `cleanup_variables` |
| `HdfRead` | `read_hdf5` |
| `LoadCrop` | `data_loadcrop.py` |
| `LeapFormats` | `ccapt_tools.py` |
| `TofMc` | `tof2mc_simple.py` |
| `MaterialList` | `widgets.py` |
| `VerticalLines` | `plot_vline_draw.py` |

Points where the code does something other than its comments, names or log
messages suggest, modelled as the code does it:

- **The pulse voltage is not clipped.** `oxcart.py:279-283` updates it only when
  the new pulser set-point lies strictly inside the supply bounds, and otherwise
  leaves it unchanged.
- **The voltage ratchet does not clamp at the ceiling.** `oxcart.py:270-274`
  adds the step to any voltage below `vdc_max`, so a step taken from just below
  the ceiling carries the voltage past it (`Controller.RatchetMayOvershoot`).
- **The length check warns when every array agrees.** `oxcart.py:639-656` logs
  "have not same length" when `all(len(lst) == ...)` holds (Findings, row 1).
- **`tof2mc_simple.py` is modelled as evidently intended.** Its docstrings are
  indented with a tab and its bodies with four spaces. Python 3's tokenizer
  rejects the file on import with an `IndentationError` ("unindent does not
  match any outer indentation level") at line 19. The model describes the
  functions as written once that indentation is made consistent.

## Model

| member | source | states |
|---|---|---|
| Seqs.LastN | oxcart.py:251-252 | `s[-k:]` is the last `k` elements in order, or all of `s` when it is shorter |
| Seqs.Repeat | oxcart.py:165 | `np.tile(v, n)` has exactly `n` elements, all equal to `v` |
| Seqs.RemoveFirst | pyccapt/calibration/calibration_tools/widgets.py:93 | `list.remove` drops exactly one occurrence (the first) and keeps the rest in order |
| Sorting.Sort | pyccapt/calibration/data_tools/plot_vline_draw.py:64 | `list.sort()` returns an ascending permutation of its input |
| Sorting.SortedUnique | pyccapt/calibration/data_tools/plot_vline_draw.py:64 | two ascending lists with the same elements are equal, so the sorted marker list is determined by its contents |
| PyMath.TruncToInt | pyccapt/calibration/calibration_tools/widgets.py:159 | `int(charge)` truncates toward zero: within one of `x`, on the side of zero |
| PyMath.Round2 | pyccapt/calibration/calibration_tools/widgets.py:159 | `round(x, 2)` is a multiple of 0.01 within 0.005 of `x`, strictly nearest off a tie, and with an even last digit on a tie |
| Drain.DrainDld | oxcart.py:157-166 | the four paired-event batches are appended in order. Exactly `len(x batch)` copies of the current specimen and pulse voltage are appended as tags. Nothing else in the run changes. Tag and full alignment are preserved for aligned batches |
| Drain.DrainTdc | oxcart.py:204-212 | the same for the raw TDC queues, tagging by the channel batch's length |
| Drain.DrainDrs | oxcart.py:177-194 | the same for the eight digitizer queues, tagging by the `ch0_time` batch's length |
| Drain.DrainDldAllTagsEveryEvent | oxcart.py:156-166 | any number of drained batches adds exactly their events. Every event keeps one tag. Old tags are kept, and every new tag is the voltage at drain time |
| Controller.CountsTarget | oxcart.py:497 | the setpoint is the detection rate as a fraction; the pulse frequency cancels |
| Controller.VoltageStep | oxcart.py:259-267 | the error times `vdc_step_up` when positive and `vdc_step_down` otherwise, times 2.5 when accelerated. A zero error gives a zero step; with positive gains the step has the sign of the error |
| Controller.AcceleratedStepScale | oxcart.py:260-263 | the accelerated step is exactly 2.5 times the ordinary one |
| Controller.Ratchet | oxcart.py:270-274 | the voltage never decreases. It changes exactly when it lies in `[vdc_min, vdc_max)` and the step is positive, and then by exactly the step |
| Controller.RatchetMayOvershoot | oxcart.py:270-274 | a concrete step from 99 V with a 100 V ceiling lands at 109 V: nothing clamps to `vdc_max` |
| Controller.PulseUpdate | oxcart.py:278-283 | the pulser is commanded exactly when the set-point lies strictly between its supply bounds. The command is that set-point, and the pulse voltage becomes `pulse_fraction × V`; otherwise the pulse voltage is kept |
| Controller.PulseWindow | oxcart.py:279-281 | with a positive amplifier gain, the supply-bound test is the same as `v_p_min < pulse_fraction × V < v_p_max` |
| Controller.ShortHistoryAverage | oxcart.py:251-252 | while fewer than `cycle_avg` ticks are recorded, the average still divides by `cycle_avg` |
| Controller.SteadyStateAverage | oxcart.py:251-252 | when the last `cycle_avg` deltas all equal `c`, the average is `ex_freq × c` |
| Controller.Tick | oxcart.py:232-286 | the rolling average is taken over the counter row just appended, and its error against the target steps the ratchet. The HV supply is commanded exactly when the voltage moved. The pulser is commanded exactly when the set-point for the new voltage is strictly inside its window, and the pulse voltage is otherwise kept. One telemetry row records the voltages from before the update |
| Controller.TickRaisesExactlyBelowTarget | oxcart.py:250-274 | with positive gains and the voltage in `[vdc_min, vdc_max)`, a tick raises the voltage exactly when the measured rate `avg / (1 + pulse_frequency·1000)` is below the target |
| Controller.TickCounts | oxcart.py:232-249 | the ion total by acquisition mode, including the raw-TDC empty-channel guard. Also the per-tick delta against the previous total, and the telescoping of the recorded deltas |
| Controller.TickFrame | oxcart.py:217-286 | a tick leaves the event accumulators, flags and display counters untouched |
| Controller.TicksInvariants | oxcart.py:243-252 | over any number of ticks: the voltage is non-decreasing, there is one row per tick, accumulators are untouched, and the deltas sum to the change of the last total |
| Controller.TicksRecordMonotoneVoltages | oxcart.py:247 | the recorded specimen-voltage history is ascending and never above the current voltage |
| Lifecycle.ApplyDrains | oxcart.py:500-511 | drained batches leave the controller's values alone and preserve the one-tag-per-event invariant |
| Lifecycle.Start | oxcart.py:487-517 | the start voltages are `vdc_min` and `v_p_min`, the setpoint is rate/100, and the budget is `ex_time × ex_freq` at step 0. The rest of the run record is kept |
| Lifecycle.Advance | oxcart.py:519-567 | the first half of an iteration: the step is numbered into `time_counter` and counted, the start flag is raised on the first pass, and the stop button is latched. The voltage does not fall, one telemetry row is added, the deltas keep telescoping, and every event keeps its tags |
| Lifecycle.StopChecks | oxcart.py:568-597 | a `break` changes nothing further. Otherwise only the debounce counter, the budget and the last seen `ex_time` change |
| Lifecycle.Iterate | oxcart.py:519-597 | the stop order is user abort, then the ion target, then the ceiling. The ceiling breaks only after more than `ex_freq × 10` counted ticks. The debounce counter never resets. An `ex_time` edit recomputes the budget as `ex_time × ex_freq − steps`. Without the time criterion, the budget (recomputed or not) grows by one when `steps + 1` reaches it. The budget is never the reason of a `break` |
| Lifecycle.RunInvariants | oxcart.py:513-597 | along any run: `time_counter == range(steps)`, the voltage never falls below its start, the deltas telescope, tags stay aligned, and steps grow by at most one per input |
| Lifecycle.IterateKeepsInvariant | oxcart.py:519-597 | one iteration preserves the loop invariant |
| Lifecycle.TimeCriterionBoundsTicks | oxcart.py:513-519 | with the time criterion and an unedited `ex_time`, the loop runs at most `ex_time × ex_freq` ticks |
| Lifecycle.NoTimeCriterionNeverSpendsBudget | oxcart.py:595-597 | without the time criterion the budget keeps extending itself, so the loop ends only by a `break` |
| Lifecycle.FreshRunWithoutTimeCriterion | oxcart.py:513-597 | the same for a run started by `Start` with a budget of at least two ticks |
| Lifecycle.Run | oxcart.py:513-597 | the `while steps < total_steps` loop: a spent budget stops it with that reason and no further tick; otherwise it takes one tick per input until a `break` or the inputs run out. A run that is still pending has consumed every input and has budget left |
| Lifecycle.CeilingDebounceIsExact | oxcart.py:584-591 | at the ceiling with counter `h`, and nothing else stopping the run, the loop breaks for the voltage ceiling after exactly `ex_freq×10 + 2 − h` ticks |
| PostRun.Finish | oxcart.py:618-633 | `end_experiment` is set and the total is re-read by mode (raw TDC without the non-empty guard); nothing else changes |
| PostRun.LengthWarningAsWritten | oxcart.py:639-656 | the check as written warns exactly when the arrays it lists all agree: for paired events that list tests `main_v_dc_dld` in place of `main_v_p_dld`, and for the digitizer it tests the raw-TDC tags. The pulse counter never warns |
| PostRun.LengthMismatchWarning | oxcart.py:639-656 | the intended check warns exactly when some array of the active mode differs in length. It is the negation of the written check for raw TDC, and for the other modes whenever the arrays the written check substitutes have the same lengths |
| PostRun.AlignedDrainsWarnAsWritten | oxcart.py:639-656 | on paired-event data whose arrays all agree, the check as written logs its warning |
| PostRun.AlignedDrainsStaySilent | oxcart.py:639-656 | aligned drains keep every paired array the same length, so the intended check is silent |
| PostRun.MismatchGoesUnreported | oxcart.py:640-644 | a concrete paired-event run missing its time of flight gets no warning as written |
| Cleanup.CleanupVariables | oxcart.py:292-342 | flags are lowered and counters and indices zeroed. Every listed accumulator and telemetry array is emptied. Voltages, the ion total, the average and the digitizer tag arrays are left alone |
| Cleanup.CleanupIdempotent | oxcart.py:292-342 | resetting twice is resetting once |
| Cleanup.CleanupLeavesStaleDrsTags | oxcart.py:316-342 | after a digitizer run with tags, the reset leaves tags without waveforms |
| Cleanup.CleanupVariablesCorrected | oxcart.py:292-342 | the reset with the digitizer tags cleared as well, otherwise identical |
| Cleanup.CorrectedCleanupRestoresTagging | oxcart.py:292-342 | after the corrected reset every accumulator of every mode is empty and aligned |
| HdfRead.Convert | pyccapt/calibration/data_tools/data_tools.py:36-45 | surface-concept `dld/t` is scaled element-wise to ns and `dld/x`, `dld/y` to cm from the centre. Every other dataset, and every dataset of another TDC, is passed through |
| HdfRead.StoreKeys | pyccapt/calibration/data_tools/data_tools.py:34-46 | the stored keys are exactly the `group/item` paths of the file |
| HdfRead.StoreValues | pyccapt/calibration/data_tools/data_tools.py:34-46 | with distinct paths, every dataset is stored, converted, under its own path |
| HdfRead.ReadHdf5 | pyccapt/calibration/data_tools/data_tools.py:19-51 | a missing file gives `None` with the critical log line. Otherwise it gives the converted datasets under exactly their paths |
| HdfRead.DetectorGeometry | pyccapt/calibration/data_tools/data_tools.py:20-24 | the centre is bin 1225, a bin is 78/2450 mm wide, and the time factor is 0.006858 ns per bin |
| HdfRead.PositionScaleFacts | pyccapt/calibration/data_tools/data_tools.py:41 | the centre bin maps to 0, the map is strictly increasing, and it is inverted by its inverse |
| HdfRead.TimeScaleFacts | pyccapt/calibration/data_tools/data_tools.py:39 | the time scaling is strictly increasing, sign-preserving and invertible |
| HdfRead.DetectorEdges | pyccapt/calibration/data_tools/data_tools.py:41 | bins 0 and 2450 land at −3.9 and 3.9 cm |
| HdfRead.OtherTdcPassesThrough | pyccapt/calibration/data_tools/data_tools.py:37-46 | another TDC model gets every dataset back unchanged |
| LoadCrop.PulseKey | pyccapt/calibration/calibration_tools/data_loadcrop.py:30-33 | a pulse dataset exists exactly for the `laser` and `voltage` modes |
| LoadCrop.ColumnNames | pyccapt/calibration/calibration_tools/data_loadcrop.py:229-249 | six columns exist exactly for a known TDC and pulse mode. The pulse column is `pulse (V)` in voltage mode and `pulse (deg)` in laser mode |
| LoadCrop.Kept | pyccapt/calibration/calibration_tools/data_loadcrop.py:43-48 | the kept indices are exactly the true mask positions, strictly ascending |
| LoadCrop.Select | pyccapt/calibration/calibration_tools/data_loadcrop.py:43-46 | `col[mask]` holds the selected values in order |
| LoadCrop.DetectorMask | pyccapt/calibration/calibration_tools/data_loadcrop.py:40-42 | a row passes exactly when `|x|`, `|y|` are within the bound and `0 < t < max_tof` |
| LoadCrop.Scale | pyccapt/calibration/calibration_tools/data_loadcrop.py:47-48 | every value is multiplied by the factor |
| LoadCrop.Stack | pyccapt/calibration/calibration_tools/data_loadcrop.py:50-58 | row `i`, column `c` of the concatenation is entry `i` of column `c` |
| LoadCrop.MaskedRows | pyccapt/calibration/calibration_tools/data_loadcrop.py:43-58 | every column masked alike, then stacked |
| LoadCrop.SurfaceRows | pyccapt/calibration/calibration_tools/data_loadcrop.py:28-58 | surface-concept rows: high voltage, pulse, start counter, t, and x and y times 0.1, from the kept indices |
| LoadCrop.RoentdecRows | pyccapt/calibration/calibration_tools/data_loadcrop.py:60-92 | roentdec rows: the masked time of flight stands in the third column too, and x and y are unscaled |
| LoadCrop.Lookup | pyccapt/calibration/calibration_tools/data_loadcrop.py:29-37 | the lookup succeeds exactly when every key is present, and returns their datasets in order |
| LoadCrop.RequiredKeys | pyccapt/calibration/calibration_tools/data_loadcrop.py:61-69 | six datasets are read for a known pulse mode, five otherwise. `high_voltage`, `t`, `x` and `y` always, the pulse dataset for its mode, and `start_counter` for the surface-concept detector |
| LoadCrop.Broadcast | pyccapt/calibration/calibration_tools/data_loadcrop.py:40-42 | `np.logical_and` of two operands succeeds exactly when their lengths agree or one is 1. Each operand then has the result's length or length 1 |
| LoadCrop.FetchDataset | pyccapt/calibration/calibration_tools/data_loadcrop.py:19-100 | a missing file is logged as `HDF5 file not found`. An unknown TDC raises, with the frame unbound. A frame has `create_pandas_dataframe`'s columns and one value per column in every row |
| LoadCrop.FetchGotExactly | pyccapt/calibration/calibration_tools/data_loadcrop.py:19-93 | a frame comes back exactly for a read file, a known TDC and pulse mode, every dataset present, and the masked datasets all of one length |
| LoadCrop.FetchKeysMissing | pyccapt/calibration/calibration_tools/data_loadcrop.py:95-97 | a read storage with a known TDC gets `Keys missing` exactly when a required dataset is absent |
| LoadCrop.FetchPulseUnbound | pyccapt/calibration/calibration_tools/data_loadcrop.py:30-44 | the unbound pulse column is raised exactly for an unknown pulse mode whose other datasets are present, once numpy built the mask (broadcasting a length-1 `x`, `y` or `t`) and `high_voltage` matched its length |
| LoadCrop.MaskKeepsExactly | pyccapt/calibration/calibration_tools/data_loadcrop.py:40-46 | an index survives the mask if and only if it is in bounds |
| LoadCrop.SurfaceRowsWithinBounds | pyccapt/calibration/calibration_tools/data_loadcrop.py:40-48 | every surviving surface-concept row has `|x|, |y| ≤ 4` and `0 < t < max_tof` |
| LoadCrop.CropDataset | pyccapt/calibration/calibration_tools/data_loadcrop.py:203-206 | the rows are `int(x1)` through `int(x2)` inclusive (the label slice is inclusive), clipped to the frame, contiguous, in order and renumbered. Every row of that range is kept |
| LoadCrop.CropFullRange | pyccapt/calibration/calibration_tools/data_loadcrop.py:203-206 | cropping to the frame's own range changes nothing |
| LoadCrop.CropIsRenumbered | pyccapt/calibration/calibration_tools/data_loadcrop.py:205 | a crop carries the default index: re-cropping it to its length is the identity |
| LoadCrop.RoiMatchesDistance | pyccapt/calibration/calibration_tools/data_loadcrop.py:222-224 | for the non-negative root, `sqrt(d²) > roi` is exactly "outside the circle" |
| LoadCrop.CropAfterSelection | pyccapt/calibration/calibration_tools/data_loadcrop.py:218-227 | missing position columns raise. Otherwise the columns are kept and the rows are an order-preserving subsequence. Every copy of a row inside the circle survives, and no copy of one outside it |
| LoadCrop.RoiCropKeepsExactly | pyccapt/calibration/calibration_tools/data_loadcrop.py:222-226 | a row survives if and only if it was there and lies inside the circle, and then with as many copies as it had |
| LoadCrop.RoiCropKeepsRectangular | pyccapt/calibration/calibration_tools/data_loadcrop.py:225-226 | the cropped frame still has one value per column in every row |
| Seqs.FilterCount | pyccapt/calibration/calibration_tools/data_loadcrop.py:225 | boolean-mask selection keeps every copy of an element that passes the mask and none of one that fails it |
| LoadCrop.PositionColumnAsWritten | pyccapt/calibration/calibration_tools/data_loadcrop.py:47-48 | assuming the fetch's reader converts positions as `read_hdf5` in pyccapt/calibration/data_tools/data_tools.py:41 does: the fetch's ×0.1 applied to that reader's centimetres. The surface-concept x column then holds the millimetre distance divided by 100 |
| LoadCrop.EdgeScaledTwice | pyccapt/calibration/calibration_tools/data_loadcrop.py:47-48 | under the same assumption about the reader, the detector edge, 3.9 cm from the centre, lands at 0.39 in a column labelled cm |
| LoadCrop.PositionColumnCorrected | pyccapt/calibration/calibration_tools/data_loadcrop.py:47-48 | with one conversion the column holds the millimetre distance divided by 10 |
| LoadCrop.CorrectedEdges | pyccapt/calibration/calibration_tools/data_loadcrop.py:47-48 | with one conversion the edges sit at ±3.9 cm, 7.8 cm apart |
| LeapFormats.EposColumns | pyccapt/calibration/leap_tools/ccapt_tools.py:24-33 | eleven columns exist exactly for the `voltage` and `laser` modes |
| LeapFormats.WordRoundTrip | pyccapt/calibration/leap_tools/ccapt_tools.py:16 | the big-endian bytes of a word decode back to that word |
| LeapFormats.BytesRoundTrip | pyccapt/calibration/leap_tools/ccapt_tools.py:16 | four bytes encode back to themselves |
| LeapFormats.WordBytes | pyccapt/calibration/leap_tools/ccapt_tools.py:16 | a word is written as four bytes, most significant first (`>` order): `b0·2²⁴ + b1·2¹⁶ + b2·2⁸ + b3` is the word |
| LeapFormats.Pack | pyccapt/calibration/leap_tools/ccapt_tools.py:16 | `struct.pack` writes four bytes per word |
| LeapFormats.UnpackPack | pyccapt/calibration/leap_tools/ccapt_tools.py:16 | unpacking packed words gives them back |
| LeapFormats.PackUnpack | pyccapt/calibration/leap_tools/ccapt_tools.py:16 | packing unpacked bytes of a length divisible by four gives them back |
| LeapFormats.ChunkFlatten | pyccapt/calibration/leap_tools/ccapt_tools.py:15 | `chain(*records)` followed by cutting into records of the width gives the records back |
| LeapFormats.RecordsRoundTrip | pyccapt/calibration/leap_tools/ccapt_tools.py:13-16 | records take `4 × width` bytes each and read back unchanged |
| LeapFormats.ColumnIndices | pyccapt/calibration/leap_tools/ccapt_tools.py:11 | the selection succeeds exactly when every name is a column, and each index found holds its name. When no selected label names two columns, that index is the only column of its name |
| LeapFormats.Records | pyccapt/calibration/leap_tools/ccapt_tools.py:11-15 | one record per row: the selected cells in selection order, each cast by its kind |
| LeapFormats.Output | pyccapt/calibration/leap_tools/ccapt_tools.py:17-19 | a file is written only when a name is given. It goes to `path + name` and holds the returned bytes; without a path, the concatenation raises |
| LeapFormats.Export | pyccapt/calibration/leap_tools/ccapt_tools.py:11-19 | a KeyError exactly for a missing column. It fails exactly when, with all present, a selected label names two columns: pandas then takes every copy and the pack count no longer matches. Otherwise the bytes decode to the cast records of the selected columns, and the written file matches them |
| LeapFormats.CcaptToPos | pyccapt/calibration/leap_tools/ccapt_tools.py:9-20 | 16 bytes per ion, decoding to the row's x, y, z and mass-to-charge as singles. A KeyError exactly when one of them is missing. A failure exactly when, with all four present, one of their labels names two columns |
| LeapFormats.CcaptToEpos | pyccapt/calibration/leap_tools/ccapt_tools.py:23-47 | an unknown pulse mode leaves the selection unbound. Otherwise there are 44 bytes per ion: the row's nine singles and two unsigned integers, in column order. A KeyError exactly when a column is missing. A failure exactly when, with all present, a label names two columns |
| LeapFormats.CcaptNeverRepeated | pyccapt/calibration/leap_tools/ccapt_tools.py:53-67 | the calibration frame an import builds names each column once, so exporting it never meets a repeated label |
| LeapFormats.Import | pyccapt/calibration/leap_tools/ccapt_tools.py:49-89 | each calibration column takes its file column or zero. The frame has the 14 calibration columns and one row per ion. A missing file column raises |
| LeapFormats.PosToCcapt | pyccapt/calibration/leap_tools/ccapt_tools.py:49-68 | x, y, z and `m/n` land in the first four columns, and every other column is zero |
| LeapFormats.EposToCcapt | pyccapt/calibration/leap_tools/ccapt_tools.py:71-89 | the frame has the calibration layout and one row per ion exactly when all eleven EPOS columns exist |
| LeapFormats.EposColumnLands | pyccapt/calibration/leap_tools/ccapt_tools.py:74-88 | each EPOS column arrives under its calibration name |
| LeapFormats.EposUnmappedAreZero | pyccapt/calibration/leap_tools/ccapt_tools.py:78-83 | `mc (Da)`, `start_counter` and `t_c (nm)` are zero |
| LeapFormats.PosFromCcaptLayout | pyccapt/calibration/leap_tools/ccapt_tools.py:9-20 | exporting a frame whose first four columns are the POS columns takes those columns as they stand |
| LeapFormats.PosThroughCcapt | pyccapt/calibration/leap_tools/ccapt_tools.py:49-68 | POS → calibration frame → POS keeps every ion's position and mass-to-charge, as singles, in order |
| LeapFormats.EposThroughCcapt | pyccapt/calibration/leap_tools/ccapt_tools.py:71-89 | EPOS → calibration frame → voltage-mode EPOS keeps every field of every record |
| LeapFormats.LaserExportNeedsPulseAngle | pyccapt/calibration/leap_tools/ccapt_tools.py:29-33 | a frame imported from POS has no `pulse (deg)`, so the laser export raises |
| TofMc.SameScalesAsReader | pyccapt/control/control_tools/tof2mc_simple.py:19-29 | the conversion's position and time scales agree with the HDF5 reader's |
| TofMc.DistancePositive | pyccapt/control/control_tools/tof2mc_simple.py:38 | the flight distance is positive unless the hit is on the axis with a zero path length |
| TofMc.TofBinToMc | pyccapt/control/control_tools/tof2mc_simple.py:4-42 | no ratio only on the axis at zero path. Otherwise the energy balance holds: `mc × amu × L² = 2 e V t²` |
| TofMc.OnAxisUndefined | pyccapt/control/control_tools/tof2mc_simple.py:38-40 | the on-axis, zero-path case has no ratio |
| TofMc.FlightTimeSquared | pyccapt/control/control_tools/tof2mc_simple.py:40-41 | the inverse conversion: the squared flight time for a ratio, voltage and hit |
| TofMc.McRoundTrip | pyccapt/control/control_tools/tof2mc_simple.py:40-41 | the ratio converted back gives the squared corrected flight time |
| TofMc.McLinearInVoltage | pyccapt/control/control_tools/tof2mc_simple.py:40 | the ratio scales linearly with the voltage |
| TofMc.McPositive | pyccapt/control/control_tools/tof2mc_simple.py:40-41 | a positive voltage and a non-zero corrected time give a positive ratio |
| TofMc.McZeroAtT0 | pyccapt/control/control_tools/tof2mc_simple.py:30 | an ion arriving exactly at t0 has ratio zero |
| TofMc.McMirrorSymmetric | pyccapt/control/control_tools/tof2mc_simple.py:25-26 | hits mirrored through the detector centre give the same ratio |
| TofMc.DistanceGrows | pyccapt/control/control_tools/tof2mc_simple.py:34-38 | the distance grows with the flight path length |
| TofMc.McFallsWithDistance | pyccapt/control/control_tools/tof2mc_simple.py:38-41 | the same flight time over a longer path means a smaller ratio |
| MaterialList.ComputeMassToCharge | pyccapt/calibration/calibration_tools/widgets.py:156-160 | it completes exactly when element and charge are set and `int(charge) ≠ 0`, storing `round(mass / int(charge), 2)`. Otherwise it raises with nothing changed |
| MaterialList.OnChangeElement | pyccapt/calibration/calibration_tools/widgets.py:116-133 | a value change stores the element, clears the derived value, and recomputes it when it can. Other events change nothing |
| MaterialList.OnChangeCharge | pyccapt/calibration/calibration_tools/widgets.py:136-153 | with no element it raises before storing the charge. Otherwise it stores the charge and recomputes, raising on a zero charge |
| MaterialList.PickOrderIrrelevant | pyccapt/calibration/calibration_tools/widgets.py:116-160 | once an element is selected, picking an element then a non-zero charge, or the charge then the element, ends in the same selection, the one `ComputeMassToCharge` gives for both values |
| MaterialList.OnClickAdd | pyccapt/calibration/calibration_tools/widgets.py:59-76 | the derived value is appended only when set and not yet listed, so the list stays duplicate-free |
| MaterialList.OnClickDelete | pyccapt/calibration/calibration_tools/widgets.py:79-98 | when listed, the first occurrence of the derived value is removed and the rest keep their order; nothing else changes. A duplicate-free list no longer contains it |
| MaterialList.NoDuplicatesAfterRemove | pyccapt/calibration/calibration_tools/widgets.py:92-93 | removing a listed value from a duplicate-free list leaves it duplicate-free and without that value |
| MaterialList.OnClickReset | pyccapt/calibration/calibration_tools/widgets.py:101-113 | the list is emptied and the selection kept |
| MaterialList.AddThenDeleteRestores | pyccapt/calibration/calibration_tools/widgets.py:59-98 | adding an unlisted value and deleting it restores the selection |
| MaterialList.AddIdempotent | pyccapt/calibration/calibration_tools/widgets.py:70-73 | adding twice is adding once |
| MaterialList.DefaultSelection | pyccapt/calibration/calibration_tools/widgets.py:17-36 | the first option's value becomes the default charge or element. An empty option list raises; other labels set nothing |
| VerticalLines.Init | pyccapt/calibration/data_tools/plot_vline_draw.py:5-27 | no lines, no active line, no modifier held. With samples, the x range is their minimum and maximum |
| VerticalLines.ArgMin | pyccapt/calibration/data_tools/plot_vline_draw.py:38 | `min(key=…)` picks the first element with the least key |
| VerticalLines.FirstNear | pyccapt/calibration/data_tools/plot_vline_draw.py:47-48 | the first line strictly within 0.1 of the click, or none when no line is |
| VerticalLines.UpdateVariables | pyccapt/calibration/data_tools/plot_vline_draw.py:59-64 | the marker list gains exactly one occurrence of the position and is ascending; a missing list becomes `[pos]` |
| VerticalLines.AddMarker | pyccapt/calibration/data_tools/plot_vline_draw.py:31-33 | one fresh line at the position, and its marker |
| VerticalLines.RecordAll | pyccapt/calibration/data_tools/plot_vline_draw.py:30-33 | recording every value in turn gives an ascending list of the old values plus all the new ones |
| VerticalLines.DrawMarkers | pyccapt/calibration/data_tools/plot_vline_draw.py:29-34 | one line per peak width in order, and their markers added with multiplicity |
| VerticalLines.AddLine | pyccapt/calibration/data_tools/plot_vline_draw.py:40-45 | a new active line at the click with the next identity, and its marker recorded. The earlier lines, the flags, the range and the peak widths are kept |
| VerticalLines.ClosestValue | pyccapt/calibration/data_tools/plot_vline_draw.py:52 | a marker at least as close to the target as every other, and strictly closer than every marker before it: the first of equally close ones |
| VerticalLines.ClosestLine | pyccapt/calibration/data_tools/plot_vline_draw.py:38 | a line at least as close to the click as every other, and strictly closer than every line before it: the first of equally close ones |
| VerticalLines.RemoveNear | pyccapt/calibration/data_tools/plot_vline_draw.py:46-57 | the first near line is removed. Then the marker closest to it is removed and the list re-sorted. A missing or empty list raises after the line is gone |
| VerticalLines.OnPress | pyccapt/calibration/data_tools/plot_vline_draw.py:36-57 | ctrl + left click activates the closest line (and raises with no lines). Left click adds a line and records its marker unless one is near, keeping the earlier lines. Right click removes. Other buttons do nothing |
| VerticalLines.OnRelease | pyccapt/calibration/data_tools/plot_vline_draw.py:66-67 | no line is active afterwards, and nothing else changes |
| VerticalLines.MoveLine | pyccapt/calibration/data_tools/plot_vline_draw.py:70-71 | only the line with the given identity moves |
| VerticalLines.OnMotion | pyccapt/calibration/data_tools/plot_vline_draw.py:69-72 | the active line, and only it, follows the pointer; the marker list is untouched |
| VerticalLines.ClearAll | pyccapt/calibration/data_tools/plot_vline_draw.py:77-82 | every line is removed, then the marker list is emptied; a missing list raises after the lines are gone |
| VerticalLines.OnKeyPress | pyccapt/calibration/data_tools/plot_vline_draw.py:74-86 | `shift` and `control` set their flags, `r` clears, `a` draws the peak widths, and other keys do nothing |
| VerticalLines.OnKeyRelease | pyccapt/calibration/data_tools/plot_vline_draw.py:88-92 | releasing shift or control clears only that flag |
| VerticalLines.Zoom | pyccapt/calibration/data_tools/plot_vline_draw.py:98-103 | each bound's distance from the pointer is divided (up) or multiplied (down) by the zoom factor. The pointer keeps its side of each bound and its relative position, and the width scales by the factor |
| VerticalLines.OnScroll | pyccapt/calibration/data_tools/plot_vline_draw.py:94-105 | the range changes only while shift is held |
| VerticalLines.Handle | pyccapt/calibration/data_tools/plot_vline_draw.py:14-19 | each event reaches the callback it is connected to |
| VerticalLines.AddMarkerKeepsWellFormed | pyccapt/calibration/data_tools/plot_vline_draw.py:31-33 | identities stay distinct and fresh, and the marker list stays ascending |
| VerticalLines.DrawMarkersKeepsWellFormed | pyccapt/calibration/data_tools/plot_vline_draw.py:29-34 | the same for drawing all peak widths |
| VerticalLines.RemoveNearKeepsWellFormed | pyccapt/calibration/data_tools/plot_vline_draw.py:46-57 | the same for a right click, whether it completes or raises |
| VerticalLines.OnPressKeepsWellFormed | pyccapt/calibration/data_tools/plot_vline_draw.py:36-57 | the same for every click |
| VerticalLines.HandleKeepsWellFormed | pyccapt/calibration/data_tools/plot_vline_draw.py:14-19 | every callback keeps the manager well formed |
| VerticalLines.AppendedLineIsFirstNear | pyccapt/calibration/data_tools/plot_vline_draw.py:41-48 | a line just added away from all others is the one a right click at the same place removes |
| VerticalLines.RecordThenForget | pyccapt/calibration/data_tools/plot_vline_draw.py:52-64 | recording a marker and removing the marker closest to it restores the ascending list |
| VerticalLines.AddThenRemoveRestores | pyccapt/calibration/data_tools/plot_vline_draw.py:40-57 | a left click away from every line, then a right click at the same place, restores the lines and the marker list |
| VerticalLines.ZoomRoundTrip | pyccapt/calibration/data_tools/plot_vline_draw.py:98-103 | zooming in then out about one point restores the range, and the other way round |
| VerticalLines.ScrollKeepsPointerInRange | pyccapt/calibration/data_tools/plot_vline_draw.py:94-104 | a pointer inside the range stays inside it |
| VerticalLines.AddLineKeepsInSync | pyccapt/calibration/data_tools/plot_vline_draw.py:40-45 | after a left click the lines and markers hold the same positions |
| VerticalLines.RemoveNearKeepsInSync | pyccapt/calibration/data_tools/plot_vline_draw.py:47-55 | a completed right click removes the marker at the removed line's own position |
| VerticalLines.ClosestOfMember | pyccapt/calibration/data_tools/plot_vline_draw.py:52 | a value that is a marker is its own closest marker |
| VerticalLines.ClicksKeepInSync | pyccapt/calibration/data_tools/plot_vline_draw.py:36-92 | every completed callback except a drag keeps the lines and markers in step |
| VerticalLines.DrawMarkersInSync | pyccapt/calibration/data_tools/plot_vline_draw.py:29-33 | drawing the peak widths keeps them in step |
| VerticalLines.MotionLeavesMarkersBehind | pyccapt/calibration/data_tools/plot_vline_draw.py:69-72 | dragging a line leaves its marker at the old position |

## Left out

- Device I/O is not modelled: serial HV commands, VISA pulser writes, NI-DAQ
  counter set-up, the signal generator, sleeps and timing. The commands a tick
  issues are its `hvCommand` / `pulserCommand` results. The edge-counter reading
  and the temperature and vacuum samples are tick inputs.
- Processes, threads, locks and queues are not modelled. A drain thread's work
  between two ticks is a sequence of batches applied before the tick.
- The persistence stage is not modelled: the HDF5 file, `counter.txt`,
  `parameters.txt`, e-mail and tweet. The period timing of the loop
  (sleep or overrun warning) is not modelled either.
- The logger set-up and console prints are not modelled, beyond the critical
  log lines that stand for a `None` result.
- Floating point is not modelled; numpy float64 arithmetic is exact real
  arithmetic.
- The numpy casts to IEEE single and to `uint32` are parameters (`Casts`)
  rather than definitions.
- The POS/EPOS file readers (`leap_tools.read_pos` / `read_epos`) are not part
  of this model. An imported file is the frame they return.
  `LeapFormats.Unpack` and `DecodeRecords` exist only to state round trips.
- `read_hdf5`'s `IndexError` branch is not modelled: no statement in its `try`
  raises one for a readable file.
- `read_hdf5_through_pandas`, `read_mat_files`, `convert_mat_to_df`, the store
  helpers, the plotting functions and the selector widgets are not modelled.
  The widget constructors `buttonWidget`, `dataset_tdc_selection` and
  `density_field_selection` are not modelled either.
- `concatenate_dataframes_of_dld_grp` is not modelled.
- LoadCrop.FetchDataset: states the error paths and the frame's shape and
  columns, but not each cell. The cell values are stated by `SurfaceRows` /
  `RoentdecRows`, which it calls.
- LoadCrop.FetchDataset: the fetch reads through
  `pyccapt.calibration.calibration_tools.data_tools.read_hdf5`
  (data_loadcrop.py:13, 25), and that module is not part of this model. The
  fetch takes what that reader returned as a parameter. Whether it converts
  positions to centimetres, as `read_hdf5` in
  `pyccapt/calibration/data_tools/data_tools.py` does, is an assumption of
  Finding 3, not something the model establishes.
- LeapFormats.Import: a file frame in which a label names two columns is
  not modelled. The model takes the first such column, whereas pandas would
  hand back both. The POS and EPOS readers build each column once.
- LoadCrop.CropDataset: the frame carries the default index `0..n-1`, as every frame
  built here does, so the label slice is a row-range slice. A frame with another
  index is not modelled.
- VerticalLines.Init: `set_xlim(min, max)` is modelled literally. When all samples
  are equal (one sample included), matplotlib widens the singular range
  instead; that widening is not modelled.
- LoadCrop.CropAfterSelection: `crop_data_after_selection` drops rows from the
  caller's frame in place. The model returns the cropped frame and leaves the
  argument as it was, because values are immutable here.
- ExperimentState.ValidConfig: the controller requires `ex_freq >= 1`,
  `cycle_avg >= 1`, a positive pulse frequency and a non-zero amplifier gain.
  The excluded settings behave as follows in the source, and none of them is
  modelled:
  - a zero pulse frequency raises `ZeroDivisionError` (`oxcart.py:497`);
  - a zero gain raises it too (`oxcart.py:488`, `oxcart.py:280`);
  - a zero `cycle_avg` raises it at `oxcart.py:252`;
  - a negative pulse frequency runs;
  - `ex_freq <= 0` makes `total_steps` at `oxcart.py:513` non-positive for a
    non-negative `ex_time`, so the source runs no tick.
- VerticalLines: a mouse event outside the axes (`xdata` of `None`) is not
  modelled, so every event carries an x coordinate.
- VerticalLines.OnMotion: matplotlib's `set_xdata` with a scalar is modelled
  as moving the line to that position.
- TofMc.TofBinToMc: the on-axis, zero-path case, where numpy gives inf or nan,
  is `None`.
- The square root is not modelled: the distance is kept squared.
- Lifecycle.Run: it runs against a finite input sequence and reports
  `Pending` when the inputs run out. Runs of unbounded length are not
  modelled.
- Lifecycle.Run: every configuration value except `ex_time` is held fixed
  for the whole run. This covers the criteria flags, `max_ions`,
  `vdc_min`/`vdc_max`, the gains, `cycle_avg` and `ex_freq`. The source
  re-reads them from the shared `variables` on every iteration
  (oxcart.py:250-283, 576-597). So switching `criteria_time` on mid-run
  would end a run that NoTimeCriterionNeverSpendsBudget,
  FreshRunWithoutTimeCriterion, TimeCriterionBoundsTicks and
  CeilingDebounceIsExact describe under a fixed configuration. Those
  lemmas hold only while the configuration is not edited.
- Controller.Tick: the `DRS` counter source leaves the ion total as it was,
  because nothing in the loop updates it.

## Findings

| source | as written | input that shows it | evidently intended | confidence | as-written member | corrected member |
|---|---|---|---|---|---|---|
| oxcart.py:639-656 | The length check uses `all(len(lst) == ...)`, so it logs "have not same length" when every array agrees. The paired-event list names `main_v_dc_dld` twice and never `main_v_p_dld`. The digitizer list compares against the raw-TDC tags | paired-event mode with `x`, `y`, `t`, `start_counter` and both tag arrays all of length 1 logs the warning; with `t` empty it stays silent | warn when some array of the active mode differs in length from the others | high, not executed | PostRun.AlignedDrainsWarnAsWritten | PostRun.AlignedDrainsStaySilent |
| oxcart.py:292-342 | `cleanup_variables` empties every accumulator except `main_v_dc_drs` and `main_v_p_drs` | a digitizer run that drained one batch of length 1, then `clear_up`: one tag and no `ch0_time` entry, so the next run can never again have one tag per waveform | the digitizer's tag arrays are cleared with the rest | medium, not executed | Cleanup.CleanupLeavesStaleDrsTags | Cleanup.CorrectedCleanupRestoresTagging |
| pyccapt/calibration/calibration_tools/data_loadcrop.py:47-48 | `read_hdf5` in pyccapt/calibration/data_tools/data_tools.py:41 converts surface-concept `x` and `y` from mm to cm, and the fetch multiplies by 0.1 again, under the same "mm to cm" comment | bin 2450, the detector edge 39 mm from the centre, is stored as 0.39 in `x_det (cm)`, if the fetch's reader converts as that `read_hdf5` does | one mm-to-cm conversion, putting the edge at 3.9 cm | low, not executed: the fetch imports `calibration_tools.data_tools` (data_loadcrop.py:13), which is not part of this model, and its ±40 mask bound suits a reader that returns mm | LoadCrop.EdgeScaledTwice | LoadCrop.CorrectedEdges |

`LoadCrop.FetchDataset` models the fetch as written: it applies its own ×0.1
to whatever its reader returned. `LoadCrop.PositionColumnAsWritten` composes
that factor with the conversion of `HdfRead.ReadHdf5`. The column under one
conversion is `LoadCrop.PositionColumnCorrected`.

=== FILE: cleanup.dfy ===
/**
 `cleanup_variables`, the reset run at the end of `clear_up`: flags lowered,
 counters and display indices zeroed, event and telemetry arrays emptied.
 The device shutdown around it (serial writes, port closing, counter task
 stop, signal generator off) is not modelled.
 */
module Cleanup {
  import opened ExperimentState

  /** The reset exactly as written: the digitizer's voltage-tag arrays are NOT among the cleared arrays. */
  function CleanupVariables(run: RunState): (r: RunState)
    // flags lowered, counters and display indices zeroed
    ensures !r.stopFlag && !r.endExperiment && !r.startFlag
    ensures r.detectionRate == 0.0 && r.detectionRateElapsed == 0.0
    ensures r.count == 0 && r.countTemp == 0 && r.countLast == 0
    ensures r.indexPlot == 0 && r.indexSaveImage == 0 && r.indexWaitOnPlotStart == 0 && r.indexPlotSave == 0
    // every listed accumulator emptied
    ensures r.dld == NoDldEvents && r.tdc == NoTdcEvents
    ensures r.drs == NoDrsEvents.(vdcTags := run.drs.vdcTags, vpTags := run.drs.vpTags)
    ensures r.mainVdc == [] && r.mainVp == [] && r.mainCounter == []
    ensures r.mainTemperature == [] && r.mainChamberVacuum == []
    // left alone: the voltages, the ion total, the rolling average and the digitizer tags
    ensures r.specimenVoltage == run.specimenVoltage && r.pulseVoltage == run.pulseVoltage
    ensures r.totalIons == run.totalIons && r.avgNCount == run.avgNCount
    ensures r.drs.vdcTags == run.drs.vdcTags && r.drs.vpTags == run.drs.vpTags
  {
    run.(
      stopFlag := false, endExperiment := false, startFlag := false,
      detectionRate := 0.0, detectionRateElapsed := 0.0,
      count := 0, countTemp := 0, countLast := 0,
      indexPlot := 0, indexSaveImage := 0, indexWaitOnPlotStart := 0, indexPlotSave := 0,
      dld := NoDldEvents, tdc := NoTdcEvents,
      drs := NoDrsEvents.(vdcTags := run.drs.vdcTags, vpTags := run.drs.vpTags),
      mainVdc := [], mainVp := [], mainCounter := [],
      mainTemperature := [], mainChamberVacuum := [])
  }

  /** Resetting twice is the same as resetting once. */
  lemma CleanupIdempotent(run: RunState)
    ensures CleanupVariables(CleanupVariables(run)) == CleanupVariables(run)
  {
  }

  /**
   After a digitizer run the reset leaves stale voltage tags behind: the next
   run starts with tags but no waveforms, so its tag arrays can never again
   match `ch0_time` one to one.
   */
  lemma CleanupLeavesStaleDrsTags(run: RunState)
    requires |run.drs.vdcTags| > 0
    ensures !DrsTagged(CleanupVariables(run).drs)
  {
  }

  /** The reset with the digitizer's tag arrays cleared as well. */
  function CleanupVariablesCorrected(run: RunState): (r: RunState)
    ensures r.drs == NoDrsEvents
    ensures r == CleanupVariables(run).(drs := NoDrsEvents)
  {
    CleanupVariables(run).(drs := NoDrsEvents)
  }

  /** After the corrected reset every accumulator of every mode is empty, so every tag invariant holds for the next run. */
  lemma CorrectedCleanupRestoresTagging(run: RunState)
    ensures var r := CleanupVariablesCorrected(run);
      AllTagged(r) && DldAligned(r.dld) && TdcAligned(r.tdc) && DrsAligned(r.drs)
  {
  }
}

=== FILE: controller.dfy ===
/**
 One tick of the rate controller (`OXCART.main_ex_loop`): read the running ion
 total, record per-tick telemetry, average the recent ion deltas, form the
 proportional error against the target rate, ratchet the specimen voltage
 upwards and recompute the pulse voltage. The serial and VISA writes become
 the optional commands of the tick's result.
 */
module Controller {
  import opened Options
  import opened Seqs
  import opened ExperimentState
  import Sorting

  /** Specimen voltage below which a near-zero rate earns the 2.5x ramp factor. */
  const SlowRampVoltage: real := 5000.0
  /** Rate (per cent per pulse) below which the ramp is accelerated. */
  const SlowRampRate: real := 0.01
  const RampSpeedFactor: real := 2.5

  /** What the controller samples from outside the run record in one tick. */
  datatype TickInput = TickInput(
    counterReading: int,  // edge-counter hardware read (used only for `PulseCounter`)
    temperature: real,    // current temperature reading
    vacuum: real)         // current main-chamber vacuum reading

  /** The new run record and the device commands the tick issued (`None` when nothing was sent). */
  datatype TickResult = TickResult(run: RunState, hvCommand: Option<real>, pulserCommand: Option<real>)

  /** The detection-rate setpoint computed once at run start (`counts_target`). */
  function CountsTarget(cfg: Config, detectionRate: real): (target: real)
    requires ValidConfig(cfg)
    ensures target == detectionRate / 100.0
  {
    ((detectionRate / 100.0) * cfg.pulseFrequency) / cfg.pulseFrequency
  }

  /** The running ion total the tick reads, by acquisition mode. */
  function IonTotal(cfg: Config, run: RunState, reading: int): int
  {
    match cfg.counterSource
    case Tdc => |run.dld.x|
    case TdcRaw => if |run.tdc.channel| > 0 then |run.tdc.channel| / 4 else run.totalIons
    case PulseCounter => reading
    case Drs => run.totalIons
  }

  /** Ions per second over the last `cycleAvg` deltas, always divided by `cycleAvg` (`avg_n_count`). */
  function RollingAverage(cfg: Config, counter: seq<int>): real
    requires ValidConfig(cfg)
  {
    cfg.exFreq as real * (Sum(LastN(counter, cfg.cycleAvg as nat)) as real / cfg.cycleAvg as real)
  }

  /** Pulses per control tick plus one: the normaliser of the measured rate. */
  function PulseNormaliser(cfg: Config): real
  {
    1.0 + cfg.pulseFrequency * 1000.0
  }

  /** Deviation of the measured rate from the setpoint (`counts_error`). */
  function CountsError(cfg: Config, target: real, avg: real): real
    requires ValidConfig(cfg)
  {
    target - avg / PulseNormaliser(cfg)
  }

  /** Whether the ramp is accelerated: almost no ions yet and the voltage still low. */
  predicate Accelerated(cfg: Config, avg: real, v: real)
    requires ValidConfig(cfg)
  {
    (avg * 100.0) / PulseNormaliser(cfg) < SlowRampRate && v < SlowRampVoltage
  }

  /** Proportional voltage step: gain up for a positive error, gain down otherwise. */
  function VoltageStep(cfg: Config, error: real, accelerated: bool): (step: real)
    ensures error == 0.0 ==> step == 0.0
    // with positive gains the step has the sign of the error
    ensures cfg.vdcStepUp > 0.0 && cfg.vdcStepDown > 0.0 ==> (step > 0.0 <==> error > 0.0)
    ensures cfg.vdcStepUp > 0.0 && cfg.vdcStepDown > 0.0 ==> (step < 0.0 <==> error < 0.0)
    // the gain by direction, scaled when the ramp is accelerated
    ensures error > 0.0 ==> step == error * cfg.vdcStepUp * (if accelerated then RampSpeedFactor else 1.0)
    ensures error <= 0.0 ==> step == error * cfg.vdcStepDown * (if accelerated then RampSpeedFactor else 1.0)
  {
    var factor := if accelerated then RampSpeedFactor else 1.0;
    if error > 0.0 then
      assert cfg.vdcStepUp > 0.0 ==> error * cfg.vdcStepUp > 0.0;
      error * cfg.vdcStepUp * factor
    else
      assert cfg.vdcStepDown > 0.0 && error < 0.0 ==> error * cfg.vdcStepDown < 0.0;
      error * cfg.vdcStepDown * factor
  }

  /**
   The one-way ratchet on the specimen voltage: a step is taken only from inside
   `[vdcMin, vdcMax)` and only when it raises the voltage. Nothing clamps the
   result to `vdcMax`.
   */
  function Ratchet(cfg: Config, v: real, step: real): (v': real)
    ensures v' >= v
    ensures v' != v <==> cfg.vdcMin <= v < cfg.vdcMax && step > 0.0
    ensures v' != v ==> v' == v + step
  {
    if v < cfg.vdcMax && v >= cfg.vdcMin && v + step > v then v + step else v
  }

  /** The pulser set-point for a specimen voltage (`new_vp`). */
  function PulserSetpoint(cfg: Config, v: real): real
    requires ValidConfig(cfg)
  {
    v * cfg.pulseFraction * (1.0 / cfg.pulseAmpPerSupplyVoltage)
  }

  /**
   Pulse voltage after the ratchet: updated to the fixed fraction of the specimen
   voltage when the pulser set-point lies strictly inside its bounds, otherwise
   left as it was (no clipping).
   */
  function PulseUpdate(cfg: Config, v: real, vp: real): (r: (real, Option<real>))
    requires ValidConfig(cfg)
    ensures r.1.Some? <==> PulseSupplyMin(cfg) < PulserSetpoint(cfg, v) < PulseSupplyMax(cfg)
    ensures r.1.Some? ==> r.0 == v * cfg.pulseFraction && r.1.value == PulserSetpoint(cfg, v)
    ensures r.1.None? ==> r.0 == vp
  {
    var newVp := PulserSetpoint(cfg, v);
    if newVp < PulseSupplyMax(cfg) && newVp > PulseSupplyMin(cfg) then
      assert newVp * cfg.pulseAmpPerSupplyVoltage == v * cfg.pulseFraction by {
        assert (1.0 / cfg.pulseAmpPerSupplyVoltage) * cfg.pulseAmpPerSupplyVoltage == 1.0;
      }
      (newVp * cfg.pulseAmpPerSupplyVoltage, Some(newVp))
    else (vp, None)
  }

  /** With a positive amplifier gain the pulse is updated exactly when its new value lies strictly between `vPMin` and `vPMax`. */
  lemma PulseWindow(cfg: Config, v: real)
    requires ValidConfig(cfg) && cfg.pulseAmpPerSupplyVoltage > 0.0
    ensures PulseSupplyMin(cfg) < PulserSetpoint(cfg, v) < PulseSupplyMax(cfg)
        <==> cfg.vPMin < v * cfg.pulseFraction < cfg.vPMax
  {
    var a := cfg.pulseAmpPerSupplyVoltage;
    var inv := 1.0 / a;
    assert inv > 0.0;
    assert PulseSupplyMin(cfg) == cfg.vPMin * inv;
    assert PulseSupplyMax(cfg) == cfg.vPMax * inv;
    assert PulserSetpoint(cfg, v) == (v * cfg.pulseFraction) * inv;
    ScaleStrict(cfg.vPMin, v * cfg.pulseFraction, inv);
    ScaleStrict(v * cfg.pulseFraction, cfg.vPMax, inv);
  }

  lemma ScaleStrict(a: real, b: real, k: real)
    requires k > 0.0
    ensures a < b <==> a * k < b * k
  {
    if a < b {
      assert (b - a) * k > 0.0;
    } else {
      assert (a - b) * k >= 0.0;
    }
  }

  /** One control tick (`main_ex_loop`), with the target computed at run start. */
  function Tick(cfg: Config, target: real, run: RunState, input: TickInput): (r: TickResult)
    requires ValidConfig(cfg)
    // the ratchet: the specimen voltage never decreases, and is frozen at or above the ceiling
    ensures r.run.specimenVoltage >= run.specimenVoltage
    ensures run.specimenVoltage >= cfg.vdcMax ==> r.run.specimenVoltage == run.specimenVoltage
    ensures run.specimenVoltage < cfg.vdcMin ==> r.run.specimenVoltage == run.specimenVoltage
    // the HV supply is commanded exactly when the voltage moved, with the new value
    ensures r.hvCommand.Some? <==> r.run.specimenVoltage != run.specimenVoltage
    ensures r.hvCommand.Some? ==> r.hvCommand.value == r.run.specimenVoltage
    // the pulse voltage either stays or becomes the fixed fraction of the new specimen voltage
    ensures r.pulserCommand.None? ==> r.run.pulseVoltage == run.pulseVoltage
    ensures r.pulserCommand.Some? ==> r.run.pulseVoltage == r.run.specimenVoltage * cfg.pulseFraction
    // one telemetry row per tick, recording the voltages from BEFORE the update
    ensures r.run.mainVdc == run.mainVdc + [run.specimenVoltage]
    ensures r.run.mainVp == run.mainVp + [run.pulseVoltage]
    ensures r.run.mainTemperature == run.mainTemperature + [input.temperature]
    ensures r.run.mainChamberVacuum == run.mainChamberVacuum + [input.vacuum]
    // the step rule: the rolling average over the new counter row drives the ratchet
    ensures r.run.avgNCount == RollingAverage(cfg, r.run.mainCounter)
    ensures r.run.specimenVoltage == Ratchet(cfg, run.specimenVoltage,
      VoltageStep(cfg, CountsError(cfg, target, r.run.avgNCount), Accelerated(cfg, r.run.avgNCount, run.specimenVoltage)))
    // the pulser is commanded exactly when the set-point for the new voltage is strictly inside its window
    ensures r.pulserCommand.Some? <==> PulseSupplyMin(cfg) < PulserSetpoint(cfg, r.run.specimenVoltage) < PulseSupplyMax(cfg)
    ensures r.pulserCommand.Some? ==> r.pulserCommand.value == PulserSetpoint(cfg, r.run.specimenVoltage)
  {
    var total := IonTotal(cfg, run, input.counterReading);
    var delta := total - run.countLast;
    var counter := run.mainCounter + [delta];
    var avg := RollingAverage(cfg, counter);
    var error := CountsError(cfg, target, avg);
    var step := VoltageStep(cfg, error, Accelerated(cfg, avg, run.specimenVoltage));
    var v := Ratchet(cfg, run.specimenVoltage, step);
    var pulse := PulseUpdate(cfg, v, run.pulseVoltage);
    var next := run.(
      totalIons := total, countTemp := delta, countLast := total,
      mainVdc := run.mainVdc + [run.specimenVoltage],
      mainVp := run.mainVp + [run.pulseVoltage],
      mainCounter := counter, avgNCount := avg,
      specimenVoltage := v, pulseVoltage := pulse.0,
      mainTemperature := run.mainTemperature + [input.temperature],
      mainChamberVacuum := run.mainChamberVacuum + [input.vacuum]);
    TickResult(next, if v != run.specimenVoltage then Some(v) else None, pulse.1)
  }

  /**
   With positive gains and the voltage inside `[vdcMin, vdcMax)`, a tick raises
   the voltage exactly when the measured rate (`counts_measured`) is below the
   target.
   */
  lemma TickRaisesExactlyBelowTarget(cfg: Config, target: real, run: RunState, input: TickInput)
    requires ValidConfig(cfg) && cfg.vdcStepUp > 0.0 && cfg.vdcStepDown > 0.0
    requires cfg.vdcMin <= run.specimenVoltage < cfg.vdcMax
    ensures var r := Tick(cfg, target, run, input).run;
      r.specimenVoltage > run.specimenVoltage <==> r.avgNCount / PulseNormaliser(cfg) < target
  {
    var r := Tick(cfg, target, run, input).run;
    var error := CountsError(cfg, target, r.avgNCount);
    var step := VoltageStep(cfg, error, Accelerated(cfg, r.avgNCount, run.specimenVoltage));
    assert step > 0.0 <==> error > 0.0;
  }

  /** The ion bookkeeping of a tick. */
  lemma TickCounts(cfg: Config, target: real, run: RunState, input: TickInput)
    requires ValidConfig(cfg)
    ensures var r := Tick(cfg, target, run, input).run;
      // the ion total by acquisition mode, and the per-tick delta against the previous total
      && (cfg.counterSource == Tdc ==> r.totalIons == |run.dld.x|)
      && (cfg.counterSource == TdcRaw && |run.tdc.channel| > 0 ==> r.totalIons == |run.tdc.channel| / 4)
      && (cfg.counterSource == TdcRaw && |run.tdc.channel| == 0 ==> r.totalIons == run.totalIons)
      && (cfg.counterSource == PulseCounter ==> r.totalIons == input.counterReading)
      && (cfg.counterSource == Drs ==> r.totalIons == run.totalIons)
      && r.mainCounter == run.mainCounter + [r.totalIons - run.countLast]
      && r.countTemp == r.totalIons - run.countLast && r.countLast == r.totalIons
      // the counter deltas telescope
      && Sum(r.mainCounter) - r.countLast == Sum(run.mainCounter) - run.countLast
  {
    SumAppend(run.mainCounter, IonTotal(cfg, run, input.counterReading) - run.countLast);
  }

  /** A tick touches only the controller's own fields: event accumulators, flags and display counters are kept. */
  lemma TickFrame(cfg: Config, target: real, run: RunState, input: TickInput)
    requires ValidConfig(cfg)
    ensures var r := Tick(cfg, target, run, input).run;
      && r.dld == run.dld && r.tdc == run.tdc && r.drs == run.drs
      && r == run.(specimenVoltage := r.specimenVoltage, pulseVoltage := r.pulseVoltage,
                   totalIons := r.totalIons, countLast := r.countLast,
                   countTemp := r.countTemp, avgNCount := r.avgNCount,
                   mainVdc := r.mainVdc, mainVp := r.mainVp,
                   mainCounter := r.mainCounter, mainTemperature := r.mainTemperature,
                   mainChamberVacuum := r.mainChamberVacuum)
  {
  }

  /** The accelerated step is exactly 2.5 times the ordinary one for the same error. */
  lemma AcceleratedStepScale(cfg: Config, error: real)
    ensures VoltageStep(cfg, error, true) == RampSpeedFactor * VoltageStep(cfg, error, false)
  {
  }

  /** The rolling average divides by the full window even while fewer ticks have been recorded. */
  lemma ShortHistoryAverage(cfg: Config, counter: seq<int>)
    requires ValidConfig(cfg) && |counter| <= cfg.cycleAvg
    ensures RollingAverage(cfg, counter) == cfg.exFreq as real * (Sum(counter) as real / cfg.cycleAvg as real)
  {
  }

  /** Sum of `n` equal deltas. */
  lemma {:induction false} SumConstant(s: seq<int>, c: int)
    requires forall i :: 0 <= i < |s| ==> s[i] == c
    ensures Sum(s) == |s| * c
  {
    if |s| > 0 {
      SumConstant(s[..|s| - 1], c);
    }
  }

  /**
   In steady state, when the last `cycleAvg` deltas all equal `c` ions, the
   rolling average is `c` ions per tick times the tick frequency.
   */
  lemma SteadyStateAverage(cfg: Config, counter: seq<int>, c: int)
    requires ValidConfig(cfg) && |counter| >= cfg.cycleAvg
    requires forall i :: |counter| - cfg.cycleAvg <= i < |counter| ==> counter[i] == c
    ensures RollingAverage(cfg, counter) == cfg.exFreq as real * c as real
  {
    var w := LastN(counter, cfg.cycleAvg as nat);
    SumConstant(w, c);
    assert Sum(w) as real == cfg.cycleAvg as real * c as real;
  }

  /** A single step may carry the voltage past the ceiling: the ratchet does not clamp. */
  lemma RatchetMayOvershoot()
    ensures var cfg := Config(Tdc, 10, 100, 10, 200.0, 0.0, 100.0, 1.0, 1.0, 0.0, 10.0, 0.2, 1.0, 0, false, true, false);
      Ratchet(cfg, 99.0, 10.0) == 109.0 > cfg.vdcMax
  {
  }

  /** A sequence of ticks with no intervening drain or stop logic. */
  function Ticks(cfg: Config, target: real, run: RunState, inputs: seq<TickInput>): RunState
    requires ValidConfig(cfg)
  {
    if |inputs| == 0 then run
    else Tick(cfg, target, Ticks(cfg, target, run, inputs[..|inputs| - 1]), inputs[|inputs| - 1]).run
  }

  /**
   Over any number of ticks the voltage is non-decreasing, each tick adds one
   telemetry row, the event accumulators are untouched, and the recorded ion
   deltas sum to the change of the last total.
   */
  lemma {:induction false} TicksInvariants(cfg: Config, target: real, run: RunState, inputs: seq<TickInput>)
    requires ValidConfig(cfg)
    ensures var r := Ticks(cfg, target, run, inputs);
      && r.specimenVoltage >= run.specimenVoltage
      && |r.mainVdc| == |run.mainVdc| + |inputs|
      && |r.mainVp| == |run.mainVp| + |inputs|
      && |r.mainCounter| == |run.mainCounter| + |inputs|
      && Sum(r.mainCounter) - Sum(run.mainCounter) == r.countLast - run.countLast
      && r.dld == run.dld && r.tdc == run.tdc && r.drs == run.drs
  {
    if |inputs| > 0 {
      TicksInvariants(cfg, target, run, inputs[..|inputs| - 1]);
      var mid := Ticks(cfg, target, run, inputs[..|inputs| - 1]);
      TickCounts(cfg, target, mid, inputs[|inputs| - 1]);
      TickFrame(cfg, target, mid, inputs[|inputs| - 1]);
    }
  }

  /** Appending a value no smaller than the last keeps a sequence non-decreasing. */
  lemma AppendKeepsSorted(s: seq<real>, x: real)
    requires Sorting.Sorted(s)
    requires |s| > 0 ==> s[|s| - 1] <= x
    ensures Sorting.Sorted(s + [x])
  {
  }

  /** The voltage history recorded by consecutive ticks is non-decreasing. */
  lemma {:induction false} TicksRecordMonotoneVoltages(cfg: Config, target: real, run: RunState, inputs: seq<TickInput>)
    requires ValidConfig(cfg)
    requires Sorting.Sorted(run.mainVdc)
    requires |run.mainVdc| > 0 ==> run.mainVdc[|run.mainVdc| - 1] <= run.specimenVoltage
    ensures var r := Ticks(cfg, target, run, inputs);
      && Sorting.Sorted(r.mainVdc)
      && (|r.mainVdc| > 0 ==> r.mainVdc[|r.mainVdc| - 1] <= r.specimenVoltage)
  {
    if |inputs| > 0 {
      var mid := Ticks(cfg, target, run, inputs[..|inputs| - 1]);
      TicksRecordMonotoneVoltages(cfg, target, run, inputs[..|inputs| - 1]);
      AppendKeepsSorted(mid.mainVdc, mid.specimenVoltage);
    }
  }
}

=== FILE: drain.dfy ===
/**
 One pass of a queue-drain thread's inner loop (`reader_queue_dld`,
 `reader_queue_tdc`, `reader_queue_drs`): pop one batch from each of the
 mode's queues, append each batch to its accumulator, and tag the events with
 as many copies of the current specimen and pulse voltage as the FIRST queue's
 batch has elements. Threads, locks and the end-of-experiment polling are not
 modelled; the drains are sequential steps on the run record.
 */
module Drain {
  import opened Seqs
  import opened ExperimentState

  /** The four batches popped together from the paired-event queues. */
  datatype DldBatch = DldBatch(x: seq<real>, y: seq<real>, t: seq<real>, startCounter: seq<real>)

  /** The three batches popped together from the raw TDC queues. */
  datatype TdcBatch = TdcBatch(channel: seq<real>, timeData: seq<real>, startCounter: seq<real>)

  /** The eight batches popped together from the digitizer queues. */
  datatype DrsBatch = DrsBatch(
    ch0Time: seq<real>, ch0Wave: seq<real>, ch1Time: seq<real>, ch1Wave: seq<real>,
    ch2Time: seq<real>, ch2Wave: seq<real>, ch3Time: seq<real>, ch3Wave: seq<real>)

  predicate DldBatchAligned(b: DldBatch)
  {
    |b.y| == |b.x| && |b.t| == |b.x| && |b.startCounter| == |b.x|
  }

  predicate TdcBatchAligned(b: TdcBatch)
  {
    |b.timeData| == |b.channel| && |b.startCounter| == |b.channel|
  }

  predicate DrsBatchAligned(b: DrsBatch)
  {
    && |b.ch0Wave| == |b.ch0Time| && |b.ch1Time| == |b.ch0Time| && |b.ch1Wave| == |b.ch0Time|
    && |b.ch2Time| == |b.ch0Time| && |b.ch2Wave| == |b.ch0Time|
    && |b.ch3Time| == |b.ch0Time| && |b.ch3Wave| == |b.ch0Time|
  }

  /** One drain step of the paired-event thread. Only the paired-event accumulators change. */
  function DrainDld(run: RunState, b: DldBatch): (r: RunState)
    ensures r == run.(dld := r.dld)
    ensures r.dld.x == run.dld.x + b.x && r.dld.y == run.dld.y + b.y
    ensures r.dld.t == run.dld.t + b.t && r.dld.startCounter == run.dld.startCounter + b.startCounter
    ensures |r.dld.vdcTags| == |run.dld.vdcTags| + |b.x| && |r.dld.vpTags| == |run.dld.vpTags| + |b.x|
    ensures forall i :: |run.dld.vdcTags| <= i < |r.dld.vdcTags| ==> r.dld.vdcTags[i] == run.specimenVoltage
    ensures forall i :: |run.dld.vpTags| <= i < |r.dld.vpTags| ==> r.dld.vpTags[i] == run.pulseVoltage
    ensures r.dld.vdcTags[..|run.dld.vdcTags|] == run.dld.vdcTags
    ensures r.dld.vpTags[..|run.dld.vpTags|] == run.dld.vpTags
    ensures DldTagged(r.dld) <==> DldTagged(run.dld)
    ensures DldBatchAligned(b) ==> (DldAligned(r.dld) <==> DldAligned(run.dld))
  {
    var d := run.dld;
    run.(dld := DldEvents(
      d.x + b.x, d.y + b.y, d.t + b.t, d.startCounter + b.startCounter,
      d.vdcTags + Repeat(run.specimenVoltage, |b.x|),
      d.vpTags + Repeat(run.pulseVoltage, |b.x|)))
  }

  /** One drain step of the raw TDC thread. Only the raw TDC accumulators change. */
  function DrainTdc(run: RunState, b: TdcBatch): (r: RunState)
    ensures r == run.(tdc := r.tdc)
    ensures r.tdc.channel == run.tdc.channel + b.channel && r.tdc.timeData == run.tdc.timeData + b.timeData
    ensures r.tdc.startCounter == run.tdc.startCounter + b.startCounter
    ensures |r.tdc.vdcTags| == |run.tdc.vdcTags| + |b.channel| && |r.tdc.vpTags| == |run.tdc.vpTags| + |b.channel|
    ensures forall i :: |run.tdc.vdcTags| <= i < |r.tdc.vdcTags| ==> r.tdc.vdcTags[i] == run.specimenVoltage
    ensures forall i :: |run.tdc.vpTags| <= i < |r.tdc.vpTags| ==> r.tdc.vpTags[i] == run.pulseVoltage
    ensures r.tdc.vdcTags[..|run.tdc.vdcTags|] == run.tdc.vdcTags
    ensures r.tdc.vpTags[..|run.tdc.vpTags|] == run.tdc.vpTags
    ensures TdcTagged(r.tdc) <==> TdcTagged(run.tdc)
    ensures TdcBatchAligned(b) ==> (TdcAligned(r.tdc) <==> TdcAligned(run.tdc))
  {
    var d := run.tdc;
    run.(tdc := TdcEvents(
      d.channel + b.channel, d.timeData + b.timeData, d.startCounter + b.startCounter,
      d.vdcTags + Repeat(run.specimenVoltage, |b.channel|),
      d.vpTags + Repeat(run.pulseVoltage, |b.channel|)))
  }

  /** One drain step of the digitizer thread. Only the digitizer accumulators change. */
  function DrainDrs(run: RunState, b: DrsBatch): (r: RunState)
    ensures r == run.(drs := r.drs)
    ensures r.drs.ch0Time == run.drs.ch0Time + b.ch0Time && r.drs.ch0Wave == run.drs.ch0Wave + b.ch0Wave
    ensures r.drs.ch1Time == run.drs.ch1Time + b.ch1Time && r.drs.ch1Wave == run.drs.ch1Wave + b.ch1Wave
    ensures r.drs.ch2Time == run.drs.ch2Time + b.ch2Time && r.drs.ch2Wave == run.drs.ch2Wave + b.ch2Wave
    ensures r.drs.ch3Time == run.drs.ch3Time + b.ch3Time && r.drs.ch3Wave == run.drs.ch3Wave + b.ch3Wave
    ensures |r.drs.vdcTags| == |run.drs.vdcTags| + |b.ch0Time| && |r.drs.vpTags| == |run.drs.vpTags| + |b.ch0Time|
    ensures forall i :: |run.drs.vdcTags| <= i < |r.drs.vdcTags| ==> r.drs.vdcTags[i] == run.specimenVoltage
    ensures forall i :: |run.drs.vpTags| <= i < |r.drs.vpTags| ==> r.drs.vpTags[i] == run.pulseVoltage
    ensures r.drs.vdcTags[..|run.drs.vdcTags|] == run.drs.vdcTags
    ensures r.drs.vpTags[..|run.drs.vpTags|] == run.drs.vpTags
    ensures DrsTagged(r.drs) <==> DrsTagged(run.drs)
    ensures DrsBatchAligned(b) ==> (DrsAligned(r.drs) <==> DrsAligned(run.drs))
  {
    var d := run.drs;
    run.(drs := DrsEvents(
      d.ch0Time + b.ch0Time, d.ch0Wave + b.ch0Wave, d.ch1Time + b.ch1Time, d.ch1Wave + b.ch1Wave,
      d.ch2Time + b.ch2Time, d.ch2Wave + b.ch2Wave, d.ch3Time + b.ch3Time, d.ch3Wave + b.ch3Wave,
      d.vdcTags + Repeat(run.specimenVoltage, |b.ch0Time|),
      d.vpTags + Repeat(run.pulseVoltage, |b.ch0Time|)))
  }

  /** Total number of paired events in a sequence of batches. */
  function DldBatchesLength(bs: seq<DldBatch>): nat
  {
    if |bs| == 0 then 0 else DldBatchesLength(bs[..|bs| - 1]) + |bs[|bs| - 1].x|
  }

  /** Draining a whole queue snapshot, batch by batch, in queue order. */
  function DrainDldAll(run: RunState, bs: seq<DldBatch>): RunState
  {
    if |bs| == 0 then run else DrainDld(DrainDldAll(run, bs[..|bs| - 1]), bs[|bs| - 1])
  }

  /**
   Draining any number of batches adds exactly their events to `x`, keeps one
   tag per event, and tags every new event with the voltage current at drain time.
   */
  lemma {:induction false} DrainDldAllTagsEveryEvent(run: RunState, bs: seq<DldBatch>)
    requires DldTagged(run.dld)
    ensures var r := DrainDldAll(run, bs);
      && DldTagged(r.dld)
      && |r.dld.x| == |run.dld.x| + DldBatchesLength(bs)
      && r.specimenVoltage == run.specimenVoltage
      && r.dld.vdcTags[..|run.dld.vdcTags|] == run.dld.vdcTags
      && forall i :: |run.dld.vdcTags| <= i < |r.dld.vdcTags| ==> r.dld.vdcTags[i] == run.specimenVoltage
  {
    if |bs| > 0 {
      var mid := DrainDldAll(run, bs[..|bs| - 1]);
      DrainDldAllTagsEveryEvent(run, bs[..|bs| - 1]);
      var r := DrainDld(mid, bs[|bs| - 1]);
      assert r.dld.vdcTags[..|mid.dld.vdcTags|] == mid.dld.vdcTags;
      assert r.dld.vdcTags[..|run.dld.vdcTags|] == mid.dld.vdcTags[..|run.dld.vdcTags|];
    }
  }
}

=== FILE: experiment_state.dfy ===
/**
 The experiment driver's shared state: the run configuration read from the
 settings module, and the mutable run record (voltages, ion counters,
 per-tick telemetry, per-mode event accumulators, flags and display counters).
 In the source all of these are module-level globals of `variables`; here they
 are two immutable records passed to and returned by pure functions.
 */
module ExperimentState {

  /** Where the controller reads its running ion total from (`counter_source`). */
  datatype CounterSource = Tdc | TdcRaw | PulseCounter | Drs

  /** Settings that stay fixed for the duration of one run. */
  datatype Config = Config(
    counterSource: CounterSource,
    exFreq: int,                    // control-loop frequency (Hz), `ex_freq`
    exTime: int,                    // experiment time at start (s), `ex_time`
    cycleAvg: int,                  // averaging window (ticks), `cycle_avg`
    pulseFrequency: real,           // pulse frequency (kHz), `pulse_frequency`
    vdcMin: real,                   // start / lower bound of the specimen voltage
    vdcMax: real,                   // ceiling of the specimen voltage
    vdcStepUp: real,                // proportional gain when the rate is too low
    vdcStepDown: real,              // proportional gain when the rate is too high
    vPMin: real,                    // lower bound of the pulse voltage
    vPMax: real,                    // upper bound of the pulse voltage
    pulseFraction: real,            // pulse voltage per specimen volt
    pulseAmpPerSupplyVoltage: real, // pulser amplifier gain
    maxIons: int,                   // ion-count stop criterion threshold
    criteriaIons: bool,             // stop when `maxIons` ions were counted
    criteriaVdc: bool,              // stop when the voltage ceiling was held long enough
    criteriaTime: bool              // stop when the tick budget is spent
  )

  /**
   Configurations the driver can run without dividing by zero: the loop divides
   by the control frequency, the averaging window, the pulse frequency and the
   amplifier gain.
   */
  predicate ValidConfig(cfg: Config)
  {
    && cfg.exFreq >= 1
    && cfg.cycleAvg >= 1
    && cfg.pulseFrequency > 0.0
    && cfg.pulseAmpPerSupplyVoltage != 0.0
  }

  /** Pulser supply bounds derived at run start (`pulse_voltage_min` / `pulse_voltage_max`). */
  function PulseSupplyMin(cfg: Config): real
    requires ValidConfig(cfg)
  {
    cfg.vPMin * (1.0 / cfg.pulseAmpPerSupplyVoltage)
  }

  function PulseSupplyMax(cfg: Config): real
    requires ValidConfig(cfg)
  {
    cfg.vPMax * (1.0 / cfg.pulseAmpPerSupplyVoltage)
  }

  /** Paired delay-line-detector events and the voltages they were tagged with. */
  datatype DldEvents = DldEvents(
    x: seq<real>, y: seq<real>, t: seq<real>, startCounter: seq<real>,
    vdcTags: seq<real>, vpTags: seq<real>)

  /** Raw TDC events (four channel records per ion) and their voltage tags. */
  datatype TdcEvents = TdcEvents(
    channel: seq<real>, timeData: seq<real>, startCounter: seq<real>,
    vdcTags: seq<real>, vpTags: seq<real>)

  /** Four-channel digitizer waveforms and their voltage tags. */
  datatype DrsEvents = DrsEvents(
    ch0Time: seq<real>, ch0Wave: seq<real>, ch1Time: seq<real>, ch1Wave: seq<real>,
    ch2Time: seq<real>, ch2Wave: seq<real>, ch3Time: seq<real>, ch3Wave: seq<real>,
    vdcTags: seq<real>, vpTags: seq<real>)

  /** The mutable run record shared by the controller, the drains and the GUI. */
  datatype RunState = RunState(
    specimenVoltage: real,
    pulseVoltage: real,
    totalIons: int,
    countLast: int,
    countTemp: int,
    avgNCount: real,
    detectionRate: real,            // target detection rate (%) as last set by the GUI
    mainVdc: seq<real>,             // per-tick specimen voltage
    mainVp: seq<real>,              // per-tick pulse voltage
    mainCounter: seq<int>,          // per-tick ion delta
    mainTemperature: seq<real>,
    mainChamberVacuum: seq<real>,
    dld: DldEvents,
    tdc: TdcEvents,
    drs: DrsEvents,
    stopFlag: bool,
    endExperiment: bool,
    startFlag: bool,
    detectionRateElapsed: real,     // GUI display values and plot indices
    count: int,
    indexPlot: int,
    indexSaveImage: int,
    indexWaitOnPlotStart: int,
    indexPlotSave: int
  )

  /** Every paired event carries exactly one voltage tag and one pulse tag. */
  predicate DldTagged(d: DldEvents)
  {
    |d.vdcTags| == |d.x| && |d.vpTags| == |d.x|
  }

  /** All six paired-event arrays have the same length. */
  predicate DldAligned(d: DldEvents)
  {
    DldTagged(d) && |d.y| == |d.x| && |d.t| == |d.x| && |d.startCounter| == |d.x|
  }

  predicate TdcTagged(d: TdcEvents)
  {
    |d.vdcTags| == |d.channel| && |d.vpTags| == |d.channel|
  }

  predicate TdcAligned(d: TdcEvents)
  {
    TdcTagged(d) && |d.timeData| == |d.channel| && |d.startCounter| == |d.channel|
  }

  predicate DrsTagged(d: DrsEvents)
  {
    |d.vdcTags| == |d.ch0Time| && |d.vpTags| == |d.ch0Time|
  }

  predicate DrsAligned(d: DrsEvents)
  {
    && DrsTagged(d)
    && |d.ch0Wave| == |d.ch0Time| && |d.ch1Time| == |d.ch0Time| && |d.ch1Wave| == |d.ch0Time|
    && |d.ch2Time| == |d.ch0Time| && |d.ch2Wave| == |d.ch0Time|
    && |d.ch3Time| == |d.ch0Time| && |d.ch3Wave| == |d.ch0Time|
  }

  /** Every accumulator of every mode carries one tag per event. */
  predicate AllTagged(run: RunState)
  {
    DldTagged(run.dld) && TdcTagged(run.tdc) && DrsTagged(run.drs)
  }

  const NoDldEvents := DldEvents([], [], [], [], [], [])
  const NoTdcEvents := TdcEvents([], [], [], [], [])
  const NoDrsEvents := DrsEvents([], [], [], [], [], [], [], [], [], [])
}

=== FILE: hdf_read.dfy ===
/**
 `read_hdf5`: every dataset of every group of an HDF5 file, stored under the
 key "group/item", with the raw detector readings of a surface-concept TDC
 converted on the way: the time sum to nanoseconds and the two position bins
 to centimetres from the detector centre. The file is the list of its
 datasets, or `None` when it cannot be opened. Printing the group listing and
 the HDF5 library itself are not modelled.
 */
module HdfRead {
  import opened Options

  /** 27.432 ps per bin, in ns, for a time sum of four readings. */
  const TofFactor: real := 27.432 / (1000.0 * 4.0)
  const DetBins: real := 4900.0
  const BinningFac: real := 2.0
  /** Millimetres per position bin. */
  const XYFactor: real := 78.0 / DetBins * BinningFac
  /** The bin of the detector centre. */
  const XYBinShift: real := DetBins / BinningFac / 2.0

  const SurfaceConcept: string := "surface_concept"

  /** The last critical log line when the file cannot be opened. */
  const FileMissingMessage: string := "[*] HDF5 File could not be found"

  datatype Dataset = Dataset(group: string, item: string, values: seq<real>)

  datatype ReadResult = Loaded(storage: map<string, seq<real>>) | NotFound(critical: string)

  function Key(group: string, item: string): string
  {
    group + "/" + item
  }

  function DatasetKey(d: Dataset): string
  {
    Key(d.group, d.item)
  }

  /** HDF5 paths are unique within a file. */
  predicate DistinctPaths(ds: seq<Dataset>)
  {
    forall i, j :: 0 <= i < j < |ds| ==> DatasetKey(ds[i]) != DatasetKey(ds[j])
  }

  /** TDC time sum in bins to time of flight in ns. */
  function ScaleTime(v: real): real
  {
    v * TofFactor
  }

  /** Position bin to cm from the detector centre. */
  function ScalePosition(v: real): real
  {
    (v - XYBinShift) * XYFactor * 0.1
  }

  /** The per-dataset conversion, applied element by element. */
  function Convert(tdc: string, d: Dataset): (r: seq<real>)
    ensures |r| == |d.values|
    ensures tdc == SurfaceConcept && d.group == "dld" && d.item == "t" ==>
      forall i :: 0 <= i < |r| ==> r[i] == ScaleTime(d.values[i])
    ensures tdc == SurfaceConcept && d.group == "dld" && (d.item == "x" || d.item == "y") ==>
      forall i :: 0 <= i < |r| ==> r[i] == ScalePosition(d.values[i])
    ensures !(tdc == SurfaceConcept && d.group == "dld" && d.item in {"t", "x", "y"}) ==> r == d.values
  {
    var v := d.values;
    if tdc == SurfaceConcept && d.group == "dld" && d.item == "t" then
      seq(|v|, i requires 0 <= i < |v| => ScaleTime(v[i]))
    else if tdc == SurfaceConcept && d.group == "dld" && (d.item == "x" || d.item == "y") then
      seq(|v|, i requires 0 <= i < |v| => ScalePosition(v[i]))
    else v
  }

  /** `dataframeStorage`, filled dataset by dataset; a later dataset under the same key replaces an earlier one. */
  function Store(tdc: string, ds: seq<Dataset>): map<string, seq<real>>
  {
    if |ds| == 0 then map[]
    else Store(tdc, ds[..|ds| - 1])[DatasetKey(ds[|ds| - 1]) := Convert(tdc, ds[|ds| - 1])]
  }

  /** Every dataset's path is a key, and nothing else is. */
  lemma {:induction false} StoreKeys(tdc: string, ds: seq<Dataset>)
    ensures Store(tdc, ds).Keys == set i | 0 <= i < |ds| :: DatasetKey(ds[i])
  {
    if |ds| > 0 {
      var front, last := ds[..|ds| - 1], ds[|ds| - 1];
      StoreKeys(tdc, front);
      var paths := set i | 0 <= i < |ds| :: DatasetKey(ds[i]);
      forall k | k in paths
        ensures k in Store(tdc, ds)
      {
        var i :| 0 <= i < |ds| && DatasetKey(ds[i]) == k;
        if i < |front| { assert front[i] == ds[i]; }
      }
      forall k | k in Store(tdc, ds)
        ensures k in paths
      {
        if k != DatasetKey(last) {
          var i :| 0 <= i < |front| && DatasetKey(front[i]) == k;
          assert front[i] == ds[i];
        }
      }
    }
  }

  /** With distinct paths, every dataset is stored, converted, under its own path. */
  lemma {:induction false} StoreValues(tdc: string, ds: seq<Dataset>)
    requires DistinctPaths(ds)
    ensures forall i :: 0 <= i < |ds| ==>
      DatasetKey(ds[i]) in Store(tdc, ds) && Store(tdc, ds)[DatasetKey(ds[i])] == Convert(tdc, ds[i])
  {
    if |ds| > 0 {
      var front := ds[..|ds| - 1];
      assert forall i, j :: 0 <= i < j < |front| ==> front[i] == ds[i] && front[j] == ds[j];
      StoreValues(tdc, front);
      forall i | 0 <= i < |ds|
        ensures DatasetKey(ds[i]) in Store(tdc, ds) && Store(tdc, ds)[DatasetKey(ds[i])] == Convert(tdc, ds[i])
      {
        if i < |front| {
          assert front[i] == ds[i];
          assert DatasetKey(ds[i]) != DatasetKey(ds[|ds| - 1]);
        }
      }
    }
  }

  /** `read_hdf5`: the converted datasets by path, or the critical log line and `None` for a missing file. */
  function ReadHdf5(file: Option<seq<Dataset>>, tdc: string): (r: ReadResult)
    ensures file.None? <==> r.NotFound?
    ensures file.None? ==> r.critical == FileMissingMessage
    ensures file.Some? ==> r.storage.Keys == set i | 0 <= i < |file.value| :: DatasetKey(file.value[i])
    ensures file.Some? && DistinctPaths(file.value) ==>
      forall i :: 0 <= i < |file.value| ==> r.storage[DatasetKey(file.value[i])] == Convert(tdc, file.value[i])
  {
    match file
    case None => NotFound(FileMissingMessage)
    case Some(ds) =>
      StoreKeys(tdc, ds);
      if DistinctPaths(ds) then StoreValues(tdc, ds); Loaded(Store(tdc, ds))
      else Loaded(Store(tdc, ds))
  }

  /** The constants as numbers: the centre is bin 1225 and a bin is 78/2450 mm wide. */
  lemma DetectorGeometry()
    ensures XYBinShift == 1225.0
    ensures XYFactor == 78.0 / 2450.0
    ensures TofFactor == 0.006858
  {
  }

  /** The centre bin maps to 0, the map is strictly increasing, and it is undone by its inverse. */
  lemma PositionScaleFacts(a: real, b: real)
    ensures ScalePosition(XYBinShift) == 0.0
    ensures a < b ==> ScalePosition(a) < ScalePosition(b)
    ensures ScalePosition(a) / (XYFactor * 0.1) + XYBinShift == a
  {
    DetectorGeometry();
  }

  /** The time conversion is a positive scaling, undone by dividing by the factor. */
  lemma TimeScaleFacts(a: real, b: real)
    ensures a < b ==> ScaleTime(a) < ScaleTime(b)
    ensures ScaleTime(a) / TofFactor == a
    ensures a > 0.0 <==> ScaleTime(a) > 0.0
  {
  }

  /** The two detector edges, bins 0 and 2450, map to -3.9 and 3.9 cm: half of the 78 mm detector. */
  lemma DetectorEdges()
    ensures ScalePosition(0.0) == -3.9
    ensures ScalePosition(2.0 * XYBinShift) == 3.9
  {
  }

  /** Any TDC other than surface-concept gets every dataset back unchanged. */
  lemma OtherTdcPassesThrough(ds: seq<Dataset>, tdc: string)
    requires tdc != SurfaceConcept && DistinctPaths(ds)
    ensures var r := ReadHdf5(Some(ds), tdc);
      forall i :: 0 <= i < |ds| ==> r.storage[DatasetKey(ds[i])] == ds[i].values
  {
  }
}

=== FILE: leap_formats.dfy ===
/**
 Export to and import from the LEAP position formats (`ccapt_tools.py`).
 A POS file is, per ion, four big-endian IEEE single-precision words
 (x, y, z, mass-to-charge); an EPOS file is eleven big-endian words per ion,
 nine singles followed by two unsigned 32-bit integers. The conversions of a
 value to the nearest single (`astype(np.single)`) and of a single to an
 unsigned integer (`astype(np.uintc)`) are numpy's and enter as parameters;
 everything around them (column selection, order, byte layout, the optional
 file write, the column mapping of an imported file) is modelled here.
 */
module LeapFormats {
  import opened Options
  import opened Seqs
  import opened LoadCrop

  /** An octet of the file. */
  newtype Byte = x: int | 0 <= x < 256

  /** A 32-bit word: the bit pattern of a single or an unsigned integer, read as a number. */
  newtype Word = x: int | 0 <= x < 4294967296

  /** The two numeric casts numpy performs before packing. */
  datatype Casts = Casts(single: real -> Word, toUint: Word -> Word)

  /** How one column is packed: struct format `f` or `I`. */
  datatype Kind = Single | Unsigned

  /**
   What escapes: a KeyError for a missing column; a selected label that names
   two columns (the selection takes every copy, so the record holds more items
   than the pack format); an unbound frame for an unknown pulse mode; `None + name`.
   */
  datatype Fault = KeyMissing | RepeatedLabel | PulseModeUnbound | PathNotString

  datatype Written = Written(file: string, contents: seq<Byte>)

  /** The packed bytes, and the file written with them when a name was given. */
  datatype Encoded = Encoded(bytes: seq<Byte>, written: Option<Written>) | Failed(fault: Fault)

  const PosColumns: seq<string> := ["x (nm)", "y (nm)", "z (nm)", "mc_c (Da)"]
  const PosKinds: seq<Kind> := [Single, Single, Single, Single]

  const EposVoltageColumns: seq<string> :=
    ["x (nm)", "y (nm)", "z (nm)", "mc_c (Da)", "t (ns)", "high_voltage (V)", "pulse (V)",
     "x_det (cm)", "y_det (cm)", "pulse_pi", "ion_pp"]

  /** The laser-mode record reads the pulse column in degrees, the rest as in voltage mode. */
  const EposLaserColumns: seq<string> := EposVoltageColumns[6 := "pulse (deg)"]

  /** The EPOS record's columns; the pulse column depends on the pulse mode. */
  function EposColumns(pulseMode: string): (names: Option<seq<string>>)
    ensures names.Some? <==> pulseMode == "voltage" || pulseMode == "laser"
    ensures names.Some? ==> |names.value| == 11
  {
    if pulseMode == "voltage" then Some(EposVoltageColumns)
    else if pulseMode == "laser" then Some(EposLaserColumns)
    else None
  }

  const EposKinds: seq<Kind> := [Single, Single, Single, Single, Single, Single, Single, Single, Single, Unsigned, Unsigned]

  /** The column layout of the calibration frame built from an imported file. */
  const CcaptColumns: seq<string> :=
    ["x (nm)", "y (nm)", "z (nm)", "mc_c (Da)", "mc (Da)", "high_voltage (V)", "pulse (V)",
     "start_counter", "t (ns)", "t_c (nm)", "x_det (cm)", "y_det (cm)", "pulse_pi", "ion_pp"]

  // ---------------------------------------------------------------- words and bytes

  /** A word in big-endian byte order (struct's `>`). */
  function WordBytes(w: Word): (b: seq<Byte>)
    ensures |b| == 4
    // most significant byte first
    ensures b[0] as int * 16777216 + b[1] as int * 65536 + b[2] as int * 256 + b[3] as int == w as int
  {
    var n := w as int;
    var mid := n / 256;
    var hi := mid / 256;
    assert n == mid * 256 + n % 256;
    assert mid == hi * 256 + mid % 256;
    assert hi == hi / 256 * 256 + hi % 256;
    assert hi / 256 < 256;
    [(hi / 256) as Byte, (hi % 256) as Byte, (mid % 256) as Byte, (n % 256) as Byte]
  }

  /** The word four big-endian bytes spell. */
  function WordOf(b: seq<Byte>): Word
    requires |b| == 4
  {
    (b[0] as int * 16777216 + b[1] as int * 65536 + b[2] as int * 256 + b[3] as int) as Word
  }

  lemma WordRoundTrip(w: Word)
    ensures WordOf(WordBytes(w)) == w
  {
  }

  /** Dividing `q·256 + r` by 256 recovers `q` and `r` when `r` is a byte. */
  lemma DivMod256(q: int, r: int)
    requires 0 <= r < 256
    ensures (q * 256 + r) / 256 == q && (q * 256 + r) % 256 == r
  {
  }

  lemma BytesRoundTrip(b: seq<Byte>)
    requires |b| == 4
    ensures WordBytes(WordOf(b)) == b
  {
    var n := WordOf(b) as int;
    var hi := b[0] as int * 256 + b[1] as int;
    var mid := hi * 256 + b[2] as int;
    assert n == mid * 256 + b[3] as int;
    DivMod256(mid, b[3] as int);
    DivMod256(hi, b[2] as int);
    DivMod256(b[0] as int, b[1] as int);
  }

  /** `struct.pack` of a sequence of words: four bytes each, in order. */
  function Pack(ws: seq<Word>): (b: seq<Byte>)
    ensures |b| == 4 * |ws|
  {
    if |ws| == 0 then [] else WordBytes(ws[0]) + Pack(ws[1..])
  }

  /** `struct.unpack`: consecutive groups of four bytes as words; fewer than four trailing bytes are dropped. */
  function Unpack(b: seq<Byte>): (ws: seq<Word>)
    ensures 4 * |ws| <= |b| < 4 * |ws| + 4
  {
    if |b| < 4 then [] else [WordOf(b[..4])] + Unpack(b[4..])
  }

  lemma {:induction false} UnpackPack(ws: seq<Word>)
    ensures Unpack(Pack(ws)) == ws
  {
    if |ws| > 0 {
      var b := Pack(ws);
      assert b[..4] == WordBytes(ws[0]) && b[4..] == Pack(ws[1..]);
      WordRoundTrip(ws[0]);
      UnpackPack(ws[1..]);
    }
  }

  lemma {:induction false} PackUnpack(b: seq<Byte>)
    requires |b| % 4 == 0
    ensures Pack(Unpack(b)) == b
  {
    if |b| > 0 {
      var ws := Unpack(b);
      assert ws[0] == WordOf(b[..4]) && ws[1..] == Unpack(b[4..]);
      BytesRoundTrip(b[..4]);
      PackUnpack(b[4..]);
      assert b == b[..4] + b[4..];
    }
  }

  // ---------------------------------------------------------------- records

  /** The records one after another (`chain(*records)`). */
  function Flatten(rs: seq<seq<Word>>): (ws: seq<Word>)
  {
    if |rs| == 0 then [] else rs[0] + Flatten(rs[1..])
  }

  /** Cut a word sequence into records of `width` words; a short tail is dropped. */
  function Chunk(ws: seq<Word>, width: nat): (rs: seq<seq<Word>>)
    requires width > 0
    ensures forall i :: 0 <= i < |rs| ==> |rs[i]| == width
    decreases |ws|
  {
    if |ws| < width then [] else [ws[..width]] + Chunk(ws[width..], width)
  }

  lemma {:induction false} ChunkFlatten(rs: seq<seq<Word>>, width: nat)
    requires width > 0 && forall i :: 0 <= i < |rs| ==> |rs[i]| == width
    ensures |Flatten(rs)| == width * |rs|
    ensures Chunk(Flatten(rs), width) == rs
  {
    if |rs| > 0 {
      ChunkFlatten(rs[1..], width);
      var ws := Flatten(rs);
      assert ws[..width] == rs[0] && ws[width..] == Flatten(rs[1..]);
    }
  }

  /** The bytes of records written one after another. */
  function EncodeRecords(rs: seq<seq<Word>>): seq<Byte>
  {
    Pack(Flatten(rs))
  }

  /** Reading a record file back: words, then records of `width` words. */
  function DecodeRecords(b: seq<Byte>, width: nat): seq<seq<Word>>
    requires width > 0
  {
    Chunk(Unpack(b), width)
  }

  /** Records of one width survive writing and reading back, and take `4 * width` bytes each. */
  lemma RecordsRoundTrip(rs: seq<seq<Word>>, width: nat)
    requires width > 0 && forall i :: 0 <= i < |rs| ==> |rs[i]| == width
    ensures |EncodeRecords(rs)| == 4 * (width * |rs|)
    ensures DecodeRecords(EncodeRecords(rs), width) == rs
  {
    ChunkFlatten(rs, width);
    UnpackPack(Flatten(rs));
  }

  // ---------------------------------------------------------------- the exporters

  /** Some selected label labels two columns of the frame. */
  predicate Repeated(columns: seq<string>, names: seq<string>)
  {
    exists c, j, k :: 0 <= c < |names| && 0 <= j < k < |columns| && columns[j] == names[c] && columns[k] == names[c]
  }

  /** The positions of the named columns in a frame; `None` when any is missing (pandas' KeyError). */
  function ColumnIndices(columns: seq<string>, names: seq<string>): (r: Option<seq<nat>>)
    ensures r.Some? <==> forall c :: 0 <= c < |names| ==> names[c] in columns
    ensures r.Some? ==> |r.value| == |names|
    ensures r.Some? ==> forall c :: 0 <= c < |names| ==> r.value[c] < |columns| && columns[r.value[c]] == names[c]
    ensures r.Some? ==> forall c :: 0 <= c < |names| ==> r.value[c] == FirstIndex(columns, names[c])
    // with no label repeated, the position found is the only column of that name
    ensures r.Some? && !Repeated(columns, names) ==>
      forall c, k :: 0 <= c < |names| && 0 <= k < |columns| && columns[k] == names[c] ==> k == r.value[c]
  {
    if forall c :: 0 <= c < |names| ==> names[c] in columns then
      var r := seq(|names|, c requires 0 <= c < |names| => FirstIndex(columns, names[c]));
      assert !Repeated(columns, names) ==>
        forall c, k :: 0 <= c < |names| && 0 <= k < |columns| && columns[k] == names[c] ==> k == r[c] by {
        if !Repeated(columns, names) {
          forall c, k | 0 <= c < |names| && 0 <= k < |columns| && columns[k] == names[c]
            ensures k == r[c]
          {
            assert columns[r[c]] == names[c];
          }
        }
      }
      Some(r)
    else None
  }

  function Cell(v: real, k: Kind, casts: Casts): Word
  {
    match k
    case Single => casts.single(v)
    case Unsigned => casts.toUint(casts.single(v))
  }

  /** One record per row: the selected cells, in the selection's order, cast by their kind. */
  function Records(f: Frame, idx: seq<nat>, kinds: seq<Kind>, casts: Casts): (rs: seq<seq<Word>>)
    requires Rectangular(f) && |kinds| == |idx|
    requires forall c :: 0 <= c < |idx| ==> idx[c] < |f.columns|
    ensures |rs| == |f.rows|
    ensures forall i :: 0 <= i < |rs| ==> |rs[i]| == |idx|
    ensures forall i, c :: 0 <= i < |rs| && 0 <= c < |idx| ==> rs[i][c] == Cell(f.rows[i][idx[c]], kinds[c], casts)
  {
    seq(|f.rows|, i requires 0 <= i < |f.rows| =>
      seq(|idx|, c requires 0 <= c < |idx| => Cell(f.rows[i][idx[c]], kinds[c], casts)))
  }

  /** The optional file write: only with a name, and `path + name` fails when no path was given. */
  function Output(bytes: seq<Byte>, path: Option<string>, name: Option<string>): (r: Encoded)
    ensures name.None? ==> r == Encoded(bytes, None)
    ensures name.Some? && path.None? ==> r == Failed(PathNotString)
    ensures name.Some? && path.Some? ==> r == Encoded(bytes, Some(Written(path.value + name.value, bytes)))
  {
    if name.None? then Encoded(bytes, None)
    else if path.None? then Failed(PathNotString)
    else Encoded(bytes, Some(Written(path.value + name.value, bytes)))
  }

  /** Selection, casting and packing shared by both exporters. */
  function Export(data: Frame, names: seq<string>, kinds: seq<Kind>, casts: Casts,
                  path: Option<string>, name: Option<string>): (r: Encoded)
    requires Rectangular(data) && |kinds| == |names| && |names| > 0
    ensures r == Failed(KeyMissing) <==> ColumnIndices(data.columns, names).None?
    ensures r == Failed(RepeatedLabel) <==> ColumnIndices(data.columns, names).Some? && Repeated(data.columns, names)
    ensures r.Encoded? ==> !Repeated(data.columns, names)
    ensures r.Encoded? ==> |r.bytes| == 4 * (|names| * |data.rows|)
    ensures r.Encoded? ==>
      var idx := ColumnIndices(data.columns, names).value;
      DecodeRecords(r.bytes, |names|) == Records(data, idx, kinds, casts)
    ensures r.Encoded? ==> (r.written.Some? <==> name.Some?) && (r.written.Some? ==> r.written.value.contents == r.bytes)
  {
    match ColumnIndices(data.columns, names)
    case None => Failed(KeyMissing)
    case Some(idx) =>
      if Repeated(data.columns, names) then Failed(RepeatedLabel)
      else
      var rs := Records(data, idx, kinds, casts);
      RecordsRoundTrip(rs, |names|);
      Output(EncodeRecords(rs), path, name)
  }

  /** `ccapt_to_pos`: sixteen bytes per ion, the position and the mass-to-charge as singles. */
  function CcaptToPos(data: Frame, casts: Casts, path: Option<string>, name: Option<string>): (r: Encoded)
    requires Rectangular(data)
    ensures r == Failed(KeyMissing) <==> exists c :: 0 <= c < 4 && PosColumns[c] !in data.columns
    ensures r == Failed(RepeatedLabel) <==>
      (forall c :: 0 <= c < 4 ==> PosColumns[c] in data.columns) && Repeated(data.columns, PosColumns)
    ensures r.Encoded? ==> |r.bytes| == 4 * (4 * |data.rows|)
    // each record holds the row's cells of the four columns, as singles
    ensures r.Encoded? ==>
      var rs := DecodeRecords(r.bytes, 4);
      && |rs| == |data.rows|
      && forall i, c :: 0 <= i < |rs| && 0 <= c < 4 ==> |rs[i]| == 4 && rs[i][c] == casts.single(Value(data, i, PosColumns[c]))
  {
    Export(data, PosColumns, PosKinds, casts, path, name)
  }

  /** `ccapt_to_epos`: forty-four bytes per ion; an unknown pulse mode leaves the selection unbound. */
  function CcaptToEpos(data: Frame, pulseMode: string, casts: Casts, path: Option<string>, name: Option<string>): (r: Encoded)
    requires Rectangular(data)
    ensures EposColumns(pulseMode).None? <==> r == Failed(PulseModeUnbound)
    ensures EposColumns(pulseMode).Some? ==>
      (r == Failed(KeyMissing) <==> exists c :: 0 <= c < 11 && EposColumns(pulseMode).value[c] !in data.columns)
    ensures EposColumns(pulseMode).Some? ==>
      (r == Failed(RepeatedLabel) <==>
        (forall c :: 0 <= c < 11 ==> EposColumns(pulseMode).value[c] in data.columns)
        && Repeated(data.columns, EposColumns(pulseMode).value))
    ensures r.Encoded? ==> |r.bytes| == 4 * (11 * |data.rows|)
    // each record holds the row's cells of the eleven columns, cast by kind
    ensures r.Encoded? ==>
      var names := EposColumns(pulseMode).value;
      var rs := DecodeRecords(r.bytes, 11);
      && |rs| == |data.rows|
      && forall i, c :: 0 <= i < |rs| && 0 <= c < 11 ==>
        (|rs[i]| == 11 && rs[i][c] == Cell(Value(data, i, names[c]), EposKinds[c], casts))
  {
    match EposColumns(pulseMode)
    case None => Failed(PulseModeUnbound)
    case Some(names) => Export(data, names, EposKinds, casts, path, name)
  }

  // ---------------------------------------------------------------- the importers

  /** A frame's column by name, as a function of the row. */
  function Value(f: Frame, row: nat, name: string): real
    requires Rectangular(f) && row < |f.rows| && name in f.columns
  {
    f.rows[row][FirstIndex(f.columns, name)]
  }

  /**
   Build the calibration frame from an imported file: calibration column `c`
   takes the file column `source[c]` when there is one and is zero otherwise.
   A file column that is missing raises a KeyError (`None`).
   */
  function Import(file: Frame, fileColumns: seq<string>, source: seq<Option<nat>>): (r: Option<Frame>)
    requires Rectangular(file) && |source| == |CcaptColumns|
    requires forall c :: 0 <= c < |source| && source[c].Some? ==> source[c].value < |fileColumns|
    ensures r.Some? <==> forall k :: 0 <= k < |fileColumns| ==> fileColumns[k] in file.columns
    ensures r.Some? ==> r.value.columns == CcaptColumns && Rectangular(r.value) && |r.value.rows| == |file.rows|
    ensures r.Some? ==> forall i, c :: 0 <= i < |file.rows| && 0 <= c < |source| ==>
      r.value.rows[i][c] == match source[c]
        case None => 0.0
        case Some(k) => Value(file, i, fileColumns[k])
  {
    match ColumnIndices(file.columns, fileColumns)
    case None => None
    case Some(idx) =>
      Some(Frame(CcaptColumns, seq(|file.rows|, i requires 0 <= i < |file.rows| =>
        seq(|source|, c requires 0 <= c < |source| =>
          match source[c]
          case None => 0.0
          case Some(k) => file.rows[i][idx[k]]))))
  }

  const PosFileColumns: seq<string> := ["x (nm)", "y (nm)", "z (nm)", "m/n (Da)"]

  /** Where each calibration column comes from in a POS file. */
  const PosSource: seq<Option<nat>> :=
    [Some(0), Some(1), Some(2), Some(3), None, None, None, None, None, None, None, None, None, None]

  /** `pos_to_ccapt`: the four POS columns in place, every other calibration column zero. */
  function PosToCcapt(pos: Frame): (r: Option<Frame>)
    requires Rectangular(pos)
    ensures r.Some? <==> forall k :: 0 <= k < 4 ==> PosFileColumns[k] in pos.columns
    ensures r.Some? ==> r.value.columns == CcaptColumns && Rectangular(r.value) && |r.value.rows| == |pos.rows|
    ensures r.Some? ==> forall i, c :: 0 <= i < |pos.rows| && 0 <= c < 14 ==>
      r.value.rows[i][c] == if c < 4 then Value(pos, i, PosFileColumns[c]) else 0.0
  {
    Import(pos, PosFileColumns, PosSource)
  }

  const EposFileColumns: seq<string> :=
    ["x (nm)", "y (nm)", "z (nm)", "m/n (Da)", "TOF (ns)", "HV_DC (V)", "pulse (V)",
     "det_x (cm)", "det_y (cm)", "pslep", "ipp"]

  /** Where each calibration column comes from in an EPOS file. */
  const EposSource: seq<Option<nat>> :=
    [Some(0), Some(1), Some(2), Some(3), None, Some(5), Some(6), None, Some(4), None, Some(7), Some(8), Some(9), Some(10)]

  /** The calibration column each EPOS column lands in: TOF in `t (ns)`, HV_DC in `high_voltage (V)`, and so on. */
  const EposTarget: seq<nat> := [0, 1, 2, 3, 8, 5, 6, 10, 11, 12, 13]

  /**
   `epos_to_ccapt`: each EPOS column under its calibration name (mass to
   charge, voltage, time of flight, detector position, pulses since the last
   event, ions per pulse); mass, start counter and corrected time are zero.
   */
  function EposToCcapt(epos: Frame): (r: Option<Frame>)
    requires Rectangular(epos)
    ensures r.Some? <==> forall k :: 0 <= k < 11 ==> EposFileColumns[k] in epos.columns
    ensures r.Some? ==> r.value.columns == CcaptColumns && Rectangular(r.value) && |r.value.rows| == |epos.rows|
  {
    Import(epos, EposFileColumns, EposSource)
  }

  /** Each EPOS column arrives under its calibration name. */
  lemma EposColumnLands(epos: Frame, i: nat, k: nat)
    requires Rectangular(epos) && forall j :: 0 <= j < 11 ==> EposFileColumns[j] in epos.columns
    requires i < |epos.rows| && k < 11
    ensures EposToCcapt(epos).value.rows[i][EposTarget[k]] == Value(epos, i, EposFileColumns[k])
  {
    assert EposSource[EposTarget[k]] == Some(k);
  }

  /** Mass, start counter and corrected time have no EPOS counterpart and are zero. */
  lemma EposUnmappedAreZero(epos: Frame, i: nat)
    requires Rectangular(epos) && forall j :: 0 <= j < 11 ==> EposFileColumns[j] in epos.columns
    requires i < |epos.rows|
    ensures var row := EposToCcapt(epos).value.rows[i];
      row[4] == 0.0 && row[7] == 0.0 && row[9] == 0.0
  {
    assert EposSource[4].None? && EposSource[7].None? && EposSource[9].None?;
  }

  /** In a sequence whose `c`-th entry differs from every earlier one, that entry is found at `c`. */
  lemma FirstIndexOfFresh<T>(s: seq<T>, c: nat)
    requires c < |s| && forall j :: 0 <= j < c ==> s[j] != s[c]
    ensures FirstIndex(s, s[c]) == c
  {
  }

  /** The calibration columns differ in length or in their first letter, so each sits at its own position. */
  lemma CcaptIndices(c: nat)
    requires c < 14
    ensures FirstIndex(CcaptColumns, CcaptColumns[c]) == c
  {
    assert forall j :: 0 <= j < 14 ==> |CcaptColumns[j]| > 0;
    forall j | 0 <= j < c
      ensures CcaptColumns[j] != CcaptColumns[c]
    {
      assert |CcaptColumns[j]| != |CcaptColumns[c]| || CcaptColumns[j][0] != CcaptColumns[c][0];
    }
    FirstIndexOfFresh(CcaptColumns, c);
  }

  /** No two calibration columns share a label, so no selection from them repeats one. */
  lemma CcaptNeverRepeated(names: seq<string>)
    ensures !Repeated(CcaptColumns, names)
  {
    forall j, k | 0 <= j < k < 14
      ensures CcaptColumns[j] != CcaptColumns[k]
    {
      CcaptIndices(k);
    }
  }

  /** The exported POS columns sit at the first four calibration positions. */
  lemma PosIndices()
    ensures ColumnIndices(CcaptColumns, PosColumns) == Some([0, 1, 2, 3])
  {
    assert forall c :: 0 <= c < 4 ==> PosColumns[c] == CcaptColumns[c];
    var r := ColumnIndices(CcaptColumns, PosColumns);
    assert r.Some? by {
      forall c | 0 <= c < 4
        ensures PosColumns[c] in CcaptColumns
      {
        assert CcaptColumns[c] == PosColumns[c];
      }
    }
    forall c | 0 <= c < 4
      ensures r.value[c] == [0, 1, 2, 3][c]
    {
      CcaptIndices(c);
    }
    assert r.value == [0, 1, 2, 3];
  }

  /** Where the voltage-mode EPOS columns sit among the calibration columns. */
  lemma EposNamesInCcapt()
    ensures forall c :: 0 <= c < 11 ==> EposTarget[c] < 14 && EposVoltageColumns[c] == CcaptColumns[EposTarget[c]]
  {
  }

  lemma EposIndices()
    ensures ColumnIndices(CcaptColumns, EposVoltageColumns) == Some(EposTarget)
  {
    var at := EposTarget;
    var names := EposVoltageColumns;
    EposNamesInCcapt();
    var r := ColumnIndices(CcaptColumns, names);
    assert r.Some? by {
      forall c | 0 <= c < 11
        ensures names[c] in CcaptColumns
      {
        assert CcaptColumns[at[c]] == names[c];
      }
    }
    forall c | 0 <= c < 11
      ensures r.value[c] == at[c]
    {
      CcaptIndices(at[c]);
    }
    assert r.value == at;
  }

  /** Exporting a frame whose first four columns are the POS columns takes those columns as they stand. */
  lemma PosFromCcaptLayout(f: Frame, casts: Casts)
    requires Rectangular(f) && 4 <= |f.columns| && ColumnIndices(f.columns, PosColumns) == Some([0, 1, 2, 3])
    requires !Repeated(f.columns, PosColumns)
    ensures var r := CcaptToPos(f, casts, None, None);
      && r.Encoded? && r.written.None?
      && var rs := DecodeRecords(r.bytes, 4);
      && |rs| == |f.rows|
      && forall i, c :: 0 <= i < |rs| && 0 <= c < 4 ==> rs[i][c] == casts.single(f.rows[i][c])
  {
    var r := Export(f, PosColumns, PosKinds, casts, None, None);
    assert DecodeRecords(r.bytes, 4) == Records(f, [0, 1, 2, 3], PosKinds, casts);
  }

  /** A POS file imported and exported again carries each ion's position and mass-to-charge, as singles, in order. */
  lemma PosThroughCcapt(pos: Frame, casts: Casts)
    requires Rectangular(pos) && forall k :: 0 <= k < 4 ==> PosFileColumns[k] in pos.columns
    ensures var r := CcaptToPos(PosToCcapt(pos).value, casts, None, None);
      && r.Encoded? && r.written.None?
      && var rs := DecodeRecords(r.bytes, 4);
      && |rs| == |pos.rows|
      && forall i, c :: 0 <= i < |rs| && 0 <= c < 4 ==> rs[i][c] == casts.single(Value(pos, i, PosFileColumns[c]))
  {
    var f := PosToCcapt(pos).value;
    PosIndices();
    CcaptNeverRepeated(PosColumns);
    PosFromCcaptLayout(f, casts);
  }

  /** An EPOS file imported and exported again in voltage mode keeps its record layout, field for field. */
  lemma EposThroughCcapt(epos: Frame, casts: Casts)
    requires Rectangular(epos) && forall k :: 0 <= k < 11 ==> EposFileColumns[k] in epos.columns
    ensures var r := CcaptToEpos(EposToCcapt(epos).value, "voltage", casts, None, None);
      && r.Encoded?
      && var rs := DecodeRecords(r.bytes, 11);
      && |rs| == |epos.rows|
      && forall i, c :: 0 <= i < |rs| && 0 <= c < 11 ==>
        rs[i][c] == Cell(Value(epos, i, EposFileColumns[c]), EposKinds[c], casts)
  {
    EposIndices();
    CcaptNeverRepeated(EposVoltageColumns);
    var f := EposToCcapt(epos).value;
    var r := CcaptToEpos(f, "voltage", casts, None, None);
    var rs := DecodeRecords(r.bytes, 11);
    forall i, c | 0 <= i < |rs| && 0 <= c < 11
      ensures rs[i][c] == Cell(Value(epos, i, EposFileColumns[c]), EposKinds[c], casts)
    {
      EposColumnLands(epos, i, c);
      assert rs[i][c] == Cell(f.rows[i][EposTarget[c]], EposKinds[c], casts);
    }
  }

  /** A frame imported from a POS file has no `pulse (deg)` column, so the laser-mode export raises. */
  lemma LaserExportNeedsPulseAngle(pos: Frame, casts: Casts, path: Option<string>, name: Option<string>)
    requires Rectangular(pos) && forall c :: 0 <= c < 4 ==> PosFileColumns[c] in pos.columns
    ensures CcaptToEpos(PosToCcapt(pos).value, "laser", casts, path, name) == Failed(KeyMissing)
  {
    assert EposLaserColumns[6] !in CcaptColumns;
  }
}

=== FILE: lifecycle.dfy ===
/**
 The run lifecycle of the experiment driver's `main`: start values, the
 control loop with its stop checks (user abort, ion count, debounced voltage
 ceiling, tick budget), the post-loop total, and the post-run length check.
 Process start-up, warm-up sleeps, the period timing and the persistence stage
 are not modelled. The drain threads run concurrently in the source; here the
 batches they handled since the previous tick are applied just before it.
 */
module Lifecycle {
  import opened Seqs
  import opened ExperimentState
  import opened Drain
  import opened Controller

  /** A batch handled by one of the drain threads. */
  datatype DrainAction = FromDld(dld: DldBatch) | FromTdc(tdc: TdcBatch) | FromDrs(drs: DrsBatch)

  /** What the outside world contributes to one loop iteration. */
  datatype LoopInput = LoopInput(
    drains: seq<DrainAction>,  // batches drained since the previous tick
    tick: TickInput,           // counter reading and sensor samples
    stopPressed: bool,         // the GUI's stop button set `stop_flag`
    exTime: int)               // the current value of `ex_time` (editable while running)

  /** The loop's own variables next to the shared run record. */
  datatype LoopState = LoopState(
    run: RunState,
    steps: int,                // `steps`
    totalSteps: int,           // `total_steps`, the tick budget
    highVoltageTicks: int,     // `flag_achieved_high_voltage`, the ceiling debounce counter
    exTimeTemp: int,           // `ex_time_temp`, the last seen `ex_time`
    timeCounter: seq<int>)     // `time_counter`, one entry per tick

  datatype StopReason = UserAbort | IonTarget | VoltageCeiling | BudgetSpent

  /** One iteration either stops the loop by a `break` or continues it. */
  datatype Iteration = Continue(state: LoopState) | Break(reason: StopReason, state: LoopState)

  /** How a bounded stretch of the loop ended; `Pending` when the inputs ran out first. */
  datatype Outcome = Stopped(reason: StopReason, final: LoopState) | Pending(final: LoopState)

  /** Apply drained batches in order. */
  function ApplyDrains(run: RunState, ds: seq<DrainAction>): (r: RunState)
    ensures r.specimenVoltage == run.specimenVoltage && r.pulseVoltage == run.pulseVoltage
    ensures r.mainVdc == run.mainVdc && r.mainCounter == run.mainCounter && r.countLast == run.countLast
    ensures r.totalIons == run.totalIons && r.stopFlag == run.stopFlag
    ensures AllTagged(r) <==> AllTagged(run)
  {
    if |ds| == 0 then run
    else
      var prev := ApplyDrains(run, ds[..|ds| - 1]);
      match ds[|ds| - 1]
      case FromDld(b) => DrainDld(prev, b)
      case FromTdc(b) => DrainTdc(prev, b)
      case FromDrs(b) => DrainDrs(prev, b)
  }

  /** Values set by `main` before the loop: the start voltages, the setpoint and the budget. */
  function Start(cfg: Config, run: RunState): (r: (real, LoopState))
    requires ValidConfig(cfg)
    ensures r.0 == run.detectionRate / 100.0
    ensures r.1.run.specimenVoltage == cfg.vdcMin && r.1.run.pulseVoltage == cfg.vPMin
    ensures r.1.steps == 0 && r.1.timeCounter == [] && r.1.highVoltageTicks == 0
    ensures r.1.totalSteps == cfg.exTime * cfg.exFreq && r.1.exTimeTemp == cfg.exTime
    // the rest of the run record is as the caller left it
    ensures r.1.run == run.(specimenVoltage := cfg.vdcMin, pulseVoltage := cfg.vPMin)
  {
    var started := run.(specimenVoltage := cfg.vdcMin, pulseVoltage := cfg.vPMin);
    (CountsTarget(cfg, run.detectionRate), LoopState(started, 0, cfg.exTime * cfg.exFreq, 0, cfg.exTime, []))
  }

  /** Number of ceiling ticks after which the next one stops the loop (`ex_freq * 10`). */
  function DebounceLimit(cfg: Config): int
  {
    cfg.exFreq * 10
  }

  /** The body of the `while steps < total_steps` loop. */
  function Iterate(cfg: Config, target: real, ls: LoopState, input: LoopInput): (it: Iteration)
    requires ValidConfig(cfg)
    // each iteration runs one tick, numbers it, and counts it
    ensures it.state.steps == ls.steps + 1
    ensures it.state.timeCounter == ls.timeCounter + [ls.steps]
    ensures it.state.run.specimenVoltage >= ls.run.specimenVoltage
    ensures it.state.run.stopFlag == (ls.run.stopFlag || input.stopPressed)
    // the telemetry deltas keep telescoping and every event keeps its tags
    ensures Sum(it.state.run.mainCounter) - it.state.run.countLast == Sum(ls.run.mainCounter) - ls.run.countLast
    ensures |it.state.run.mainVdc| == |ls.run.mainVdc| + 1 && |it.state.run.mainCounter| == |ls.run.mainCounter| + 1
    ensures AllTagged(it.state.run) <==> AllTagged(ls.run)
    // stop order: the abort flag first, then the ion criterion, then the voltage debounce
    ensures it.Break? && it.reason == UserAbort <==> it.state.run.stopFlag
    ensures it.Break? && it.reason == IonTarget
        <==> !it.state.run.stopFlag && cfg.criteriaIons && cfg.maxIons <= it.state.run.totalIons
    ensures it.Break? ==> it.reason != BudgetSpent
    // the debounce counter is never reset: it counts each surviving tick at or above the ceiling
    ensures it.state.highVoltageTicks >= ls.highVoltageTicks
    ensures it.Continue? && cfg.criteriaVdc && cfg.vdcMax <= it.state.run.specimenVoltage
        ==> it.state.highVoltageTicks == ls.highVoltageTicks + 1
    ensures it.Continue? && !(cfg.criteriaVdc && cfg.vdcMax <= it.state.run.specimenVoltage)
        ==> it.state.highVoltageTicks == ls.highVoltageTicks
    ensures it.Break? && it.reason == VoltageCeiling
        <==> && !it.state.run.stopFlag && !(cfg.criteriaIons && cfg.maxIons <= it.state.run.totalIons)
             && cfg.criteriaVdc && cfg.vdcMax <= it.state.run.specimenVoltage
             && ls.highVoltageTicks > DebounceLimit(cfg)
    // the budget: recomputed when `ex_time` was edited, extended by one when time is no criterion
    ensures it.Continue? && input.exTime == ls.exTimeTemp && (cfg.criteriaTime || ls.steps + 2 != ls.totalSteps)
        ==> it.state.totalSteps == ls.totalSteps && it.state.exTimeTemp == ls.exTimeTemp
    ensures it.Continue? && input.exTime == ls.exTimeTemp && !cfg.criteriaTime && ls.steps + 2 == ls.totalSteps
        ==> it.state.totalSteps == ls.totalSteps + 1
    ensures it.Continue? && input.exTime != ls.exTimeTemp && cfg.criteriaTime
        ==> it.state.totalSteps == input.exTime * cfg.exFreq - (ls.steps + 1) && it.state.exTimeTemp == input.exTime
    ensures it.Continue? && input.exTime != ls.exTimeTemp && !cfg.criteriaTime
        ==> var t := input.exTime * cfg.exFreq - (ls.steps + 1);
            it.state.totalSteps == (if ls.steps + 2 == t then t + 1 else t) && it.state.exTimeTemp == input.exTime
  {
    StopChecks(cfg, ls, Advance(cfg, target, ls, input), input)
  }

  /**
   The first half of an iteration: the drained batches, the start flag on the
   first pass, one controller tick, the stop button, and the tick count.
   */
  function Advance(cfg: Config, target: real, ls: LoopState, input: LoopInput): (s: LoopState)
    requires ValidConfig(cfg)
    ensures s == ls.(run := s.run, steps := s.steps, timeCounter := s.timeCounter)
    ensures s.steps == ls.steps + 1 && s.timeCounter == ls.timeCounter + [ls.steps]
    ensures s.run.specimenVoltage >= ls.run.specimenVoltage
    ensures s.run.stopFlag == (ls.run.stopFlag || input.stopPressed)
    ensures ls.steps == 0 ==> s.run.startFlag
    ensures Sum(s.run.mainCounter) - s.run.countLast == Sum(ls.run.mainCounter) - ls.run.countLast
    ensures |s.run.mainVdc| == |ls.run.mainVdc| + 1 && |s.run.mainCounter| == |ls.run.mainCounter| + 1
    ensures AllTagged(s.run) <==> AllTagged(ls.run)
  {
    var drained := ApplyDrains(ls.run, input.drains);
    var starting := if ls.steps == 0 then drained.(startFlag := true) else drained;
    var ticked := Tick(cfg, target, starting, input.tick).run;
    TickCounts(cfg, target, starting, input.tick);
    TickFrame(cfg, target, starting, input.tick);
    var run := ticked.(stopFlag := ticked.stopFlag || input.stopPressed);
    ls.(run := run, steps := ls.steps + 1, timeCounter := ls.timeCounter + [ls.steps])
  }

  /**
   The second half: the stop checks in the source's order, then the ceiling
   debounce count and the budget bookkeeping. `ls` is the state before the
   tick, `s` the state after it.
   */
  function StopChecks(cfg: Config, ls: LoopState, s: LoopState, input: LoopInput): (it: Iteration)
    ensures it.state == s.(highVoltageTicks := it.state.highVoltageTicks, totalSteps := it.state.totalSteps,
                           exTimeTemp := it.state.exTimeTemp)
    ensures it.Break? ==> it.state == s
  {
    var run := s.run;
    if run.stopFlag then Break(UserAbort, s)
    else if cfg.criteriaIons && cfg.maxIons <= run.totalIons then Break(IonTarget, s)
    else if cfg.criteriaVdc && cfg.vdcMax <= run.specimenVoltage && ls.highVoltageTicks > DebounceLimit(cfg) then
      Break(VoltageCeiling, s)
    else
      var hv := if cfg.criteriaVdc && cfg.vdcMax <= run.specimenVoltage then ls.highVoltageTicks + 1
                else ls.highVoltageTicks;
      var total := if input.exTime != ls.exTimeTemp then input.exTime * cfg.exFreq - s.steps else ls.totalSteps;
      var total' := if !cfg.criteriaTime && s.steps + 1 == total then total + 1 else total;
      Continue(s.(highVoltageTicks := hv, totalSteps := total', exTimeTemp := input.exTime))
  }

  /** The loop run against a finite stretch of inputs. */
  function Run(cfg: Config, target: real, ls: LoopState, inputs: seq<LoopInput>): (o: Outcome)
    requires ValidConfig(cfg)
    // the two ways out that are not a `break`: the budget is spent, or the inputs ran out
    ensures ls.steps >= ls.totalSteps ==> o == Stopped(BudgetSpent, ls)
    ensures ls.steps < ls.totalSteps && |inputs| == 0 ==> o == Pending(ls)
    ensures o.Stopped? && o.reason == BudgetSpent ==> o.final.steps >= o.final.totalSteps
    ensures o.Pending? ==> o.final.steps < o.final.totalSteps
    // one tick per input consumed, and every input consumed when they run out
    ensures ls.steps <= o.final.steps <= ls.steps + |inputs|
    ensures o.Pending? ==> o.final.steps == ls.steps + |inputs|
    decreases |inputs|
  {
    if ls.steps >= ls.totalSteps then Stopped(BudgetSpent, ls)
    else if |inputs| == 0 then Pending(ls)
    else
      match Iterate(cfg, target, ls, inputs[0])
      case Break(reason, s) => Stopped(reason, s)
      case Continue(s) => Run(cfg, target, s, inputs[1..])
  }

  /** Facts every loop state reached from `Start` satisfies. */
  predicate LoopInvariant(ls: LoopState, v0: real, tele: int)
  {
    && ls.steps >= 0
    && ls.timeCounter == Range(ls.steps)
    && ls.run.specimenVoltage >= v0
    && Sum(ls.run.mainCounter) - ls.run.countLast == tele
    && |ls.run.mainVdc| == |ls.run.mainCounter|
  }

  /**
   Along any run: `steps` counts the ticks, `time_counter` is `[0, ..., steps-1]`,
   the specimen voltage never falls below its start, the recorded ion deltas
   telescope, and every accumulator keeps one tag per event.
   */
  lemma {:induction false} RunInvariants(cfg: Config, target: real, ls: LoopState, inputs: seq<LoopInput>)
    requires ValidConfig(cfg)
    requires LoopInvariant(ls, ls.run.specimenVoltage, Sum(ls.run.mainCounter) - ls.run.countLast)
    requires AllTagged(ls.run)
    ensures var s := Run(cfg, target, ls, inputs).final;
      && LoopInvariant(s, ls.run.specimenVoltage, Sum(ls.run.mainCounter) - ls.run.countLast)
      && AllTagged(s.run)
      && ls.steps <= s.steps <= ls.steps + |inputs|
    decreases |inputs|
  {
    if ls.steps < ls.totalSteps && |inputs| > 0 {
      var it := Iterate(cfg, target, ls, inputs[0]);
      IterateKeepsInvariant(cfg, target, ls, inputs[0]);
      if it.Continue? {
        RunInvariants(cfg, target, it.state, inputs[1..]);
      }
    }
  }

  lemma IterateKeepsInvariant(cfg: Config, target: real, ls: LoopState, input: LoopInput)
    requires ValidConfig(cfg)
    requires LoopInvariant(ls, ls.run.specimenVoltage, Sum(ls.run.mainCounter) - ls.run.countLast)
    requires AllTagged(ls.run)
    ensures var s := Iterate(cfg, target, ls, input).state;
      && LoopInvariant(s, ls.run.specimenVoltage, Sum(ls.run.mainCounter) - ls.run.countLast)
      && AllTagged(s.run)
  {
    var s := Iterate(cfg, target, ls, input).state;
    assert s.timeCounter == Range(ls.steps) + [ls.steps];
    assert Range(ls.steps) + [ls.steps] == Range(ls.steps + 1);
  }

  /**
   With the time criterion on and `ex_time` never edited, the loop runs at most
   `ex_time * ex_freq` ticks.
   */
  lemma {:induction false} TimeCriterionBoundsTicks(cfg: Config, target: real, ls: LoopState, inputs: seq<LoopInput>)
    requires ValidConfig(cfg) && cfg.criteriaTime
    requires ls.totalSteps == cfg.exTime * cfg.exFreq && ls.exTimeTemp == cfg.exTime
    requires ls.steps <= ls.totalSteps || ls.steps == 0
    requires forall i :: 0 <= i < |inputs| ==> inputs[i].exTime == cfg.exTime
    ensures var s := Run(cfg, target, ls, inputs).final;
      s.steps <= cfg.exTime * cfg.exFreq || s.steps == ls.steps
    decreases |inputs|
  {
    if ls.steps < ls.totalSteps && |inputs| > 0 {
      var it := Iterate(cfg, target, ls, inputs[0]);
      if it.Continue? {
        TimeCriterionBoundsTicks(cfg, target, it.state, inputs[1..]);
      }
    }
  }

  /**
   With the time criterion off, `ex_time` never edited, and a budget of at
   least two ticks ahead, the budget keeps extending itself: the loop ends only
   by a `break`, never because the budget was spent.
   */
  lemma {:induction false} NoTimeCriterionNeverSpendsBudget(cfg: Config, target: real, ls: LoopState, inputs: seq<LoopInput>)
    requires ValidConfig(cfg) && !cfg.criteriaTime
    requires ls.steps + 1 < ls.totalSteps
    requires forall i :: 0 <= i < |inputs| ==> inputs[i].exTime == ls.exTimeTemp
    ensures var o := Run(cfg, target, ls, inputs);
      o.Stopped? ==> o.reason != BudgetSpent
    decreases |inputs|
  {
    if |inputs| > 0 {
      var it := Iterate(cfg, target, ls, inputs[0]);
      if it.Continue? {
        NoTimeCriterionNeverSpendsBudget(cfg, target, it.state, inputs[1..]);
      }
    }
  }

  /** A run started by `Start` with the time criterion off and a budget of two or more never spends it. */
  lemma FreshRunWithoutTimeCriterion(cfg: Config, run: RunState, inputs: seq<LoopInput>)
    requires ValidConfig(cfg) && !cfg.criteriaTime && cfg.exTime * cfg.exFreq >= 2
    requires forall i :: 0 <= i < |inputs| ==> inputs[i].exTime == cfg.exTime
    ensures var (target, ls) := Start(cfg, run);
      var o := Run(cfg, target, ls, inputs);
      o.Stopped? ==> o.reason != BudgetSpent
  {
    var (target, ls) := Start(cfg, run);
    NoTimeCriterionNeverSpendsBudget(cfg, target, ls, inputs);
  }

  /** Inputs that never press stop. */
  predicate NoAbort(inputs: seq<LoopInput>)
  {
    forall i :: 0 <= i < |inputs| ==> !inputs[i].stopPressed
  }

  /**
   The ceiling debounce is exact: once the specimen voltage sits at or above
   `vdc_max` with the debounce counter at `h`, and nothing else stops the run,
   the loop breaks on the `ex_freq*10 + 2 - h`-th further tick, with reason
   `VoltageCeiling`. From `h == 0` that is the `(ex_freq*10 + 2)`-th tick at the ceiling.
   */
  lemma {:induction false} CeilingDebounceIsExact(cfg: Config, target: real, ls: LoopState, inputs: seq<LoopInput>)
    requires ValidConfig(cfg) && cfg.criteriaVdc && !cfg.criteriaIons && !cfg.criteriaTime
    requires ls.run.specimenVoltage >= cfg.vdcMax && !ls.run.stopFlag
    requires 0 <= ls.highVoltageTicks <= DebounceLimit(cfg) + 1
    requires ls.steps + 1 < ls.totalSteps
    requires NoAbort(inputs)
    requires forall i :: 0 <= i < |inputs| ==> inputs[i].exTime == ls.exTimeTemp
    requires |inputs| >= DebounceLimit(cfg) + 2 - ls.highVoltageTicks
    ensures var o := Run(cfg, target, ls, inputs);
      && o.Stopped? && o.reason == VoltageCeiling
      && o.final.steps == ls.steps + (DebounceLimit(cfg) + 2 - ls.highVoltageTicks)
      && o.final.highVoltageTicks == DebounceLimit(cfg) + 1
    decreases |inputs|
  {
    var it := Iterate(cfg, target, ls, inputs[0]);
    assert !inputs[0].stopPressed;
    if it.Continue? {
      CeilingDebounceIsExact(cfg, target, it.state, inputs[1..]);
    }
  }
}

=== FILE: load_crop.dfy ===
/**
 Loading and cropping a detector dataset (`data_loadcrop.py`): the six
 columns read from the converted HDF5 storage, the detector and time-of-flight
 mask applied to every column alike, the column layout, the row-range crop,
 and the circular region-of-interest crop. A frame is its column names and its
 rows; frames here always carry the default index 0..n-1, because every step
 that changes the rows resets it. Plotting, the interactive selectors and the
 logger's `info` lines are not modelled.
 */
module LoadCrop {
  import opened Options
  import opened Seqs
  import opened PyMath
  import opened HdfRead

  const Roentdec: string := "roentdec"

  /** Bounds on |x| and |y| for the two detector types. */
  const SurfaceBound: real := 40.0
  const RoentdecBound: real := 60.0

  /** The mm-to-cm factor `fetch_dataset_from_dld_grp` applies to surface-concept positions. */
  const MmToCm: real := 0.1

  const KeysMissingMessage: string := "[*] Keys missing in the dataset"
  const FileNotFoundMessage: string := "[*] HDF5 file not found"

  const XColumn: string := "x_det (cm)"
  const YColumn: string := "y_det (cm)"

  datatype Frame = Frame(columns: seq<string>, rows: seq<seq<real>>)

  /** Every row has one value per column. */
  predicate Rectangular(f: Frame)
  {
    forall i :: 0 <= i < |f.rows| ==> |f.rows[i]| == |f.columns|
  }

  /**
   Exceptions that escape the function: a pulse mode that is neither `laser`
   nor `voltage` or a TDC that is neither model leaves a local unbound, and
   datasets of different lengths make the masking fail.
   */
  datatype LoadError = PulseUnbound | StorageUnbound | ShapeMismatch

  /** The result of a fetch: a frame, `None` after a critical log line, or an escaping exception. */
  datatype Fetch = Got(frame: Frame) | Logged(critical: string) | Raised(error: LoadError)

  /** The dataset holding the pulse column for a pulse mode. */
  function PulseKey(mode: string): (k: Option<string>)
    ensures k.Some? <==> mode == "laser" || mode == "voltage"
  {
    if mode == "laser" then Some("dld/laser_intensity")
    else if mode == "voltage" then Some("dld/pulse_voltage")
    else None
  }

  /** `create_pandas_dataframe`'s column names; `None` where the source leaves the frame unbound. */
  function ColumnNames(tdc: string, mode: string): (r: Option<seq<string>>)
    ensures r.Some? <==> (tdc == SurfaceConcept || tdc == Roentdec) && (mode == "voltage" || mode == "laser")
    ensures r.Some? ==> |r.value| == 6
    ensures r.Some? ==> r.value[0] == "high_voltage (V)" && r.value[2] == "start_counter" && r.value[3] == "t (ns)"
    ensures r.Some? ==> r.value[4] == XColumn && r.value[5] == YColumn
    ensures r.Some? ==> r.value[1] == (if mode == "voltage" then "pulse (V)" else "pulse (deg)")
  {
    if (tdc == SurfaceConcept || tdc == Roentdec) && mode == "voltage" then
      Some(["high_voltage (V)", "pulse (V)", "start_counter", "t (ns)", XColumn, YColumn])
    else if (tdc == SurfaceConcept || tdc == Roentdec) && mode == "laser" then
      Some(["high_voltage (V)", "pulse (deg)", "start_counter", "t (ns)", XColumn, YColumn])
    else None
  }

  /** The indices a boolean mask selects, ascending. */
  function Kept(mask: seq<bool>): (r: seq<nat>)
    ensures |r| <= |mask|
    ensures forall j :: 0 <= j < |r| ==> r[j] < |mask| && mask[r[j]]
    ensures forall i :: 0 <= i < |mask| && mask[i] ==> i in r
    ensures forall j, k :: 0 <= j < k < |r| ==> r[j] < r[k]
  {
    if |mask| == 0 then []
    else
      var front := Kept(mask[..|mask| - 1]);
      assert forall i :: 0 <= i < |mask| - 1 ==> mask[..|mask| - 1][i] == mask[i];
      if mask[|mask| - 1] then front + [|mask| - 1] else front
  }

  /** numpy's `column[mask]`: the selected values, in order. */
  function Select(col: seq<real>, mask: seq<bool>): (r: seq<real>)
    requires |col| == |mask|
    ensures |r| == |Kept(mask)|
    ensures forall j :: 0 <= j < |r| ==> r[j] == col[Kept(mask)[j]]
  {
    var kept := Kept(mask);
    seq(|kept|, j requires 0 <= j < |kept| => col[kept[j]])
  }

  /** Positions within `bound` of the centre on both axes and a time of flight in (0, max_tof). */
  function DetectorMask(x: seq<real>, y: seq<real>, t: seq<real>, bound: real, maxTof: real): (m: seq<bool>)
    requires |y| == |x| && |t| == |x|
    ensures |m| == |x|
    ensures forall i :: 0 <= i < |x| ==>
      (m[i] <==> Abs(x[i]) <= bound && Abs(y[i]) <= bound && 0.0 < t[i] && t[i] < maxTof)
  {
    seq(|x|, i requires 0 <= i < |x| => Abs(x[i]) <= bound && Abs(y[i]) <= bound && 0.0 < t[i] && t[i] < maxTof)
  }

  function Scale(col: seq<real>, factor: real): (r: seq<real>)
    ensures |r| == |col|
    ensures forall i :: 0 <= i < |col| ==> r[i] == col[i] * factor
  {
    seq(|col|, i requires 0 <= i < |col| => col[i] * factor)
  }

  /** `np.concatenate` of the column vectors: row `i` holds the `i`-th entry of every column, in column order. */
  function Stack(cols: seq<seq<real>>, n: nat): (rows: seq<seq<real>>)
    requires forall c :: 0 <= c < |cols| ==> |cols[c]| == n
    ensures |rows| == n
    ensures forall i :: 0 <= i < n ==> |rows[i]| == |cols|
    ensures forall i, c :: 0 <= i < n && 0 <= c < |cols| ==> rows[i][c] == cols[c][i]
  {
    seq(n, i requires 0 <= i < n => seq(|cols|, c requires 0 <= c < |cols| => cols[c][i]))
  }

  /** Every column masked alike, then stacked side by side. */
  function MaskedRows(cols: seq<seq<real>>, mask: seq<bool>): (rows: seq<seq<real>>)
    requires forall c :: 0 <= c < |cols| ==> |cols[c]| == |mask|
    ensures |rows| == |Kept(mask)|
    ensures forall j :: 0 <= j < |rows| ==> |rows[j]| == |cols|
    ensures forall j, c :: 0 <= j < |rows| && 0 <= c < |cols| ==> rows[j][c] == cols[c][Kept(mask)[j]]
  {
    var selected := seq(|cols|, c requires 0 <= c < |cols| => Select(cols[c], mask));
    Stack(selected, |Kept(mask)|)
  }

  /** Surface-concept rows: the start counter is kept and x and y are scaled by 0.1 (before or after the mask alike). */
  function SurfaceRows(hv: seq<real>, pulse: seq<real>, counter: seq<real>, t: seq<real>, x: seq<real>, y: seq<real>,
                       mask: seq<bool>): (rows: seq<seq<real>>)
    requires |hv| == |mask| && |pulse| == |mask| && |counter| == |mask| && |t| == |mask| && |x| == |mask| && |y| == |mask|
    ensures var kept := Kept(mask);
      && |rows| == |kept|
      && forall j :: 0 <= j < |rows| ==>
        && |rows[j]| == 6
        && rows[j][0] == hv[kept[j]] && rows[j][1] == pulse[kept[j]] && rows[j][2] == counter[kept[j]]
        && rows[j][3] == t[kept[j]] && rows[j][4] == x[kept[j]] * MmToCm && rows[j][5] == y[kept[j]] * MmToCm
  {
    MaskedRows([hv, pulse, counter, t, Scale(x, MmToCm), Scale(y, MmToCm)], mask)
  }

  /** Roentdec rows: the filtered time of flight stands in the third column as well, x and y are kept as read. */
  function RoentdecRows(hv: seq<real>, pulse: seq<real>, t: seq<real>, x: seq<real>, y: seq<real>,
                        mask: seq<bool>): (rows: seq<seq<real>>)
    requires |hv| == |mask| && |pulse| == |mask| && |t| == |mask| && |x| == |mask| && |y| == |mask|
    ensures var kept := Kept(mask);
      && |rows| == |kept|
      && forall j :: 0 <= j < |rows| ==>
        && |rows[j]| == 6
        && rows[j][0] == hv[kept[j]] && rows[j][1] == pulse[kept[j]] && rows[j][2] == t[kept[j]]
        && rows[j][3] == t[kept[j]] && rows[j][4] == x[kept[j]] && rows[j][5] == y[kept[j]]
  {
    MaskedRows([hv, pulse, t, t, x, y], mask)
  }

  /** The masked, stacked columns of one detector type. */
  function DetectorRows(tdc: string, hv: seq<real>, pulse: seq<real>, counter: seq<real>,
                        t: seq<real>, x: seq<real>, y: seq<real>, maxTof: real): (rows: seq<seq<real>>)
    requires |hv| == |x| && |pulse| == |x| && |counter| == |x| && |t| == |x| && |y| == |x|
  {
    if tdc == SurfaceConcept then SurfaceRows(hv, pulse, counter, t, x, y, DetectorMask(x, y, t, SurfaceBound, maxTof))
    else RoentdecRows(hv, pulse, t, x, y, DetectorMask(x, y, t, RoentdecBound, maxTof))
  }

  /** Look up several datasets; `None` as soon as one key is missing. */
  function Lookup(st: map<string, seq<real>>, keys: seq<string>): (r: Option<seq<seq<real>>>)
    ensures r.Some? <==> forall i :: 0 <= i < |keys| ==> keys[i] in st
    ensures r.Some? ==> |r.value| == |keys| && forall i :: 0 <= i < |keys| ==> r.value[i] == st[keys[i]]
  {
    if |keys| == 0 then Some([])
    else if keys[0] !in st then None
    else match Lookup(st, keys[1..])
      case None => None
      case Some(rest) => Some([st[keys[0]]] + rest)
  }

  /** The datasets `fetch_dataset_from_dld_grp` reads, in order; the pulse key only for a known pulse mode. */
  function RequiredKeys(tdc: string, mode: string): (keys: seq<string>)
    ensures |keys| == if PulseKey(mode).Some? then 6 else 5
    ensures "dld/high_voltage" in keys && "dld/t" in keys && "dld/x" in keys && "dld/y" in keys
    ensures PulseKey(mode).Some? ==> PulseKey(mode).value in keys
    ensures tdc == SurfaceConcept ==> "dld/start_counter" in keys
  {
    var third := if tdc == SurfaceConcept then "dld/start_counter" else "dld/AbsoluteTimeStamp";
    ["dld/high_voltage"] + (if PulseKey(mode).Some? then [PulseKey(mode).value] else [])
      + [third, "dld/t", "dld/x", "dld/y"]
  }

  /**
   numpy's broadcast of two one-dimensional operands: equal lengths, or a
   length-one operand stretched to the other's length; `None` when they clash.
   */
  function Broadcast(a: nat, b: nat): (r: Option<nat>)
    ensures r.Some? <==> a == b || a == 1 || b == 1
    ensures r.Some? ==> (a == r.value || a == 1) && (b == r.value || b == 1)
    ensures r.Some? && a != 1 ==> r.value == a
  {
    if a == b then Some(a) else if a == 1 then Some(b) else if b == 1 then Some(a) else None
  }

  /** The length of the fetch's mask, `(0 < t < max_tof) & (|x| <= bound & |y| <= bound)`; `None` when building it raises. */
  function MaskLength(t: nat, x: nat, y: nat): (r: Option<nat>)
    ensures t == x && x == y ==> r == Some(x)
  {
    match Broadcast(x, y)
    case None => None
    case Some(xy) => Broadcast(t, xy)
  }

  /** Every dataset the fetch masks has the length of `dld/x`. */
  predicate MaskedAligned(st: map<string, seq<real>>, tdc: string, mode: string)
    requires PulseKey(mode).Some? && forall k :: k in RequiredKeys(tdc, mode) ==> k in st
  {
    var n := |st["dld/x"]|;
    && |st["dld/y"]| == n && |st["dld/t"]| == n && |st["dld/high_voltage"]| == n
    && |st[PulseKey(mode).value]| == n
    && (tdc == SurfaceConcept ==> |st["dld/start_counter"]| == n)
  }

  /**
   `fetch_dataset_from_dld_grp`, given what its `data_tools.read_hdf5` returned:
   the datasets by path, or `None` for a missing file. That reader lives in
   `calibration_tools.data_tools`, which is not part of this model, so its
   result enters as a parameter. A missing file or a missing dataset is
   logged as critical and gives `None`; an unknown TDC raises. Otherwise the
   mask is built with numpy broadcasting, and every indexing by it needs the
   mask's own length: `high_voltage` is indexed first, then the pulse column
   (unbound for an unknown pulse mode), then the rest.
   */
  function FetchDataset(store: Option<map<string, seq<real>>>, tdc: string, mode: string, maxTof: real): (r: Fetch)
    ensures store.None? ==> r == Logged(FileNotFoundMessage)
    ensures store.Some? && tdc != SurfaceConcept && tdc != Roentdec ==> r == Raised(StorageUnbound)
    ensures r.Got? ==> ColumnNames(tdc, mode).Some? && r.frame.columns == ColumnNames(tdc, mode).value
    ensures r.Got? ==> Rectangular(r.frame)
  {
    if store.None? then Logged(FileNotFoundMessage)
    else if tdc != SurfaceConcept && tdc != Roentdec then Raised(StorageUnbound)
    else FetchFrom(store.value, tdc, mode, maxTof)
  }

  /** The part of the fetch after the storage was read, for a known TDC. */
  function FetchFrom(st: map<string, seq<real>>, tdc: string, mode: string, maxTof: real): (r: Fetch)
    requires tdc == SurfaceConcept || tdc == Roentdec
    ensures r.Got? ==> ColumnNames(tdc, mode).Some? && r.frame.columns == ColumnNames(tdc, mode).value
    ensures r.Got? ==> Rectangular(r.frame)
  {
    var keys := RequiredKeys(tdc, mode);
    match Lookup(st, keys)
    case None => Logged(KeysMissingMessage)
    case Some(cols) =>
      var p := if PulseKey(mode).Some? then 1 else 0;
      var hv, counter, t, x, y := cols[0], cols[p + 1], cols[p + 2], cols[p + 3], cols[p + 4];
      match MaskLength(|t|, |x|, |y|)
      case None => Raised(ShapeMismatch)
      case Some(n) =>
        if |hv| != n then Raised(ShapeMismatch)
        else if PulseKey(mode).None? then Raised(PulseUnbound)
        else if |cols[1]| != n || (tdc == SurfaceConcept && |counter| != n) || |t| != n || |x| != n || |y| != n then
          Raised(ShapeMismatch)
        else
          var counter' := if tdc == SurfaceConcept then counter else t;
          Got(Frame(ColumnNames(tdc, mode).value, DetectorRows(tdc, hv, cols[1], counter', t, x, y, maxTof)))
  }

  /** A frame comes back exactly when every dataset is there and the masked ones agree in length. */
  lemma FetchGotExactly(store: Option<map<string, seq<real>>>, tdc: string, mode: string, maxTof: real)
    ensures FetchDataset(store, tdc, mode, maxTof).Got? <==>
      && store.Some? && (tdc == SurfaceConcept || tdc == Roentdec) && PulseKey(mode).Some?
      && (forall k :: k in RequiredKeys(tdc, mode) ==> k in store.value)
      && MaskedAligned(store.value, tdc, mode)
  {
    if store.Some? && (tdc == SurfaceConcept || tdc == Roentdec) && PulseKey(mode).Some? {
      FetchFromGotExactly(store.value, tdc, mode, maxTof);
    }
  }

  lemma FetchFromGotExactly(st: map<string, seq<real>>, tdc: string, mode: string, maxTof: real)
    requires (tdc == SurfaceConcept || tdc == Roentdec) && PulseKey(mode).Some?
    ensures FetchFrom(st, tdc, mode, maxTof).Got? <==>
      (forall k :: k in RequiredKeys(tdc, mode) ==> k in st) && MaskedAligned(st, tdc, mode)
  {
    var keys := RequiredKeys(tdc, mode);
    match Lookup(st, keys)
    case None =>
      var i :| 0 <= i < |keys| && keys[i] !in st;
      assert keys[i] in keys;
    case Some(cols) =>
      assert forall k :: k in keys ==> k in st;
      assert keys[0] == "dld/high_voltage" && keys[1] == PulseKey(mode).value;
      assert keys[2] == (if tdc == SurfaceConcept then "dld/start_counter" else "dld/AbsoluteTimeStamp");
      assert keys[3] == "dld/t" && keys[4] == "dld/x" && keys[5] == "dld/y";
  }

  /** A read storage with a known TDC gets the keys-missing log line exactly when a required dataset is absent. */
  lemma FetchKeysMissing(store: Option<map<string, seq<real>>>, tdc: string, mode: string, maxTof: real)
    requires store.Some? && (tdc == SurfaceConcept || tdc == Roentdec)
    ensures var st := store.value;
      FetchDataset(store, tdc, mode, maxTof) == Logged(KeysMissingMessage) <==>
      exists k :: k in RequiredKeys(tdc, mode) && k !in st
  {
    var st := store.value;
    var keys := RequiredKeys(tdc, mode);
    if Lookup(st, keys).None? {
      var i :| 0 <= i < |keys| && keys[i] !in st;
      assert keys[i] in keys;
    }
  }

  /**
   The unbound pulse column is raised exactly for an unknown pulse mode whose
   other datasets are all there, once the mask was built and `high_voltage`
   was indexed by it: a length-one position or time column stretched by the
   broadcast does not raise before the pulse column is reached.
   */
  lemma FetchPulseUnbound(store: Option<map<string, seq<real>>>, tdc: string, mode: string, maxTof: real)
    ensures FetchDataset(store, tdc, mode, maxTof) == Raised(PulseUnbound) <==>
      && store.Some? && (tdc == SurfaceConcept || tdc == Roentdec) && PulseKey(mode).None?
      && (forall k :: k in RequiredKeys(tdc, mode) ==> k in store.value)
      && var st := store.value;
         MaskLength(|st["dld/t"]|, |st["dld/x"]|, |st["dld/y"]|) == Some(|st["dld/high_voltage"]|)
  {
    if store.Some? && (tdc == SurfaceConcept || tdc == Roentdec) {
      FetchFromPulseUnbound(store.value, tdc, mode, maxTof);
    }
  }

  lemma FetchFromPulseUnbound(st: map<string, seq<real>>, tdc: string, mode: string, maxTof: real)
    requires tdc == SurfaceConcept || tdc == Roentdec
    ensures FetchFrom(st, tdc, mode, maxTof) == Raised(PulseUnbound) <==>
      && PulseKey(mode).None? && (forall k :: k in RequiredKeys(tdc, mode) ==> k in st)
      && MaskLength(|st["dld/t"]|, |st["dld/x"]|, |st["dld/y"]|) == Some(|st["dld/high_voltage"]|)
  {
    var keys := RequiredKeys(tdc, mode);
    match Lookup(st, keys)
    case None =>
      var i :| 0 <= i < |keys| && keys[i] !in st;
      assert keys[i] in keys;
    case Some(cols) =>
      if PulseKey(mode).None? {
        assert keys[0] == "dld/high_voltage" && keys[2] == "dld/t" && keys[3] == "dld/x" && keys[4] == "dld/y";
      }
  }

  /**
   The mask keeps exactly the in-bounds rows: an index is kept if and only
   if its position and time of flight are within bounds, and the kept
   indices stay in their original order.
   */
  lemma {:induction false} MaskKeepsExactly(x: seq<real>, y: seq<real>, t: seq<real>, bound: real, maxTof: real, i: nat)
    requires |y| == |x| && |t| == |x| && i < |x|
    ensures var kept := Kept(DetectorMask(x, y, t, bound, maxTof));
      i in kept <==> Abs(x[i]) <= bound && Abs(y[i]) <= bound && 0.0 < t[i] && t[i] < maxTof
  {
    var mask := DetectorMask(x, y, t, bound, maxTof);
    var kept := Kept(mask);
    if i in kept {
      var j :| 0 <= j < |kept| && kept[j] == i;
      assert mask[kept[j]];
    }
  }

  /** Every surface-concept row that survives lies within 4 cm of the centre and has a time of flight in (0, max_tof). */
  lemma SurfaceRowsWithinBounds(hv: seq<real>, pulse: seq<real>, counter: seq<real>,
                                t: seq<real>, x: seq<real>, y: seq<real>, maxTof: real)
    requires |hv| == |x| && |pulse| == |x| && |counter| == |x| && |t| == |x| && |y| == |x|
    ensures var rows := DetectorRows(SurfaceConcept, hv, pulse, counter, t, x, y, maxTof);
      forall j :: 0 <= j < |rows| ==>
        Abs(rows[j][4]) <= 4.0 && Abs(rows[j][5]) <= 4.0 && 0.0 < rows[j][3] < maxTof
  {
    var mask := DetectorMask(x, y, t, SurfaceBound, maxTof);
    var rows := SurfaceRows(hv, pulse, counter, t, x, y, mask);
    forall j | 0 <= j < |rows|
      ensures Abs(rows[j][4]) <= 4.0 && Abs(rows[j][5]) <= 4.0 && 0.0 < rows[j][3] < maxTof
    {
      var k := Kept(mask)[j];
      assert mask[k];
    }
  }

  /** `crop_dataset`: rows `int(x1)` through `int(x2)` inclusive, clipped to the frame, renumbered from 0. */
  function CropDataset(f: Frame, x1: real, x2: real): (r: Frame)
    ensures r.columns == f.columns
    ensures var a, b := TruncToInt(x1), TruncToInt(x2);
      var start := if a < 0 then 0 else a;
      // every row kept comes from the range, in order and without gaps
      && (forall j :: 0 <= j < |r.rows| ==> a <= start + j <= b && start + j < |f.rows| && r.rows[j] == f.rows[start + j])
      // and every row of the range is kept
      && (forall i :: 0 <= i < |f.rows| && a <= i <= b ==> start <= i < start + |r.rows| && r.rows[i - start] == f.rows[i])
  {
    var a, b := TruncToInt(x1), TruncToInt(x2);
    var lo := if a < 0 then 0 else a;
    var hi := if b < |f.rows| then b else |f.rows| - 1;
    if lo <= hi then f.(rows := f.rows[lo..hi + 1]) else f.(rows := [])
  }

  /** Cropping to the frame's own full range gives it back unchanged. */
  lemma CropFullRange(f: Frame)
    ensures CropDataset(f, 0.0, |f.rows| as real) == f
  {
    var r := CropDataset(f, 0.0, |f.rows| as real);
    assert TruncToInt(0.0) == 0 && TruncToInt(|f.rows| as real) == |f.rows|;
    assert r.rows == f.rows;
  }

  /** The renumbering from 0: cropping a crop to its own length changes nothing. */
  lemma {:induction false} CropIsRenumbered(f: Frame, x1: real, x2: real)
    ensures var c := CropDataset(f, x1, x2); CropDataset(c, 0.0, |c.rows| as real) == c
  {
    CropFullRange(CropDataset(f, x1, x2));
  }

  /** Within the circle: the comparison `sqrt(d2) > roi` is false. */
  predicate WithinRoi(x: real, y: real, cx: real, cy: real, roi: real)
  {
    roi >= 0.0 && Square(x - cx) + Square(y - cy) <= Square(roi)
  }

  /** The root-free test agrees with the source's `sqrt(...) > roi` for the non-negative root `d`. */
  lemma RoiMatchesDistance(d: real, x: real, y: real, cx: real, cy: real, roi: real)
    requires d >= 0.0 && d * d == Square(x - cx) + Square(y - cy)
    ensures d > roi <==> !WithinRoi(x, y, cx, cy, roi)
  {
    RootCompare(d, Square(x - cx) + Square(y - cy), Square(roi), roi);
  }

  /** For a non-negative root `d` of `s`, `d > roi` exactly when `s` exceeds `roi * roi` or `roi` is negative. */
  lemma RootCompare(d: real, s: real, q: real, roi: real)
    requires d >= 0.0 && d * d == s && q == roi * roi
    ensures d > roi <==> !(roi >= 0.0 && s <= q)
  {
    if roi >= 0.0 {
      assert d * d - roi * roi == (d - roi) * (d + roi);
      if d > roi {
        PositiveProduct(d - roi, d + roi);
      } else if d < roi {
        PositiveProduct(roi - d, d + roi);
      }
    }
  }

  lemma PositiveProduct(a: real, b: real)
    requires a > 0.0 && b > 0.0
    ensures a * b > 0.0
  {
  }

  /** A row of a frame whose x and y columns sit at `xi` and `yi`. */
  predicate RowInRoi(row: seq<real>, xi: nat, yi: nat, cx: real, cy: real, roi: real)
  {
    xi < |row| && yi < |row| && WithinRoi(row[xi], row[yi], cx, cy, roi)
  }

  datatype Cropped = Cropped(frame: Frame) | ColumnMissing

  /**
   `crop_data_after_selection`: drop every row whose detector position lies
   farther than `roi` from the selected centre, keep the rest in order and
   renumber them. A frame without the position columns raises a KeyError.
   */
  function CropAfterSelection(f: Frame, cx: real, cy: real, roi: real): (r: Cropped)
    requires Rectangular(f)
    ensures r.ColumnMissing? <==> XColumn !in f.columns || YColumn !in f.columns
    ensures r.Cropped? ==> r.frame.columns == f.columns && |r.frame.rows| <= |f.rows|
    ensures r.Cropped? ==>
      var xi, yi := FirstIndex(f.columns, XColumn), FirstIndex(f.columns, YColumn);
      && IsSubsequence(r.frame.rows, f.rows)
      && forall j :: 0 <= j < |r.frame.rows| ==> RowInRoi(r.frame.rows[j], xi, yi, cx, cy, roi)
    // every copy of a row inside the circle survives, and no copy of one outside it
    ensures r.Cropped? ==>
      var xi, yi := FirstIndex(f.columns, XColumn), FirstIndex(f.columns, YColumn);
      forall row :: multiset(r.frame.rows)[row] == if RowInRoi(row, xi, yi, cx, cy, roi) then multiset(f.rows)[row] else 0
  {
    if XColumn !in f.columns || YColumn !in f.columns then ColumnMissing
    else
      var xi, yi := FirstIndex(f.columns, XColumn), FirstIndex(f.columns, YColumn);
      var p := (row: seq<real>) => RowInRoi(row, xi, yi, cx, cy, roi);
      FilterIsSubsequence(f.rows, p);
      assert forall row :: multiset(Filter(f.rows, p))[row] == if p(row) then multiset(f.rows)[row] else 0 by {
        forall row { FilterCount(f.rows, p, row); }
      }
      Cropped(f.(rows := Filter(f.rows, p)))
  }

  /**
   A row survives the region-of-interest crop if and only if it was there and
   lies within the circle, and then with as many copies as it had.
   */
  lemma RoiCropKeepsExactly(f: Frame, cx: real, cy: real, roi: real, row: seq<real>)
    requires Rectangular(f) && XColumn in f.columns && YColumn in f.columns
    ensures var xi, yi := FirstIndex(f.columns, XColumn), FirstIndex(f.columns, YColumn);
      row in CropAfterSelection(f, cx, cy, roi).frame.rows <==>
        row in f.rows && RowInRoi(row, xi, yi, cx, cy, roi)
    ensures var xi, yi := FirstIndex(f.columns, XColumn), FirstIndex(f.columns, YColumn);
      multiset(CropAfterSelection(f, cx, cy, roi).frame.rows)[row] ==
        if RowInRoi(row, xi, yi, cx, cy, roi) then multiset(f.rows)[row] else 0
  {
    var xi, yi := FirstIndex(f.columns, XColumn), FirstIndex(f.columns, YColumn);
    FilterMembership(f.rows, (r: seq<real>) => RowInRoi(r, xi, yi, cx, cy, roi), row);
  }

  /** The cropped frame is still one value per column in every row. */
  lemma RoiCropKeepsRectangular(f: Frame, cx: real, cy: real, roi: real)
    requires Rectangular(f) && XColumn in f.columns && YColumn in f.columns
    ensures Rectangular(CropAfterSelection(f, cx, cy, roi).frame)
  {
    var g := CropAfterSelection(f, cx, cy, roi).frame;
    forall j | 0 <= j < |g.rows|
      ensures |g.rows[j]| == |g.columns|
    {
      RoiCropKeepsExactly(f, cx, cy, roi, g.rows[j]);
    }
  }

  /**
   The x column of a surface-concept frame when the storage the fetch reads
   was converted as `HdfRead.ReadHdf5` converts it: that reader already turns
   the bin into centimetres, and the fetch multiplies by 0.1 once more, so the
   column holds the millimetre distance divided by 100.
   */
  function PositionColumnAsWritten(bin: real): (cm: real)
    // the fetch's own factor applied to the reader's converted value
    ensures cm == ScalePosition(bin) * MmToCm
    ensures cm * 100.0 == (bin - XYBinShift) * XYFactor
  {
    ScalePosition(bin) * MmToCm
  }

  /** The detector edge (bin 2450, 39 mm from the centre) lands at 0.39 in a column labelled cm. */
  lemma EdgeScaledTwice()
    ensures ScalePosition(2450.0) == 3.9
    ensures PositionColumnAsWritten(2450.0) == 0.39
  {
  }

  /** One millimetre-to-centimetre conversion along the whole path. */
  function PositionColumnCorrected(bin: real): (cm: real)
    ensures cm * 10.0 == (bin - XYBinShift) * XYFactor
  {
    (bin - XYBinShift) * XYFactor * MmToCm
  }

  /** With one conversion the detector's edges sit at ±3.9 cm, half its 78 mm width. */
  lemma CorrectedEdges()
    ensures PositionColumnCorrected(0.0) == -3.9 && PositionColumnCorrected(2450.0) == 3.9
    ensures PositionColumnCorrected(2450.0) - PositionColumnCorrected(0.0) == 7.8
  {
  }
}

=== FILE: material_list.dfy ===
/**
 The ion-selection widgets' callbacks: three one-key dictionaries (the
 selected element mass, the selected charge, and the derived mass-to-charge
 value) and the material list the ADD / DELETE / RESET buttons edit. Widget
 construction and the console messages are not modelled; a Python exception
 raised inside a callback is the `Raised` status, with every assignment made
 before it kept.
 */
module MaterialList {
  import opened Options
  import opened Seqs
  import opened PyMath

  /** `elementDict['element']`, `chargeDict['charge']`, `elementWithChargeDict['element']` and `listMaterial`. */
  datatype Selection = Selection(
    element: Option<real>,
    charge: Option<real>,
    elementWithCharge: Option<real>,
    materials: seq<real>)

  datatype Failure = KeyMissing | DivisionByZero | IndexOutOfRange

  /** Whether a callback ran to completion or raised. */
  datatype Status = Completed | Raised(failure: Failure)

  datatype Step = Step(sel: Selection, status: Status)

  /** An ipywidgets change notification: its `type`, its `name` and its `new` value. */
  datatype ChangeEvent = ChangeEvent(kind: string, name: string, newValue: real)

  /** `compute_element_isotope_values_according_to_selected_charge`. */
  function ComputeMassToCharge(sel: Selection): (r: Step)
    ensures r.status.Completed? <==> sel.element.Some? && sel.charge.Some? && TruncToInt(sel.charge.value) != 0
    ensures r.status.Completed? ==> r.sel == sel.(elementWithCharge := Some(Round2(sel.element.value / TruncToInt(sel.charge.value) as real)))
    ensures r.status.Raised? ==> r.sel == sel
  {
    if sel.element.None? || sel.charge.None? then Step(sel, Raised(KeyMissing))
    else
      var q := TruncToInt(sel.charge.value);
      if q == 0 then Step(sel, Raised(DivisionByZero))
      else Step(sel.(elementWithCharge := Some(Round2(sel.element.value / q as real))), Completed)
  }

  predicate IsValueChange(e: ChangeEvent)
  {
    e.kind == "change" && e.name == "value"
  }

  /** `on_change`: a new element was picked; the derived value is cleared, then recomputed. */
  function OnChangeElement(sel: Selection, e: ChangeEvent): (r: Step)
    ensures !IsValueChange(e) ==> r == Step(sel, Completed)
    ensures IsValueChange(e) ==> r.sel.element == Some(e.newValue) && r.sel.charge == sel.charge && r.sel.materials == sel.materials
    ensures IsValueChange(e) ==> (r.status.Completed? <==> sel.charge.Some? && TruncToInt(sel.charge.value) != 0)
    ensures IsValueChange(e) && sel.charge.Some? && TruncToInt(sel.charge.value) != 0 ==>
      r.sel.elementWithCharge == Some(Round2(e.newValue / TruncToInt(sel.charge.value) as real))
    ensures IsValueChange(e) && r.status.Raised? ==> r.sel.elementWithCharge.None?
  {
    if IsValueChange(e) then
      ComputeMassToCharge(sel.(elementWithCharge := None, element := Some(e.newValue)))
    else Step(sel, Completed)
  }

  /** `on_change_charge`: a new charge was picked; reading the element first raises when none is selected. */
  function OnChangeCharge(sel: Selection, e: ChangeEvent): (r: Step)
    ensures !IsValueChange(e) ==> r == Step(sel, Completed)
    ensures IsValueChange(e) && sel.element.None? ==> r == Step(sel, Raised(KeyMissing))
    ensures IsValueChange(e) && sel.element.Some? ==>
      r.sel.charge == Some(e.newValue) && r.sel.element == sel.element && r.sel.materials == sel.materials
    ensures IsValueChange(e) && sel.element.Some? ==> (r.status.Completed? <==> TruncToInt(e.newValue) != 0)
    ensures IsValueChange(e) && sel.element.Some? && TruncToInt(e.newValue) != 0 ==>
      r.sel.elementWithCharge == Some(Round2(sel.element.value / TruncToInt(e.newValue) as real))
    ensures IsValueChange(e) && sel.element.Some? && TruncToInt(e.newValue) == 0 ==>
      r == Step(sel.(charge := Some(e.newValue)), Raised(DivisionByZero))
  {
    if !IsValueChange(e) then Step(sel, Completed)
    else if sel.element.None? then Step(sel, Raised(KeyMissing))
    else ComputeMassToCharge(sel.(charge := Some(e.newValue)))
  }

  /**
   Picking the element and then the charge, or the charge and then the element,
   ends in the same selection: both values stored and the mass-to-charge value
   computed from them.
   */
  lemma PickOrderIrrelevant(sel: Selection, pickElement: ChangeEvent, pickCharge: ChangeEvent)
    requires IsValueChange(pickElement) && IsValueChange(pickCharge)
    requires sel.element.Some? && TruncToInt(pickCharge.newValue) != 0
    ensures var both := sel.(element := Some(pickElement.newValue), charge := Some(pickCharge.newValue));
      var a := OnChangeCharge(OnChangeElement(sel, pickElement).sel, pickCharge);
      var b := OnChangeElement(OnChangeCharge(sel, pickCharge).sel, pickElement);
      && a.status.Completed? && b.status.Completed? && a.sel == b.sel
      && a.sel == ComputeMassToCharge(both).sel
  {
  }

  /** `onClickAdd`: append the derived value unless it is already listed or nothing is selected. */
  function OnClickAdd(sel: Selection): (r: Selection)
    ensures sel.elementWithCharge.None? ==> r == sel
    ensures sel.elementWithCharge.Some? && sel.elementWithCharge.value in sel.materials ==> r == sel
    ensures sel.elementWithCharge.Some? && sel.elementWithCharge.value !in sel.materials ==>
      r == sel.(materials := sel.materials + [sel.elementWithCharge.value])
    ensures NoDuplicates(sel.materials) ==> NoDuplicates(r.materials)
  {
    match sel.elementWithCharge
    case None => sel
    case Some(m) => if m in sel.materials then sel else sel.(materials := sel.materials + [m])
  }

  /** `onClickDelete`: remove the first occurrence of the derived value, if listed. */
  function OnClickDelete(sel: Selection): (r: Selection)
    ensures r == sel.(materials := r.materials)
    ensures sel.elementWithCharge.None? ==> r == sel
    ensures sel.elementWithCharge.Some? && sel.elementWithCharge.value !in sel.materials ==> r == sel
    ensures sel.elementWithCharge.Some? && sel.elementWithCharge.value in sel.materials ==>
      multiset(r.materials) == multiset(sel.materials) - multiset{sel.elementWithCharge.value}
    // `list.remove` drops the first occurrence and keeps the rest in order
    ensures sel.elementWithCharge.Some? && sel.elementWithCharge.value in sel.materials ==>
      r.materials == RemoveFirst(sel.materials, sel.elementWithCharge.value)
    ensures NoDuplicates(sel.materials) ==> NoDuplicates(r.materials)
    ensures NoDuplicates(sel.materials) && sel.elementWithCharge.Some? ==> sel.elementWithCharge.value !in r.materials
  {
    match sel.elementWithCharge
    case None => sel
    case Some(m) =>
      if m in sel.materials then
        var rest := RemoveFirst(sel.materials, m);
        NoDuplicatesAfterRemove(sel.materials, m);
        sel.(materials := rest)
      else sel
  }

  lemma NoDuplicatesAfterRemove(s: seq<real>, v: real)
    requires v in s
    ensures NoDuplicates(s) ==> NoDuplicates(RemoveFirst(s, v)) && v !in RemoveFirst(s, v)
  {
    var k := FirstIndex(s, v);
    var r := RemoveFirst(s, v);
    if NoDuplicates(s) {
      forall i, j | 0 <= i < j < |r|
        ensures r[i] != r[j]
      {
        var i' := if i < k then i else i + 1;
        var j' := if j < k then j else j + 1;
        assert r[i] == s[i'] && r[j] == s[j'];
      }
      forall i | 0 <= i < |r|
        ensures r[i] != v
      {
        var i' := if i < k then i else i + 1;
        assert r[i] == s[i'];
      }
    }
  }

  /** `onClickReset`: the material list is emptied, the selection kept. */
  function OnClickReset(sel: Selection): (r: Selection)
    ensures r.materials == []
    ensures r.element == sel.element && r.charge == sel.charge && r.elementWithCharge == sel.elementWithCharge
  {
    sel.(materials := [])
  }

  /** Adding a value that was not listed and then deleting it restores the original list. */
  lemma AddThenDeleteRestores(sel: Selection)
    requires sel.elementWithCharge.Some? && sel.elementWithCharge.value !in sel.materials
    ensures OnClickDelete(OnClickAdd(sel)) == sel
  {
    RemoveFirstOfAppended(sel.materials, sel.elementWithCharge.value);
  }

  /** Adding twice is adding once. */
  lemma AddIdempotent(sel: Selection)
    ensures OnClickAdd(OnClickAdd(sel)) == OnClickAdd(sel)
  {
  }

  /** `dropdownWidget`'s default: the first option's value becomes the charge or the element, by dropdownLabel. */
  function DefaultSelection(sel: Selection, options: seq<(string, real)>, dropdownLabel: string): (r: Step)
    ensures dropdownLabel == "Charge" && |options| > 0 ==> r == Step(sel.(charge := Some(options[0].1)), Completed)
    ensures dropdownLabel == "Elements" && |options| > 0 ==> r == Step(sel.(element := Some(options[0].1)), Completed)
    ensures dropdownLabel in {"Charge", "Elements"} && |options| == 0 ==> r == Step(sel, Raised(IndexOutOfRange))
    ensures dropdownLabel !in {"Charge", "Elements"} ==> r == Step(sel, Completed)
  {
    if dropdownLabel == "Charge" then
      if |options| == 0 then Step(sel, Raised(IndexOutOfRange)) else Step(sel.(charge := Some(options[0].1)), Completed)
    else if dropdownLabel == "Elements" then
      if |options| == 0 then Step(sel, Raised(IndexOutOfRange)) else Step(sel.(element := Some(options[0].1)), Completed)
    else Step(sel, Completed)
  }
}

=== FILE: options.dfy ===
/** The optional-value type used wherever the source returns `None` or leaves a value unset. */
module Options {

  datatype Option<+T> = None | Some(value: T)
  {
    /** The value, or `default` when there is none. */
    function GetOr(default: T): T
    {
      match this
      case Some(v) => v
      case None => default
    }
  }
}

=== FILE: post_run.dfy ===
/**
 What `main` does between leaving the control loop and writing the data
 file: raise the end-of-experiment flag, re-read the ion total, and check the
 parallel accumulators of the active mode for equal length (a log line only).
 */
module PostRun {
  import opened ExperimentState
  import opened Drain

  /** Set `end_experiment` and re-read the total from the accumulators (no non-empty guard here). */
  function Finish(cfg: Config, run: RunState): (r: RunState)
    ensures r.endExperiment
    ensures cfg.counterSource == Tdc ==> r.totalIons == |run.dld.x|
    ensures cfg.counterSource == TdcRaw ==> r.totalIons == |run.tdc.channel| / 4
    ensures cfg.counterSource in {PulseCounter, Drs} ==> r.totalIons == run.totalIons
    ensures r == run.(endExperiment := true, totalIons := r.totalIons)
  {
    var total := match cfg.counterSource
      case Tdc => |run.dld.x|
      case TdcRaw => |run.tdc.channel| / 4
      case _ => run.totalIons;
    run.(endExperiment := true, totalIons := total)
  }

  /**
   The length check exactly as the driver writes it: it logs "have not same
   length" when EVERY listed array has the reference length, the paired-event
   list names the voltage tags twice and the pulse tags never, and the
   digitizer list compares against the raw-TDC tag arrays.
   */
  predicate LengthWarningAsWritten(cfg: Config, run: RunState): (w: bool)
    // paired events: the alignment test with the pulse tags replaced by the voltage tags
    ensures cfg.counterSource == Tdc ==> (w <==> DldAligned(run.dld.(vpTags := run.dld.vdcTags)))
    ensures cfg.counterSource == TdcRaw ==> (w <==> TdcAligned(run.tdc))
    // the digitizer: the alignment test with the raw-TDC tags in place of its own
    ensures cfg.counterSource == Drs ==>
      (w <==> DrsAligned(run.drs.(vdcTags := run.tdc.vdcTags, vpTags := run.tdc.vpTags)))
    ensures cfg.counterSource == PulseCounter ==> !w
  {
    match cfg.counterSource
    case Tdc =>
      var d := run.dld;
      var n := |d.x|;
      |d.x| == n && |d.y| == n && |d.t| == n && |d.startCounter| == n && |d.vdcTags| == n && |d.vdcTags| == n
    case TdcRaw =>
      var d := run.tdc;
      var n := |d.channel|;
      |d.channel| == n && |d.timeData| == n && |d.startCounter| == n && |d.vdcTags| == n && |d.vpTags| == n
    case Drs =>
      var d := run.drs;
      var n := |d.ch0Time|;
      && |d.ch0Wave| == n && |d.ch1Time| == n && |d.ch1Wave| == n && |d.ch2Time| == n
      && |d.ch2Wave| == n && |d.ch3Time| == n && |d.ch3Wave| == n
      && |run.tdc.vdcTags| == n && |run.tdc.vpTags| == n
    case PulseCounter => false
  }

  /** The check as evidently intended: warn exactly when the active mode's arrays disagree in length. */
  predicate LengthMismatchWarning(cfg: Config, run: RunState): (m: bool)
    ensures cfg.counterSource == PulseCounter ==> !m
    // wherever the written check lists the right arrays, its test is the exact negation of this one
    ensures cfg.counterSource == TdcRaw ==> (m <==> !LengthWarningAsWritten(cfg, run))
    ensures cfg.counterSource == Tdc && |run.dld.vpTags| == |run.dld.vdcTags| ==>
      (m <==> !LengthWarningAsWritten(cfg, run))
    ensures cfg.counterSource == Drs && run.tdc.vdcTags == run.drs.vdcTags && run.tdc.vpTags == run.drs.vpTags ==>
      (m <==> !LengthWarningAsWritten(cfg, run))
  {
    match cfg.counterSource
    case Tdc => !DldAligned(run.dld)
    case TdcRaw => !TdcAligned(run.tdc)
    case Drs => !DrsAligned(run.drs)
    case PulseCounter => false
  }

  /**
   Paired-event mode: a run whose drains only ever received aligned batches
   keeps every paired array the same length, so the intended check stays silent.
   */
  lemma {:induction false} AlignedDrainsStaySilent(cfg: Config, run: RunState, bs: seq<DldBatch>)
    requires cfg.counterSource == Tdc
    requires DldAligned(run.dld)
    requires forall i :: 0 <= i < |bs| ==> DldBatchAligned(bs[i])
    ensures DldAligned(DrainDldAll(run, bs).dld)
    ensures !LengthMismatchWarning(cfg, DrainDldAll(run, bs))
  {
    if |bs| > 0 {
      AlignedDrainsStaySilent(cfg, run, bs[..|bs| - 1]);
    }
  }

  /** On that very data the check as written logs its "have not same length" warning. */
  lemma AlignedDrainsWarnAsWritten(cfg: Config, run: RunState, bs: seq<DldBatch>)
    requires cfg.counterSource == Tdc
    requires DldAligned(run.dld)
    requires forall i :: 0 <= i < |bs| ==> DldBatchAligned(bs[i])
    ensures LengthWarningAsWritten(cfg, DrainDldAll(run, bs))
  {
    AlignedDrainsStaySilent(cfg, run, bs);
  }

  /** The intended check warns on a paired-event run with one position and no time of flight; the written one stays silent. */
  lemma MismatchGoesUnreported()
    ensures var cfg := Config(Tdc, 1, 1, 1, 1.0, 0.0, 1.0, 1.0, 1.0, 0.0, 1.0, 1.0, 1.0, 0, false, false, true);
      var d := DldEvents([0.0], [0.0], [], [0.0], [0.0], [0.0]);
      var run := RunState(0.0, 0.0, 0, 0, 0, 0.0, 0.0, [], [], [], [], [], d, NoTdcEvents, NoDrsEvents,
                          false, false, false, 0.0, 0, 0, 0, 0, 0);
      LengthMismatchWarning(cfg, run) && !LengthWarningAsWritten(cfg, run)
  {
  }
}

=== FILE: py_math.dfy ===
/**
 Python's numeric built-ins on exact reals: `abs`, `int()` on a float, and
 `round(x, 2)`. Floating-point rounding error is not modelled.
 */
module PyMath {

  function Abs(x: real): (r: real)
    ensures r >= 0.0 && (r == x || r == -x)
  {
    if x < 0.0 then -x else x
  }

  /** `x ** 2`. */
  function Square(x: real): real
  {
    x * x
  }

  /** Python's `int(x)` for a real: truncation toward zero. */
  function TruncToInt(x: real): (n: int)
    ensures x >= 0.0 ==> n as real <= x < n as real + 1.0
    ensures x < 0.0 ==> n as real - 1.0 < x <= n as real
  {
    if x >= 0.0 then x.Floor else -((-x).Floor)
  }

  /** Round to the nearest integer, halves to the even neighbour. */
  function RoundHalfEven(x: real): (n: int)
    ensures n as real - 0.5 <= x <= n as real + 0.5
    ensures x - x.Floor as real == 0.5 ==> n % 2 == 0
    ensures x - x.Floor as real != 0.5 ==> n as real - 0.5 < x < n as real + 0.5
  {
    var f := x.Floor;
    var frac := x - f as real;
    if frac < 0.5 then f
    else if frac > 0.5 then f + 1
    else if f % 2 == 0 then f else f + 1
  }

  /** Python's `round(x, 2)` on exact reals: the nearest multiple of 0.01, halves to even. */
  function Round2(x: real): (r: real)
    ensures r - 0.005 <= x <= r + 0.005
    ensures (r * 100.0).Floor as real == r * 100.0
    // off a tie the result is strictly nearest; on a tie the last digit is even
    ensures x * 100.0 - (x * 100.0).Floor as real != 0.5 ==> r - 0.005 < x < r + 0.005
    ensures x * 100.0 - (x * 100.0).Floor as real == 0.5 ==> (r * 100.0).Floor % 2 == 0
  {
    var k := RoundHalfEven(x * 100.0);
    assert k as real / 100.0 * 100.0 == k as real;
    assert (k as real).Floor == k;
    assert k as real / 100.0 - 0.005 <= x <= k as real / 100.0 + 0.005;
    k as real / 100.0
  }
}

=== FILE: seqs.dfy ===
/**
 Sequence helpers shared by the models: sums, Python-style tail slices,
 `np.tile`, `list.remove`, Python's `range`, and order-preserving filtering.
 */
module Seqs {

  /** Sum of a sequence of integers (numpy `sum` over an integer-valued array). */
  function Sum(s: seq<int>): int
  {
    if |s| == 0 then 0 else Sum(s[..|s| - 1]) + s[|s| - 1]
  }

  /** Appending one element adds exactly that element to the sum. */
  lemma SumAppend(s: seq<int>, v: int)
    ensures Sum(s + [v]) == Sum(s) + v
  {
    assert (s + [v])[..|s + [v]| - 1] == s;
  }

  /** Python's `s[-k:]` for a positive `k`: the last `k` elements, or all of `s` when it is shorter. */
  function LastN<T>(s: seq<T>, k: nat): (r: seq<T>)
    requires k >= 1
    ensures |r| == if k < |s| then k else |s|
    ensures forall i :: 0 <= i < |r| ==> r[i] == s[|s| - |r| + i]
  {
    if k < |s| then s[|s| - k..] else s
  }

  /** `np.tile(v, n)`: `n` copies of `v`. */
  function Repeat<T>(v: T, n: nat): (r: seq<T>)
    ensures |r| == n
    ensures forall i :: 0 <= i < n ==> r[i] == v
  {
    seq(n, _ => v)
  }

  /** Python's `list(range(n))` as integers. */
  function Range(n: nat): (r: seq<int>)
    ensures |r| == n
    ensures forall i :: 0 <= i < n ==> r[i] == i
  {
    seq(n, i => i)
  }

  /** Each value occurs at most once. */
  predicate NoDuplicates<T(==)>(s: seq<T>)
  {
    forall i, j :: 0 <= i < j < |s| ==> s[i] != s[j]
  }

  /** Position of the first occurrence of `v` (Python's `list.index`). */
  function FirstIndex<T(==)>(s: seq<T>, v: T): (k: nat)
    requires v in s
    ensures k < |s| && s[k] == v && v !in s[..k]
  {
    if s[0] == v then 0
    else
      assert s == [s[0]] + s[1..];
      var k := FirstIndex(s[1..], v);
      assert s[..k + 1] == [s[0]] + s[1..][..k];
      k + 1
  }

  /** Python's `list.remove(v)` when `v` occurs: drop its FIRST occurrence. */
  function RemoveFirst<T(==)>(s: seq<T>, v: T): (r: seq<T>)
    requires v in s
    ensures |r| == |s| - 1
    ensures multiset(r) == multiset(s) - multiset{v}
    ensures r == s[..FirstIndex(s, v)] + s[FirstIndex(s, v) + 1..]
  {
    var k := FirstIndex(s, v);
    assert s == s[..k] + [s[k]] + s[k + 1..];
    s[..k] + s[k + 1..]
  }

  /** Removing the first occurrence of a value that was appended to a list without it gives the list back. */
  lemma RemoveFirstOfAppended<T>(s: seq<T>, v: T)
    requires v !in s
    ensures RemoveFirst(s + [v], v) == s
  {
    assert (s + [v])[..|s|] == s;
  }

  /** The elements of `s` for which `p` holds, in their original order (boolean-mask indexing). */
  function Filter<T>(s: seq<T>, p: T -> bool): (r: seq<T>)
    ensures |r| <= |s|
    ensures forall i :: 0 <= i < |r| ==> p(r[i])
    ensures multiset(r) <= multiset(s)
  {
    if |s| == 0 then []
    else
      assert s == s[..|s| - 1] + [s[|s| - 1]];
      var front := Filter(s[..|s| - 1], p);
      if p(s[|s| - 1]) then front + [s[|s| - 1]] else front
  }

  /** An element is kept by the filter exactly when it occurs in the input and satisfies `p`. */
  lemma {:induction false} FilterMembership<T>(s: seq<T>, p: T -> bool, x: T)
    ensures x in Filter(s, p) <==> x in s && p(x)
  {
    if |s| > 0 {
      assert s == s[..|s| - 1] + [s[|s| - 1]];
      FilterMembership(s[..|s| - 1], p, x);
    }
  }

  /** The filter keeps every copy of an element that satisfies `p` and no copy of one that does not. */
  lemma {:induction false} FilterCount<T>(s: seq<T>, p: T -> bool, x: T)
    ensures multiset(Filter(s, p))[x] == if p(x) then multiset(s)[x] else 0
  {
    if |s| > 0 {
      var front, last := s[..|s| - 1], s[|s| - 1];
      assert s == front + [last];
      FilterCount(front, p, x);
    }
  }

  /** `sub` is obtained from `s` by deleting elements (the relative order is kept). */
  predicate IsSubsequence<T(==)>(sub: seq<T>, s: seq<T>)
    decreases |s|
  {
    if |sub| == 0 then true
    else if |s| == 0 then false
    else if sub[|sub| - 1] == s[|s| - 1] then IsSubsequence(sub[..|sub| - 1], s[..|s| - 1])
    else IsSubsequence(sub, s[..|s| - 1])
  }

  lemma {:induction false} FilterIsSubsequence<T>(s: seq<T>, p: T -> bool)
    ensures IsSubsequence(Filter(s, p), s)
  {
    if |s| > 0 {
      var front := s[..|s| - 1];
      FilterIsSubsequence(front, p);
      if p(s[|s| - 1]) {
        assert (Filter(front, p) + [s[|s| - 1]])[..|Filter(front, p)|] == Filter(front, p);
      } else {
        SubsequenceOfPrefix(Filter(front, p), front, s);
      }
    }
  }

  /** A subsequence of `s[..|s|-1]` is a subsequence of `s`. */
  lemma {:induction false} SubsequenceOfPrefix<T>(sub: seq<T>, front: seq<T>, s: seq<T>)
    requires |s| > 0 && front == s[..|s| - 1]
    requires IsSubsequence(sub, front)
    ensures IsSubsequence(sub, s)
    decreases |s|, 0
  {
    if |sub| > 0 && sub[|sub| - 1] == s[|s| - 1] {
      ShrinkSubsequence(sub, front);
    }
  }

  /** Dropping the last element of a subsequence keeps it a subsequence. */
  lemma {:induction false} ShrinkSubsequence<T>(sub: seq<T>, s: seq<T>)
    requires |sub| > 0 && IsSubsequence(sub, s)
    ensures IsSubsequence(sub[..|sub| - 1], s)
    decreases |s|, 1
  {
    var last := |sub| - 1;
    if sub[last] == s[|s| - 1] {
      SubsequenceOfPrefix(sub[..last], s[..|s| - 1], s);
    } else {
      ShrinkSubsequence(sub, s[..|s| - 1]);
      SubsequenceOfPrefix(sub[..last], s[..|s| - 1], s);
    }
  }
}

=== FILE: sorting.dfy ===
/**
 Python's `list.sort()` on a list of reals, modelled as insertion sort, with
 the facts the marker-line model relies on: the result is ascending, it is a
 permutation of the input, and the sorted permutation of a multiset is unique.
 */
module Sorting {

  /** Ascending (non-strict) order. */
  predicate Sorted(s: seq<real>)
  {
    forall i, j :: 0 <= i < j < |s| ==> s[i] <= s[j]
  }

  /** Insert `v` into an ascending sequence, before the first element greater than `v`. */
  function Insert(s: seq<real>, v: real): (r: seq<real>)
    requires Sorted(s)
    ensures Sorted(r)
    ensures multiset(r) == multiset(s) + multiset{v}
    ensures |r| == |s| + 1
  {
    if |s| == 0 then [v]
    else if v <= s[0] then [v] + s
    else
      var tail := Insert(s[1..], v);
      InsertBehindHead(s, v, tail);
      [s[0]] + tail
  }

  /** The step case of `Insert`: the head stays in front of the tail it was inserted into. */
  lemma InsertBehindHead(s: seq<real>, v: real, tail: seq<real>)
    requires Sorted(s) && |s| > 0 && s[0] < v
    requires Sorted(tail) && multiset(tail) == multiset(s[1..]) + multiset{v}
    ensures Sorted([s[0]] + tail)
    ensures multiset([s[0]] + tail) == multiset(s) + multiset{v}
  {
    assert s == [s[0]] + s[1..];
    forall i | 0 <= i < |tail|
      ensures s[0] <= tail[i]
    {
      assert tail[i] in multiset(tail);
      if tail[i] != v {
        assert tail[i] in multiset(s[1..]);
      }
    }
  }

  /** `list.sort()`: the ascending permutation of `s`. */
  function Sort(s: seq<real>): (r: seq<real>)
    ensures Sorted(r)
    ensures multiset(r) == multiset(s)
    ensures |r| == |s|
  {
    if |s| == 0 then []
    else
      assert s == s[..|s| - 1] + [s[|s| - 1]];
      Insert(Sort(s[..|s| - 1]), s[|s| - 1])
  }

  /** The least element of a non-empty ascending sequence is its head. */
  lemma HeadIsLeast(s: seq<real>, x: real)
    requires Sorted(s) && x in multiset(s)
    ensures s[0] <= x
  {
    var i :| 0 <= i < |s| && s[i] == x;
  }

  /** Two ascending sequences with the same elements are equal: the sorted order is unique. */
  lemma {:induction false} SortedUnique(a: seq<real>, b: seq<real>)
    requires Sorted(a) && Sorted(b)
    requires multiset(a) == multiset(b)
    ensures a == b
  {
    if |a| > 0 {
      assert |b| == |multiset(b)| == |multiset(a)| == |a|;
      assert a[0] in multiset(b) && b[0] in multiset(a);
      HeadIsLeast(b, a[0]);
      HeadIsLeast(a, b[0]);
      assert a[0] == b[0];
      assert a == [a[0]] + a[1..] && b == [b[0]] + b[1..];
      assert multiset(a) == multiset{a[0]} + multiset(a[1..]);
      assert multiset(b) == multiset{b[0]} + multiset(b[1..]);
      assert multiset(a[1..]) == multiset(a) - multiset{a[0]};
      assert multiset(b[1..]) == multiset(b) - multiset{b[0]};
      SortedUnique(a[1..], b[1..]);
    } else {
      assert |b| == |multiset(b)| == 0;
    }
  }

  /** Sorting an already ascending list leaves it as it is. */
  lemma SortOfSorted(s: seq<real>)
    requires Sorted(s)
    ensures Sort(s) == s
  {
    SortedUnique(Sort(s), s);
  }

  /** Appending one value to an ascending list and sorting is the same as inserting it in place. */
  lemma SortAfterAppend(s: seq<real>, v: real)
    requires Sorted(s)
    ensures Sort(s + [v]) == Insert(s, v)
  {
    SortedUnique(Sort(s + [v]), Insert(s, v));
  }
}

=== FILE: tof_mc.dfy ===
/**
 The simple time-of-flight to mass-to-charge conversion (`tof2mc_simple.py`):
 a TDC time sum in bins, the t0 correction, the DC voltage and the detector
 hit in position bins give the mass-to-charge ratio in dalton of an ion
 accelerated through the voltage and flying the straight line from the
 specimen to the hit. The file defines the conversion twice, for the
 surface-concept and the roentdec delay lines, with identical bodies; both
 are `TofBinToMc` here. numpy's float64 arithmetic is exact real arithmetic
 in the model.
 */
module TofMc {
  import opened Options
  import opened HdfRead

  /** 1.6E-19 coulomb per elementary charge. */
  const Charge: real := 16.0 / 100000000000000000000.0
  /** 1.66E-27 kg per dalton. */
  const Dalton: real := 166.0 / 100000000000000000000000000000.0

  /** A position bin as metres from the detector centre: 78/2450 mm per bin, centre bin 1225, 1E-3 m per mm. */
  function BinToMetres(b: real): real
  {
    (b - 1225.0) * 39.0 / 1225000.0
  }

  /** The time-sum bins as seconds of flight (27.432 ps per bin over four readings, 1E-9 s per ns), after the t0 correction. */
  function FlightTime(t: real, t0: real): real
  {
    t * 0.006858 / 1000000000.0 - t0
  }

  /** The conversion uses the same detector geometry and time bin as the file reader. */
  lemma SameScalesAsReader(b: real, t: real)
    ensures BinToMetres(b) * 100.0 == ScalePosition(b)
    ensures FlightTime(t, 0.0) * 1000000000.0 == ScaleTime(t)
  {
    DetectorGeometry();
  }

  /** The squared straight-line distance from the specimen to the hit, in square metres. */
  function FlightDistanceSquared(xDet: real, yDet: real, flightPathLength: real): real
  {
    var x, y, l := BinToMetres(xDet), BinToMetres(yDet), flightPathLength / 1000.0;
    x * x + y * y + l * l
  }

  /*
   The arithmetic lemmas below state their conclusions through `Positive`
   and `Below`, so that callers combine them by rewriting equal terms
   rather than by arithmetic over products.
   */
  predicate Positive(a: real)
  {
    a > 0.0
  }

  predicate Below(a: real, b: real)
  {
    a < b
  }

  lemma SquareNonNegative(a: real)
    ensures a * a >= 0.0
  {
  }

  lemma SquarePositive(a: real)
    requires a != 0.0
    ensures Positive(a * a)
  {
  }

  lemma ProductPositive(a: real, b: real)
    requires Positive(a) && Positive(b)
    ensures Positive(a * b)
  {
  }

  lemma QuotientPositive(a: real, b: real)
    requires Positive(a) && Positive(b)
    ensures Positive(a / b)
  {
  }

  lemma SumOfSquaresPositive(a: real, b: real, c: real)
    requires a != 0.0 || b != 0.0 || c != 0.0
    ensures Positive(a * a + b * b + c * c)
  {
    SquareNonNegative(a);
    SquareNonNegative(b);
    SquareNonNegative(c);
    if a != 0.0 { SquarePositive(a); }
    else if b != 0.0 { SquarePositive(b); }
    else { SquarePositive(c); }
  }

  /** The distance is positive unless the hit is on the axis and the flight path has zero length. */
  lemma DistancePositive(xDet: real, yDet: real, flightPathLength: real)
    requires xDet != 1225.0 || yDet != 1225.0 || flightPathLength != 0.0
    ensures FlightDistanceSquared(xDet, yDet, flightPathLength) > 0.0
  {
    var x, y, l := BinToMetres(xDet), BinToMetres(yDet), flightPathLength / 1000.0;
    assert x != 0.0 || y != 0.0 || l != 0.0;
    SumOfSquaresPositive(x, y, l);
    assert FlightDistanceSquared(xDet, yDet, flightPathLength) == x * x + y * y + l * l;
    assert Positive(FlightDistanceSquared(xDet, yDet, flightPathLength));
  }

  /** `2 e V (t / L)^2 / amu` for a corrected flight time `tc` and a squared distance `d2`. */
  function McOf(tc: real, v: real, d2: real): real
    requires d2 != 0.0
  {
    2.0 * Charge * v * (tc * tc / d2) / Dalton
  }

  /**
   `tof_bin2mc_sc` and `tof_bin2mc_roentdec`. With the hit on the axis at
   zero flight path the distance is zero and numpy yields inf or nan; that
   case is `None`.
   */
  function TofBinToMc(t: real, t0: real, v: real, xDet: real, yDet: real, flightPathLength: real): (mc: Option<real>)
    ensures mc.None? ==> xDet == 1225.0 && yDet == 1225.0 && flightPathLength == 0.0
    // the energy balance: charge times voltage is the kinetic energy of the ion's mass
    ensures mc.Some? ==>
      var tc, d2 := FlightTime(t, t0), FlightDistanceSquared(xDet, yDet, flightPathLength);
      mc.value * Dalton * d2 == 2.0 * Charge * v * (tc * tc)
  {
    var d2 := FlightDistanceSquared(xDet, yDet, flightPathLength);
    if d2 == 0.0 then
      assert xDet == 1225.0 && yDet == 1225.0 && flightPathLength == 0.0 by {
        if xDet != 1225.0 || yDet != 1225.0 || flightPathLength != 0.0 {
          DistancePositive(xDet, yDet, flightPathLength);
        }
      }
      None
    else Some(McOf(FlightTime(t, t0), v, d2))
  }

  /** On the axis with a zero flight path there is no ratio. */
  lemma OnAxisUndefined(t: real, t0: real, v: real)
    ensures TofBinToMc(t, t0, v, 1225.0, 1225.0, 0.0).None?
  {
    assert BinToMetres(1225.0) == 0.0;
  }

  /** The inverse: the squared flight time an ion of the given mass-to-charge needs at this voltage and hit. */
  function FlightTimeSquared(mc: real, v: real, xDet: real, yDet: real, flightPathLength: real): (t2: real)
    requires v != 0.0
    ensures t2 * (2.0 * Charge * v) == mc * Dalton * FlightDistanceSquared(xDet, yDet, flightPathLength)
  {
    mc * Dalton * FlightDistanceSquared(xDet, yDet, flightPathLength) / (2.0 * Charge * v)
  }

  lemma CancelFactor(a: real, b: real, k: real)
    requires k != 0.0 && a * k == b * k
    ensures a == b
  {
    assert (a - b) * k == 0.0;
  }

  /** Converting a flight time to mass-to-charge and back recovers the squared corrected flight time. */
  lemma McRoundTrip(t: real, t0: real, v: real, xDet: real, yDet: real, flightPathLength: real)
    requires v != 0.0 && TofBinToMc(t, t0, v, xDet, yDet, flightPathLength).Some?
    ensures var mc := TofBinToMc(t, t0, v, xDet, yDet, flightPathLength).value;
      FlightTimeSquared(mc, v, xDet, yDet, flightPathLength) == FlightTime(t, t0) * FlightTime(t, t0)
  {
    var mc := TofBinToMc(t, t0, v, xDet, yDet, flightPathLength).value;
    var tc := FlightTime(t, t0);
    var t2 := FlightTimeSquared(mc, v, xDet, yDet, flightPathLength);
    assert t2 * (2.0 * Charge * v) == (tc * tc) * (2.0 * Charge * v);
    CancelFactor(t2, tc * tc, 2.0 * Charge * v);
  }

  lemma McOfScales(tc: real, v: real, k: real, d2: real)
    requires d2 != 0.0
    ensures McOf(tc, k * v, d2) == k * McOf(tc, v, d2)
  {
    var q := tc * tc / d2;
    assert 2.0 * Charge * (k * v) * q / Dalton == k * (2.0 * Charge * v * q / Dalton);
  }

  /** The ratio scales with the voltage: doubling the voltage doubles it. */
  lemma McLinearInVoltage(t: real, t0: real, v: real, k: real, xDet: real, yDet: real, flightPathLength: real)
    requires TofBinToMc(t, t0, v, xDet, yDet, flightPathLength).Some?
    ensures TofBinToMc(t, t0, k * v, xDet, yDet, flightPathLength).value ==
            k * TofBinToMc(t, t0, v, xDet, yDet, flightPathLength).value
  {
    McOfScales(FlightTime(t, t0), v, k, FlightDistanceSquared(xDet, yDet, flightPathLength));
  }

  lemma McOfPositive(tc: real, v: real, d2: real)
    requires v > 0.0 && tc != 0.0 && d2 > 0.0
    ensures McOf(tc, v, d2) > 0.0
  {
    SquarePositive(tc);
    QuotientPositive(tc * tc, d2);
    ProductPositive(2.0 * Charge, v);
    ProductPositive(2.0 * Charge * v, tc * tc / d2);
    QuotientPositive(2.0 * Charge * v * (tc * tc / d2), Dalton);
    assert Positive(McOf(tc, v, d2));
  }

  /** A positive voltage and a non-zero corrected flight time give a positive ratio wherever it is defined. */
  lemma McPositive(t: real, t0: real, v: real, xDet: real, yDet: real, flightPathLength: real)
    requires v > 0.0 && FlightTime(t, t0) != 0.0
    requires xDet != 1225.0 || yDet != 1225.0 || flightPathLength != 0.0
    ensures TofBinToMc(t, t0, v, xDet, yDet, flightPathLength).Some?
    ensures TofBinToMc(t, t0, v, xDet, yDet, flightPathLength).value > 0.0
  {
    DistancePositive(xDet, yDet, flightPathLength);
    McOfPositive(FlightTime(t, t0), v, FlightDistanceSquared(xDet, yDet, flightPathLength));
  }

  /** An ion that arrives exactly at t0 has ratio zero. */
  lemma McZeroAtT0(t: real, t0: real, v: real, xDet: real, yDet: real, flightPathLength: real)
    requires FlightTime(t, t0) == 0.0 && TofBinToMc(t, t0, v, xDet, yDet, flightPathLength).Some?
    ensures TofBinToMc(t, t0, v, xDet, yDet, flightPathLength).value == 0.0
  {
  }

  /** Hits mirrored through the detector centre give the same ratio. */
  lemma McMirrorSymmetric(t: real, t0: real, v: real, xDet: real, yDet: real, flightPathLength: real)
    ensures TofBinToMc(t, t0, v, 2450.0 - xDet, 2450.0 - yDet, flightPathLength)
         == TofBinToMc(t, t0, v, xDet, yDet, flightPathLength)
  {
    var x, y := BinToMetres(xDet), BinToMetres(yDet);
    assert BinToMetres(2450.0 - xDet) == -x && BinToMetres(2450.0 - yDet) == -y;
    assert (-x) * (-x) == x * x && (-y) * (-y) == y * y;
    assert FlightDistanceSquared(2450.0 - xDet, 2450.0 - yDet, flightPathLength)
        == FlightDistanceSquared(xDet, yDet, flightPathLength);
  }

  lemma SmallerForLarger(k: real, a: real, b: real)
    requires k > 0.0 && 0.0 < a < b
    ensures Below(k / b, k / a)
  {
    assert k / a - k / b == k * (b - a) / (a * b);
    ProductPositive(a, b);
    ProductPositive(k, b - a);
    QuotientPositive(k * (b - a), a * b);
  }

  lemma SquareGrows(p: real, a: real, b: real)
    requires 0.0 < a < b
    ensures Below(p + a * a, p + b * b)
  {
    assert b * b - a * a == (b - a) * (b + a);
    ProductPositive(b - a, b + a);
  }

  /** The squared distance grows with the flight path length. */
  lemma DistanceGrows(xDet: real, yDet: real, l1: real, l2: real)
    requires 0.0 < l1 < l2
    ensures FlightDistanceSquared(xDet, yDet, l1) < FlightDistanceSquared(xDet, yDet, l2)
  {
    var x, y := BinToMetres(xDet), BinToMetres(yDet);
    SquareGrows(x * x + y * y, l1 / 1000.0, l2 / 1000.0);
    assert Below(FlightDistanceSquared(xDet, yDet, l1), FlightDistanceSquared(xDet, yDet, l2));
  }

  lemma McOfFalls(tc: real, v: real, d1: real, d2: real)
    requires v > 0.0 && tc != 0.0 && 0.0 < d1 < d2
    ensures McOf(tc, v, d2) < McOf(tc, v, d1)
  {
    SquarePositive(tc);
    ProductPositive(2.0 * Charge, v);
    ProductPositive(2.0 * Charge * v, tc * tc);
    var k := 2.0 * Charge * v * (tc * tc);
    SmallerForLarger(k, d1, d2);
    assert McOf(tc, v, d1) == k / d1 / Dalton && McOf(tc, v, d2) == k / d2 / Dalton;
    assert Below(k / d2 / Dalton, k / d1 / Dalton);
    assert Below(McOf(tc, v, d2), McOf(tc, v, d1));
  }

  /** At a positive voltage, a longer flight for the same time means a lighter ion. */
  lemma McFallsWithDistance(t: real, t0: real, v: real, xDet: real, yDet: real, l1: real, l2: real)
    requires v > 0.0 && FlightTime(t, t0) != 0.0
    requires 0.0 < l1 < l2
    ensures TofBinToMc(t, t0, v, xDet, yDet, l2).value < TofBinToMc(t, t0, v, xDet, yDet, l1).value
  {
    DistancePositive(xDet, yDet, l1);
    DistanceGrows(xDet, yDet, l1, l2);
    McOfFalls(FlightTime(t, t0), v, FlightDistanceSquared(xDet, yDet, l1), FlightDistanceSquared(xDet, yDet, l2));
  }
}

=== FILE: vertical_lines.dfy ===
/**
 The interactive marker lines on a mass-spectrum plot (`VerticalLineManager`):
 the drawn lines, the shared sorted list `h_line_pos` of marker positions, the
 modifier-key flags, the line being dragged, and the plot's x range. Every
 matplotlib callback is a pure function from the manager to the manager.

 A line is an object in the source; here it carries an identity `id` next to
 its x position, so that "the active line" keeps meaning the same object after
 other lines are removed. An event with no x coordinate (outside the axes) and
 the canvas redraws are not modelled. A Python exception raised inside a
 callback is the `Raised` outcome, with every change made before it kept.
 */
module VerticalLines {
  import opened Options
  import opened Seqs
  import opened Sorting
  import opened PyMath

  /** `self.zoom_factor`. */
  const ZoomFactor: real := 1.1

  /** A click closer than this (strictly) to a line picks that line. */
  const PickTolerance: real := 0.1

  datatype Line = Line(id: nat, x: real)

  /** The axes' x range, `ax.get_xlim()`. */
  datatype Limits = Limits(left: real, right: real)

  /**
   `hLinePos` is `variables.h_line_pos`, `None` while the attribute does not
   exist; `active` is the identity of `active_line`, which may name a line that
   has since been removed.
   */
  datatype Manager = Manager(
    lines: seq<Line>,
    nextId: nat,
    active: Option<nat>,
    hLinePos: Option<seq<real>>,
    peakWidths: seq<real>,
    shift: bool,
    ctrl: bool,
    xlim: Limits)

  /** `AttributeError` for a missing `h_line_pos`, `ValueError` for `min` of an empty list. */
  datatype Fault = AttributeMissing | EmptyArgument

  datatype Outcome = Done | Raised(fault: Fault)

  datatype Handled = Handled(m: Manager, outcome: Outcome)

  /** The matplotlib events the manager subscribes to. */
  datatype Event =
    | Press(button: int, xdata: real)
    | Release
    | Motion(xdata: real)
    | KeyPress(key: string)
    | KeyRelease(key: string)
    | Scroll(up: bool, xdata: real)

  /** The x positions of the drawn lines, in drawing order. */
  function Positions(lines: seq<Line>): (r: seq<real>)
    ensures |r| == |lines|
    ensures forall i :: 0 <= i < |lines| ==> r[i] == lines[i].x
  {
    seq(|lines|, i requires 0 <= i < |lines| => lines[i].x)
  }

  lemma PositionsAppend(a: seq<Line>, b: seq<Line>)
    ensures Positions(a + b) == Positions(a) + Positions(b)
  {
    assert Positions(a + b) == Positions(a) + Positions(b);
  }

  /** Line identities are distinct and below the next fresh one, and the marker list is ascending. */
  predicate WellFormed(m: Manager)
  {
    && (forall i :: 0 <= i < |m.lines| ==> m.lines[i].id < m.nextId)
    && (forall i, j :: 0 <= i < j < |m.lines| ==> m.lines[i].id != m.lines[j].id)
    && (m.hLinePos.Some? ==> Sorted(m.hLinePos.value))
  }

  /** The least and greatest sample, for the initial x range. */
  function Least(s: seq<real>): (r: real)
    requires |s| > 0
    ensures r in s
    ensures forall i :: 0 <= i < |s| ==> r <= s[i]
  {
    if |s| == 1 then s[0]
    else
      var m := Least(s[..|s| - 1]);
      assert forall i :: 0 <= i < |s| - 1 ==> s[..|s| - 1][i] == s[i];
      if s[|s| - 1] < m then s[|s| - 1] else m
  }

  function Greatest(s: seq<real>): (r: real)
    requires |s| > 0
    ensures r in s
    ensures forall i :: 0 <= i < |s| ==> s[i] <= r
  {
    if |s| == 1 then s[0]
    else
      var m := Greatest(s[..|s| - 1]);
      assert forall i :: 0 <= i < |s| - 1 ==> s[..|s| - 1][i] == s[i];
      if s[|s| - 1] > m then s[|s| - 1] else m
  }

  /** `__init__`: no lines, no active line, no modifier held; the x range spans the samples when there are any. */
  function Init(variables: Option<seq<real>>, peakWidths: seq<real>, samples: seq<real>, defaultLimits: Limits): (m: Manager)
    ensures m.lines == [] && m.active.None? && !m.shift && !m.ctrl
    ensures m.hLinePos == variables && m.peakWidths == peakWidths
    ensures |samples| == 0 ==> m.xlim == defaultLimits
    ensures |samples| > 0 ==> m.xlim.left in samples && m.xlim.right in samples
    ensures forall i :: 0 <= i < |samples| ==> m.xlim.left <= samples[i] <= m.xlim.right
  {
    var xlim := if |samples| > 0 then Limits(Least(samples), Greatest(samples)) else defaultLimits;
    Manager([], 0, None, variables, peakWidths, false, false, xlim)
  }

  /**
   Python's `min(s, key=key)`: the index of the first element with the least
   key (a later element replaces the current best only when strictly smaller).
   */
  function ArgMin<T>(s: seq<T>, key: T -> real): (k: nat)
    requires |s| > 0
    ensures k < |s|
    ensures forall j :: 0 <= j < |s| ==> key(s[k]) <= key(s[j])
    ensures forall j :: 0 <= j < k ==> key(s[k]) < key(s[j])
  {
    if |s| == 1 then 0
    else
      var k := ArgMin(s[..|s| - 1], key);
      assert forall j :: 0 <= j < |s| - 1 ==> s[..|s| - 1][j] == s[j];
      if key(s[|s| - 1]) < key(s[k]) then |s| - 1 else k
  }

  predicate Near(line: Line, x: real)
  {
    Abs(line.x - x) < PickTolerance
  }

  /** The index of the first line within the pick tolerance of `x`, if any. */
  function FirstNear(lines: seq<Line>, x: real): (r: Option<nat>)
    ensures r.None? <==> forall i :: 0 <= i < |lines| ==> !Near(lines[i], x)
    ensures r.Some? ==> r.value < |lines| && Near(lines[r.value], x)
    ensures r.Some? ==> forall j :: 0 <= j < r.value ==> !Near(lines[j], x)
  {
    if |lines| == 0 then None
    else if Near(lines[0], x) then Some(0)
    else match FirstNear(lines[1..], x)
      case None => None
      case Some(k) => Some(k + 1)
  }

  /**
   `update_variables`: record a marker position. The list keeps every earlier
   value plus exactly one more occurrence of `pos`, ascending; a missing list
   becomes `[pos]`.
   */
  function UpdateVariables(h: Option<seq<real>>, pos: real): (r: seq<real>)
    ensures Sorted(r)
    ensures h.None? ==> r == [pos]
    ensures h.Some? ==> multiset(r) == multiset(h.value) + multiset{pos}
  {
    match h
    case None => [pos]
    case Some(s) => Sort(s + [pos])
  }

  /** One `axvline` plus `update_variables`: a fresh line at `x` and its marker. */
  function AddMarker(m: Manager, x: real): (r: Manager)
    ensures r.lines == m.lines + [Line(m.nextId, x)] && r.nextId == m.nextId + 1
    ensures r.hLinePos == Some(UpdateVariables(m.hLinePos, x))
    ensures r == m.(lines := r.lines, nextId := r.nextId, hLinePos := r.hLinePos)
  {
    m.(lines := m.lines + [Line(m.nextId, x)], nextId := m.nextId + 1, hLinePos := Some(UpdateVariables(m.hLinePos, x)))
  }

  /** Fresh lines at the given positions, with consecutive identities from `id`. */
  function NewLines(id: nat, widths: seq<real>): (r: seq<Line>)
    ensures |r| == |widths|
    ensures forall i :: 0 <= i < |widths| ==> r[i] == Line(id + i, widths[i])
  {
    seq(|widths|, i requires 0 <= i < |widths| => Line(id + i, widths[i]))
  }

  /**
   `update_variables` once per value, in order: the list ends up ascending and
   holds the earlier values plus every recorded one, counted with multiplicity.
   */
  function RecordAll(h: Option<seq<real>>, widths: seq<real>): (r: Option<seq<real>>)
    ensures |widths| == 0 ==> r == h
    ensures |widths| > 0 ==> r.Some? && Sorted(r.value)
    ensures |widths| > 0 ==>
      multiset(r.value) == (if h.Some? then multiset(h.value) else multiset{}) + multiset(widths)
  {
    if |widths| == 0 then h
    else
      var front, w := widths[..|widths| - 1], widths[|widths| - 1];
      assert widths == front + [w];
      Some(UpdateVariables(RecordAll(h, front), w))
  }

  /**
   `draw_vertical_lines`: one line and one marker per peak width, in order.
   The loop's line appends and marker updates touch disjoint state, so they
   are gathered into one append and one fold.
   */
  function DrawMarkers(m: Manager, widths: seq<real>): (r: Manager)
    ensures r == m.(lines := r.lines, nextId := r.nextId, hLinePos := r.hLinePos)
    ensures Positions(r.lines) == Positions(m.lines) + widths
    ensures |widths| == 0 ==> r.hLinePos == m.hLinePos
    ensures |widths| > 0 ==> r.hLinePos.Some?
    ensures |widths| > 0 ==>
      multiset(r.hLinePos.value) == (if m.hLinePos.Some? then multiset(m.hLinePos.value) else multiset{}) + multiset(widths)
  {
    var added := NewLines(m.nextId, widths);
    PositionsAppend(m.lines, added);
    assert Positions(added) == widths;
    m.(lines := m.lines + added, nextId := m.nextId + |widths|, hLinePos := RecordAll(m.hLinePos, widths))
  }

  /** Left click away from every line: a new active line and a new marker at the click. */
  function AddLine(m: Manager, x: real): (r: Manager)
    ensures r.lines == m.lines + [Line(m.nextId, x)] && r.active == Some(m.nextId)
    ensures r.hLinePos == Some(UpdateVariables(m.hLinePos, x))
    // the new line takes the next identity; the flags, range and peak widths are untouched
    ensures r == m.(lines := r.lines, nextId := m.nextId + 1, hLinePos := r.hLinePos, active := r.active)
  {
    AddMarker(m, x).(active := Some(m.nextId))
  }

  /** The marker value Python's `min(..., key=lambda val: abs(val - target))` picks: the first closest one. */
  function ClosestValue(h: seq<real>, target: real): (c: real)
    requires |h| > 0
    ensures c in h
    ensures forall i :: 0 <= i < |h| ==> Abs(c - target) <= Abs(h[i] - target)
    // of several equally close markers, the first
    ensures exists k :: 0 <= k < |h| && h[k] == c && forall j :: 0 <= j < k ==> Abs(c - target) < Abs(h[j] - target)
  {
    h[ArgMin(h, v => Abs(v - target))]
  }

  /** The index of the line `min(self.lines, key=...)` picks: the first closest one. */
  function ClosestLine(lines: seq<Line>, target: real): (k: nat)
    requires |lines| > 0
    ensures k < |lines|
    ensures forall i :: 0 <= i < |lines| ==> Abs(lines[k].x - target) <= Abs(lines[i].x - target)
    // of several equally close lines, the first
    ensures forall j :: 0 <= j < k ==> Abs(lines[k].x - target) < Abs(lines[j].x - target)
  {
    ArgMin(lines, (l: Line) => Abs(l.x - target))
  }

  /**
   Right click: remove the first line within the pick tolerance, then the
   marker value closest to that line's position, and re-sort. The line is gone
   even when the marker list is missing or empty and the lookup raises.
   */
  function RemoveNear(m: Manager, x: real): (r: Handled)
    ensures FirstNear(m.lines, x).None? ==> r == Handled(m, Done)
    ensures FirstNear(m.lines, x).Some? ==>
      var k := FirstNear(m.lines, x).value;
      && r.m.lines == m.lines[..k] + m.lines[k + 1..]
      && (m.hLinePos.None? ==> r == Handled(m.(lines := r.m.lines), Raised(AttributeMissing)))
      && (m.hLinePos == Some([]) ==> r == Handled(m.(lines := r.m.lines), Raised(EmptyArgument)))
    ensures FirstNear(m.lines, x).Some? && m.hLinePos.Some? && |m.hLinePos.value| > 0 ==>
      var line := m.lines[FirstNear(m.lines, x).value];
      var h := m.hLinePos.value;
      && r.outcome.Done?
      && r.m == m.(lines := r.m.lines, hLinePos := r.m.hLinePos)
      && r.m.hLinePos.Some? && Sorted(r.m.hLinePos.value)
      && multiset(r.m.hLinePos.value) == multiset(h) - multiset{ClosestValue(h, line.x)}
  {
    match FirstNear(m.lines, x)
    case None => Handled(m, Done)
    case Some(k) =>
      var line := m.lines[k];
      var m1 := m.(lines := m.lines[..k] + m.lines[k + 1..]);
      match m.hLinePos
      case None => Handled(m1, Raised(AttributeMissing))
      case Some(h) =>
        if |h| == 0 then Handled(m1, Raised(EmptyArgument))
        else
          var c := ClosestValue(h, line.x);
          Handled(m1.(hLinePos := Some(Sort(RemoveFirst(h, c)))), Done)
  }

  /** `on_press`: ctrl + left click activates the closest line; left click adds; right click removes. */
  function OnPress(m: Manager, button: int, x: real): (r: Handled)
    ensures m.ctrl && button == 1 && |m.lines| == 0 ==> r == Handled(m, Raised(EmptyArgument))
    ensures m.ctrl && button == 1 && |m.lines| > 0 ==>
      r == Handled(m.(active := Some(m.lines[ClosestLine(m.lines, x)].id)), Done)
    ensures !m.ctrl && button == 1 ==> r.outcome.Done?
    ensures !m.ctrl && button == 1 && FirstNear(m.lines, x).Some? ==> r.m == m
    ensures !m.ctrl && button == 1 && FirstNear(m.lines, x).None? ==>
      |r.m.lines| == |m.lines| + 1 && r.m.lines[|m.lines|].x == x && r.m.active == Some(r.m.lines[|m.lines|].id)
    // the earlier lines are kept and the click is recorded as a marker
    ensures !m.ctrl && button == 1 && FirstNear(m.lines, x).None? ==> r == Handled(AddLine(m, x), Done)
    ensures button == 3 ==> r == RemoveNear(m, x)
    ensures button != 1 && button != 3 ==> r == Handled(m, Done)
  {
    if m.ctrl && button == 1 then
      if |m.lines| == 0 then Handled(m, Raised(EmptyArgument))
      else Handled(m.(active := Some(m.lines[ClosestLine(m.lines, x)].id)), Done)
    else if button == 1 then
      if FirstNear(m.lines, x).Some? then Handled(m, Done) else Handled(AddLine(m, x), Done)
    else if button == 3 then RemoveNear(m, x)
    else Handled(m, Done)
  }

  /** `on_release`: no line is active any more. */
  function OnRelease(m: Manager): (r: Manager)
    ensures r.active.None? && r == m.(active := None)
  {
    m.(active := None)
  }

  /** Set the position of the line with identity `id`; every other line stays. */
  function MoveLine(lines: seq<Line>, id: nat, x: real): (r: seq<Line>)
    ensures |r| == |lines|
    ensures forall i :: 0 <= i < |lines| ==> r[i].id == lines[i].id
    ensures forall i :: 0 <= i < |lines| ==> r[i].x == if lines[i].id == id then x else lines[i].x
  {
    if |lines| == 0 then []
    else
      var rest := MoveLine(lines[..|lines| - 1], id, x);
      var last := lines[|lines| - 1];
      rest + [if last.id == id then Line(id, x) else last]
  }

  /** `on_motion`: drag the active line to the pointer. The marker list is not touched. */
  function OnMotion(m: Manager, x: real): (r: Manager)
    ensures m.active.None? ==> r == m
    ensures r == m.(lines := r.lines)
    ensures |r.lines| == |m.lines|
    ensures forall i :: 0 <= i < |m.lines| ==> r.lines[i].id == m.lines[i].id
    ensures forall i :: 0 <= i < |m.lines| ==>
      r.lines[i].x == if m.active == Some(m.lines[i].id) then x else m.lines[i].x
  {
    match m.active
    case None => m
    case Some(id) => m.(lines := MoveLine(m.lines, id, x))
  }

  /** Key `r`: every line is removed, then the marker list is emptied (raising when it does not exist). */
  function ClearAll(m: Manager): (r: Handled)
    ensures r.m.lines == []
    ensures m.hLinePos.None? ==> r == Handled(m.(lines := []), Raised(AttributeMissing))
    ensures m.hLinePos.Some? ==> r == Handled(m.(lines := [], hLinePos := Some([])), Done)
  {
    match m.hLinePos
    case None => Handled(m.(lines := []), Raised(AttributeMissing))
    case Some(_) => Handled(m.(lines := [], hLinePos := Some([])), Done)
  }

  /**
   `on_key_press`: `shift` sets its flag, `r` clears, `a` draws the peak-width
   lines; a separate test afterwards sets the control flag for `control`.
   */
  function OnKeyPress(m: Manager, key: string): (r: Handled)
    ensures key == "shift" ==> r == Handled(m.(shift := true), Done)
    ensures key == "control" ==> r == Handled(m.(ctrl := true), Done)
    ensures key == "r" ==> r == ClearAll(m)
    ensures key == "a" ==> r == Handled(DrawMarkers(m, m.peakWidths), Done)
    ensures key !in {"shift", "control", "r", "a"} ==> r == Handled(m, Done)
  {
    var first :=
      if key == "shift" then Handled(m.(shift := true), Done)
      else if key == "r" then ClearAll(m)
      else if key == "a" then Handled(DrawMarkers(m, m.peakWidths), Done)
      else Handled(m, Done);
    if key == "control" then Handled(first.m.(ctrl := true), first.outcome) else first
  }

  /** `on_key_release`: releasing shift or control clears only that flag. */
  function OnKeyRelease(m: Manager, key: string): (r: Manager)
    ensures key == "shift" ==> r == m.(shift := false)
    ensures key == "control" ==> r == m.(ctrl := false)
    ensures key != "shift" && key != "control" ==> r == m
  {
    if key == "shift" then m.(shift := false)
    else if key == "control" then m.(ctrl := false)
    else m
  }

  /**
   The zoom about `x`: scrolling up divides each bound's distance from `x` by
   the zoom factor, any other direction multiplies it. `x` stays where it is
   relative to the bounds, and the width scales by the factor.
   */
  function Zoom(l: Limits, up: bool, x: real): (r: Limits)
    ensures l.left <= x ==> r.left <= x
    ensures x <= l.right ==> x <= r.right
    ensures r.left == x <==> l.left == x
    ensures r.right == x <==> l.right == x
    ensures up ==> r.right - r.left == (l.right - l.left) / ZoomFactor
    ensures !up ==> r.right - r.left == (l.right - l.left) * ZoomFactor
    // each bound's distance from `x` is divided (up) or multiplied (down) by the factor
    ensures up ==> (x - r.left) * ZoomFactor == x - l.left && (r.right - x) * ZoomFactor == l.right - x
    ensures !up ==> x - r.left == (x - l.left) * ZoomFactor && r.right - x == (l.right - x) * ZoomFactor
    // `x` keeps its place relative to the bounds
    ensures (x - r.left) * (l.right - l.left) == (x - l.left) * (r.right - r.left)
  {
    if up then Limits(x - (x - l.left) / ZoomFactor, x + (l.right - x) / ZoomFactor)
    else Limits(x - (x - l.left) * ZoomFactor, x + (l.right - x) * ZoomFactor)
  }

  /** `on_scroll`: zoom only while shift is held. */
  function OnScroll(m: Manager, up: bool, x: real): (r: Manager)
    ensures !m.shift ==> r == m
    ensures m.shift ==> r == m.(xlim := Zoom(m.xlim, up, x))
  {
    if m.shift then m.(xlim := Zoom(m.xlim, up, x)) else m
  }

  /** Dispatch one event to its callback. */
  function Handle(m: Manager, e: Event): (r: Handled)
    ensures e.Release? ==> r == Handled(OnRelease(m), Done)
    ensures e.Motion? ==> r == Handled(OnMotion(m, e.xdata), Done)
    ensures e.KeyRelease? ==> r == Handled(OnKeyRelease(m, e.key), Done)
    ensures e.Scroll? ==> r == Handled(OnScroll(m, e.up, e.xdata), Done)
    ensures e.Press? ==> r == OnPress(m, e.button, e.xdata)
    ensures e.KeyPress? ==> r == OnKeyPress(m, e.key)
  {
    match e
    case Press(b, x) => OnPress(m, b, x)
    case Release => Handled(OnRelease(m), Done)
    case Motion(x) => Handled(OnMotion(m, x), Done)
    case KeyPress(k) => OnKeyPress(m, k)
    case KeyRelease(k) => Handled(OnKeyRelease(m, k), Done)
    case Scroll(up, x) => Handled(OnScroll(m, up, x), Done)
  }

  /** Adding a marker keeps the manager well formed. */
  lemma AddMarkerKeepsWellFormed(m: Manager, x: real)
    requires WellFormed(m)
    ensures WellFormed(AddMarker(m, x))
  {
  }

  lemma DrawMarkersKeepsWellFormed(m: Manager, widths: seq<real>)
    requires WellFormed(m)
    ensures WellFormed(DrawMarkers(m, widths))
  {
    var r := DrawMarkers(m, widths);
    var n := |m.lines|;
    var added := NewLines(m.nextId, widths);
    assert r.lines == m.lines + added && r.nextId == m.nextId + |widths|;
    forall i | 0 <= i < |r.lines|
      ensures r.lines[i].id == if i < n then m.lines[i].id else m.nextId + (i - n)
      ensures r.lines[i].id < r.nextId
    {
      if i >= n {
        assert r.lines[i] == added[i - n];
      }
    }
  }

  /** Removing one line keeps the other identities distinct. */
  lemma DeleteKeepsDistinctIds(lines: seq<Line>, k: nat, bound: nat)
    requires k < |lines|
    requires forall i :: 0 <= i < |lines| ==> lines[i].id < bound
    requires forall i, j :: 0 <= i < j < |lines| ==> lines[i].id != lines[j].id
    ensures var r := lines[..k] + lines[k + 1..];
      && (forall i :: 0 <= i < |r| ==> r[i].id < bound)
      && (forall i, j :: 0 <= i < j < |r| ==> r[i].id != r[j].id)
  {
    var r := lines[..k] + lines[k + 1..];
    forall i | 0 <= i < |r|
      ensures r[i] == lines[if i < k then i else i + 1]
    {
    }
  }

  lemma RemoveNearKeepsWellFormed(m: Manager, x: real)
    requires WellFormed(m)
    ensures WellFormed(RemoveNear(m, x).m)
  {
    if FirstNear(m.lines, x).Some? {
      DeleteKeepsDistinctIds(m.lines, FirstNear(m.lines, x).value, m.nextId);
    }
  }

  lemma OnPressKeepsWellFormed(m: Manager, b: int, x: real)
    requires WellFormed(m)
    ensures WellFormed(OnPress(m, b, x).m)
  {
    if m.ctrl && b == 1 {
    } else if b == 1 {
      AddMarkerKeepsWellFormed(m, x);
    } else if b == 3 {
      RemoveNearKeepsWellFormed(m, x);
    }
  }

  /**
   Every callback keeps line identities distinct and fresh and, whenever the
   marker list exists, keeps it ascending, whether it completes or raises.
   */
  lemma HandleKeepsWellFormed(m: Manager, e: Event)
    requires WellFormed(m)
    ensures WellFormed(Handle(m, e).m)
  {
    match e
    case Press(b, x) => OnPressKeepsWellFormed(m, b, x);
    case KeyPress(k) =>
      if k == "a" {
        DrawMarkersKeepsWellFormed(m, m.peakWidths);
      }
    case _ =>
  }

  /** A line appended at `x` to lines all away from `x` is the first one near `x`. */
  lemma AppendedLineIsFirstNear(lines: seq<Line>, l: Line, x: real)
    requires FirstNear(lines, x).None? && l.x == x
    ensures FirstNear(lines + [l], x) == Some(|lines|)
    ensures (lines + [l])[..|lines|] + (lines + [l])[|lines| + 1..] == lines
  {
    var s := lines + [l];
    assert Near(s[|lines|], x);
    forall j | 0 <= j < |lines|
      ensures !Near(s[j], x)
    {
      assert s[j] == lines[j];
    }
    assert s[..|lines|] == lines;
  }

  /** Recording a marker and then removing the marker closest to it gives back the ascending list. */
  lemma RecordThenForget(h: seq<real>, x: real)
    requires Sorted(h)
    ensures var h1 := UpdateVariables(Some(h), x); Sort(RemoveFirst(h1, ClosestValue(h1, x))) == h
  {
    var h1 := UpdateVariables(Some(h), x);
    assert multiset(h1) == multiset(h) + multiset{x};
    assert x in multiset(h1);
    var i :| 0 <= i < |h1| && h1[i] == x;
    var c := ClosestValue(h1, x);
    assert Abs(c - x) <= Abs(h1[i] - x) == 0.0;
    assert c == x;
    var h2 := Sort(RemoveFirst(h1, x));
    assert multiset(h2) == multiset(h1) - multiset{x} == multiset(h);
    SortedUnique(h2, h);
  }

  /**
   Left click away from every line, then right click at the same place: the
   line and the marker list are back as they were (the list was ascending).
   */
  lemma AddThenRemoveRestores(m: Manager, x: real)
    requires WellFormed(m) && !m.ctrl
    requires m.hLinePos.Some?
    requires FirstNear(m.lines, x).None?
    ensures var a := OnPress(m, 1, x);
      var r := OnPress(a.m, 3, x);
      && r.outcome.Done?
      && r.m.lines == m.lines
      && r.m.hLinePos == m.hLinePos
  {
    var a := AddLine(m, x);
    AppendedLineIsFirstNear(m.lines, Line(m.nextId, x), x);
    RecordThenForget(m.hLinePos.value, x);
  }

  /** Zooming in and then out about the same point restores the x range exactly, and the other way round. */
  lemma ZoomRoundTrip(l: Limits, x: real)
    ensures Zoom(Zoom(l, true, x), false, x) == l
    ensures Zoom(Zoom(l, false, x), true, x) == l
  {
  }

  /** With shift held, a scroll keeps a pointer inside the x range inside it. */
  lemma ScrollKeepsPointerInRange(m: Manager, up: bool, x: real)
    requires m.xlim.left <= x <= m.xlim.right
    ensures var r := OnScroll(m, up, x); r.xlim.left <= x <= r.xlim.right
  {
  }

  /** The drawn lines and the marker list hold the same positions, counted with multiplicity. */
  predicate InSync(m: Manager)
  {
    m.hLinePos.Some? && multiset(Positions(m.lines)) == multiset(m.hLinePos.value)
  }

  lemma {:induction false} PositionsDelete(lines: seq<Line>, k: nat)
    requires k < |lines|
    ensures multiset(Positions(lines[..k] + lines[k + 1..])) == multiset(Positions(lines)) - multiset{lines[k].x}
  {
    var a, b := lines[..k], lines[k + 1..];
    assert lines == (a + [lines[k]]) + b;
    PositionsAppend(a, b);
    PositionsAppend(a + [lines[k]], b);
    PositionsAppend(a, [lines[k]]);
    assert Positions([lines[k]]) == [lines[k].x];
    var pa, pb := Positions(a), Positions(b);
    assert Positions(lines) == pa + [lines[k].x] + pb;
    assert multiset(Positions(lines)) == multiset(pa) + multiset{lines[k].x} + multiset(pb);
  }

  lemma AddLineKeepsInSync(m: Manager, x: real)
    requires InSync(m)
    ensures InSync(AddLine(m, x))
  {
    PositionsAppend(m.lines, [Line(m.nextId, x)]);
  }

  /** The removed line's position is in the list, so it is the closest value and the marker removed. */
  lemma RemoveNearKeepsInSync(m: Manager, x: real)
    requires InSync(m)
    requires RemoveNear(m, x).outcome.Done?
    ensures InSync(RemoveNear(m, x).m)
  {
    if FirstNear(m.lines, x).Some? {
      var k := FirstNear(m.lines, x).value;
      var h := m.hLinePos.value;
      var lx := m.lines[k].x;
      PositionsDelete(m.lines, k);
      assert lx in multiset(Positions(m.lines)) by {
        assert Positions(m.lines)[k] == lx;
      }
      ClosestOfMember(h, lx);
    }
  }

  /** A value that is itself a marker is its own closest marker. */
  lemma ClosestOfMember(h: seq<real>, v: real)
    requires v in multiset(h)
    ensures ClosestValue(h, v) == v
  {
    var i :| 0 <= i < |h| && h[i] == v;
    assert Abs(h[i] - v) == 0.0;
  }

  /**
   Clicks, keys, releases and scrolls keep the lines and the marker list in
   step: a right click removes the marker at the removed line's own position.
   */
  lemma ClicksKeepInSync(m: Manager, e: Event)
    requires InSync(m)
    requires !e.Motion?
    ensures Handle(m, e).outcome.Done? ==> InSync(Handle(m, e).m)
  {
    match e
    case Press(b, x) =>
      if !(m.ctrl && b == 1) && b == 1 && FirstNear(m.lines, x).None? {
        AddLineKeepsInSync(m, x);
      } else if !(m.ctrl && b == 1) && b == 3 && RemoveNear(m, x).outcome.Done? {
        RemoveNearKeepsInSync(m, x);
      }
    case KeyPress(k) =>
      if k == "a" {
        DrawMarkersInSync(m, m.peakWidths);
      }
    case _ =>
  }

  lemma DrawMarkersInSync(m: Manager, widths: seq<real>)
    requires InSync(m)
    ensures InSync(DrawMarkers(m, widths))
  {
  }

  /** Dragging a line does not update the marker list: the two fall out of step. */
  lemma MotionLeavesMarkersBehind()
    ensures var m := Manager([Line(0, 1.0)], 1, Some(0), Some([1.0]), [], false, false, Limits(0.0, 2.0));
      InSync(m) && !InSync(OnMotion(m, 1.5))
  {
    var m := Manager([Line(0, 1.0)], 1, Some(0), Some([1.0]), [], false, false, Limits(0.0, 2.0));
    assert Positions(m.lines) == [1.0];
    var r := OnMotion(m, 1.5);
    assert Positions(r.lines) == [1.5];
    assert 1.5 in multiset(Positions(r.lines));
  }
}
